=== FILE: README.md ===
# Module entries of the `esm` loader, in Dafny

`esm` lets Node load ES modules and CommonJS modules side by side. Every loaded
module is represented by an **entry** (`src/entry.js`), which the loader uses to:

- register the entry in a cache keyed by the module object and its exports
  container (`Entry.get`, `set`, `has`, `delete`);
- record the module's **getters**: functions that read its exported bindings.
  The loader fills the entry's raw namespace object from them (`runGetter(s)`,
  `assignExportsToNamespace`);
- record the **setters** of the modules that import it. These are functions that
  assign the importers' local bindings. On `update()` they run again, and they
  fire only when a value changed by `Object.is` (`changed`, `getExportByName`,
  `runSetter(s)`);
- finish a load in `loaded()`. The entry is complete once its module has run and
  none of its children is incomplete. At that point:
  - an ES module's exports container is sealed behind accessors onto the
    namespace;
  - a CommonJS entry is merged with the entry its exports now belong to
    (`merge`, `mergeProperty`, `addGettersFrom`);
  - the sorted, read-through namespace views that importers receive are made
    (`toNamespace`, `createNamespace`).

The model is a pure, functional store (`EntryState.World`) with these parts:

- the entries;
- the registry cache;
- the set of module names whose exports are not used as cache keys
  (`skipExports`);
- the module objects, with their name, exports, loaded flag, compile data and
  package options;
- the own properties of every object the engine touches, kept in creation
  order (`OrderedMaps`), which is the order JavaScript uses for keys that are
  not array indices;
- the set of sealed objects;
- the local bindings that compiled getters read and compiled setters assign.

Property reads follow accessors and proxies (`EntryState.ReadPropN`). Each
operation of `src/entry.js` is a function on this store. Its laws are proved in
a companion module:

| module | file | what it models |
|---|---|---|
| `Values` | values.dfy | JavaScript values, `Object.is`, `===` |
| `OrderedMaps` | ordered_map.dfy | objects with insertion-ordered keys |
| `StringOrder` | string_order.dfy | `Array#sort` on strings (code-unit order) |
| `EntryState` | entry_state.dfy | entry records, the store, property reads and writes, well-formedness |
| `Registry` | registry.dfy | the constructor, `Entry.get/set/has/delete` |
| `Accessors` | accessors.dfy | `addGetter(s)`, `addSetter(s)`, `addGettersFrom` |
| `Merge`, `MergeLaws` | merge.dfy, merge_laws.dfy | `merge`, `mergeProperty` |
| `Namespaces` | namespace.dfy | `toNamespace`, `createNamespace` |
| `Exports`, `ExportsLaws` | exports.dfy, exports_laws.dfy | `assignExportsToNamespace`, `callGetter`, `runGetter(s)` |
| `Reconcile`, `ReconcileLaws` | reconcile.dfy, reconcile_laws.dfy | `changed`, `getExportByName`, `runSetter(s)`, `update` |
| `Lifecycle`, `LifecycleLaws` | lifecycle.dfy, lifecycle_laws.dfy | `loaded` |

Three details of the code matter for the laws below:

- **Order of merged setter lists.** A merged list starts with the *other*
  entry's setters, followed by this entry's setters that are not already in it
  (src/entry.js:515-523).
- **Memo comparison.** The memo compares with `Object.is`, i.e. SameValue
  (src/entry.js:432), so `+0` and `-0` differ and `NaN` equals `NaN`.
- **Key order of views.** `keys(source).sort()` (src/entry.js:578) orders names
  by UTF-16 code units, not by code points: a name starting with a character
  outside the Basic Multilingual Plane sorts before one starting with
  U+E000..U+FFFF.

## Model

| member | source | states |
|---|---|---|
| Values.SameValueVersusStrictEquals | src/entry.js:429-438 | the `Object.is` test the setter memo uses differs from `===` on exactly two kinds of input: NaN against NaN, and +0 against -0 |
| Values.SameValueVersusSameValueZero | src/entry.js:429-438 | the memo's comparison differs from SameValueZero only on +0 against -0, so a change of sign counts as a change |
| Values.StrictEqualsOnSentinels | src/entry.js:37-38 | the getter-error and star-conflict sentinels are fresh objects, so a `===` test against one matches that sentinel and nothing else |
| OrderedMaps.Assign | src/entry.js:498-499 | merging children: every key of the other map takes its value, the other keys keep theirs, and existing keys keep their place in iteration order |
| StringOrder.Sort | src/entry.js:578 | the view's keys come out sorted, with exactly the same multiset of names as the input |
| StringOrder.LessEqIsCodeUnitOrder | src/entry.js:578 | the comparison the sort uses is exactly the lexicographic order of the names' UTF-16 code-unit sequences, the default order of `Array#sort` |
| StringOrder.SurrogatesSortFirst | src/entry.js:578 | a name made of a surrogate pair (U+1F600) sorts before U+FF01, unlike code-point order |
| StringOrder.SortedUnique | src/entry.js:578 | two sorted sequences with the same members (as multisets) are equal, so there is one sorted order for any set of names |
| EntryState.EnumerableKeys | src/entry.js:401 | `keys(object)` yields exactly the own properties that are not hidden |
| Registry.HasEntry | src/entry.js:167-170 | only an object-like value can be registered |
| Registry.DeleteEntry | src/entry.js:129-133 | exactly the value's own key is removed when the value is object-like; every other registration survives unchanged |
| Registry.SetThenLookup | src/entry.js:172-176 | after `set(v, e)`, looking up `v` finds `e` exactly when `v` is object-like, and lookups of other values are unaffected |
| Registry.SetThenHas | src/entry.js:167-176 | `has(v)` after `set(v, e)` holds exactly for object-like `v` |
| Registry.DeleteThenHas | src/entry.js:129-133 | after `delete(v)`, `has(v)` is false and `has` of every other value is unchanged |
| Registry.NewEntryRec | src/entry.js:51-127 | a new entry is incomplete and unchanged, carries its module's name, has a single empty `"*"` setter list, no getters and no children, and all three namespaces are the fresh raw namespace |
| Registry.Allocate | src/entry.js:159 | a new entry and its namespace object get fresh identities, and nothing that existed before changes |
| Registry.GetEntry | src/entry.js:135-165 | a falsy handle has no entry; any other handle always yields an entry, and the module table does not change |
| Registry.GetEntryFinds | src/entry.js:140-162 | the three outcomes: the entry registered under the exports container (unless the name is in the skip set), else the one under the handle, else a new entry registered under both |
| Registry.GetEntryIdempotent | src/entry.js:135-165 | a second `Entry.get` of the same handle returns the same entry and changes nothing |
| Registry.GetEntryFrame | src/entry.js:135-165 | `Entry.get` keeps the store well formed, only adds to it, and leaves every existing entry and object as it was |
| Accessors.AddGetter | src/entry.js:178-182 | the getter is stamped with its owner and replaces the getter for that one name; every other name keeps its getter, and a replaced name keeps its position |
| Accessors.AddGetters | src/entry.js:184-190 | each name ends with the getter of the last pair that names it; names that no pair mentions keep their getters |
| Accessors.AddSetter | src/entry.js:227-233 | the setter, with an empty memo and its parent recorded, is appended to its name's list (which is created if missing); every other list is untouched |
| Accessors.AddSetters | src/entry.js:235-241 | every list grows by exactly the pairs that name it, in the order given |
| Accessors.GettersFromKeysRule | src/entry.js:192-225 | the rule per export: `default` and unlisted names keep their getter; a name without a getter adopts the other entry's; a name with a getter gets the star-conflict getter exactly when the conflict condition holds |
| Accessors.EsmNeverConflicts | src/entry.js:210-214 | an ES module entry never gets a conflict getter from `addGettersFrom`; each name ends with its own getter or the other entry's |
| Accessors.StarConflictScenario | src/entry.js:216-221 | a CommonJS re-export that two different modules both supply becomes a conflict, and one whose owners agree keeps its getter |
| Accessors.AddGettersFrom | src/entry.js:192-225 | only this entry's getters change; every other entry and field is untouched |
| Accessors.AddGettersFromWf | src/entry.js:192-225 | every adopted getter still refers to existing entries, so the store stays well formed |
| Merge.MaxLoad | src/entry.js:504-505 | `_loaded` after a merge is the later of the two states in the order incomplete < indeterminate < completed |
| Merge.MergeSetters | src/entry.js:513-524 | corrected setter merge: the names are the union; a name of the other entry gets the other entry's list followed by this entry's setters that are not in it; a name only this entry has keeps its list |
| MergeLaws.MergeKeepsSetters | src/entry.js:513-524 | no setter is lost: a merged list holds every setter of both sides, starts with the other side's list, adds only this side's setters, and repeats none that were unique |
| MergeLaws.AppendMissingKeeps | src/entry.js:519-523 | the inner loop keeps the target list as a prefix, adds only setters from the source, adds none twice, and ends with the union of both lists' setters |
| MergeLaws.MergeSettersAgree | src/entry.js:515-523 | when every name of the other entry already has a list on this entry, the loop as written and the corrected merge give the same result |
| MergeLaws.MergeSettersMissingList | src/entry.js:515-523 | a name that only the other entry has makes the loop as written fail, while the corrected merge keeps the other entry's setters |
| Merge.MergeRec | src/entry.js:487-527 | after the merge: the load state is the larger one; children are the union with the other's winning; every other getter is re-registered under this entry; the setter lists are merged; `exports` takes the other's value unless it is null or undefined; every other field is the other entry's (`mergeProperty` copies it) |
| Merge.MergeEntries | src/entry.js:320-328 | merging an entry with itself changes nothing; otherwise only this entry's record changes, which gets its own copies of the merged setter lists where the source shares the other entry's arrays (see "## Left out") |
| MergeLaws.MergeRecRefsOk | src/entry.js:487-527 | every reference in the merged record resolves |
| MergeLaws.MergeEntriesWf | src/entry.js:320-328 | a merge keeps the store well formed |
| Namespaces.ToNamespace | src/entry.js:577-588 | the view's keys are the source's own enumerable keys, exactly, in sorted order |
| Namespaces.ViewOrderCanonical | src/entry.js:578 | two sources with the same key set give views with identical key order, whatever order the keys were created in |
| Namespaces.ViewKeysDistinct | src/entry.js:577-586 | a view never lists a name twice |
| Namespaces.EsmNamespaceOf | src/entry.js:313 | the namespace ES importers receive reads through `entry.namespace` |
| Namespaces.CjsNamespaceOf | src/entry.js:309-311 | the namespace CommonJS importers receive lists only `default`, over the literal `{ default: exports }` |
| Namespaces.CjsViewReadsContainer | src/entry.js:309-311 | that namespace's `default` is the exports container; it owns `default` and no other name |
| Namespaces.NsGet | src/entry.js:577-593 | a read of `Symbol.toStringTag` gives `"Module"`, the tag `createNamespace` defines (src/entry.js:440-452); a name read from a view over a live namespace is the raw namespace's current property, except that behind the proxy an object-like `default` reads as the exports proxy; a view over `{ default: exports }` reads `default` as the container and an unknown name as undefined |
| Namespaces.ViewReadsAreLive | src/entry.js:589-593 | after a data property of the raw namespace is written, the view reads the new value (an object-like `default` behind the proxy reads as the exports proxy) |
| Namespaces.NsOwnProperty | src/entry.js:594-621 | a descriptor exists exactly for the tag and for the listed names; it is never configurable, enumerable and writable exactly for names, and its value is what a read returns |
| Namespaces.NsSet | src/entry.js:622-632 | an assignment always reports success and changes nothing; when warnings are on it warns with "assignment" exactly when the source has the name and "extension" otherwise |
| Namespaces.ListedNameIsAssignment | src/entry.js:622-629 | assigning a name the view lists warns as an assignment, not as an extension |
| Exports.AssignDefault | src/entry.js:376-395 | a `default` getter always exists afterwards; the first time, the getter is added and the namespace goes behind the proxy; the namespace's `default` is written with the container |
| ExportsLaws.CjsDefaultIsContainer | src/entry.js:376-393 | once a CommonJS module's `default` is skipped, the namespace is proxied and its `default` reads as the exports proxy for an object-like container, or as the container itself otherwise |
| ExportsLaws.ReadNamespaceData | src/entry.js:382-393 | the namespace proxy changes only the read of an object-like `default`; every other data property reads as stored |
| ExportsLaws.PseudoKeepsDefault | src/entry.js:367-413 | a transpiled pseudo-ES module with its own `default` is not proxied; its `default` becomes an accessor onto the container |
| Exports.AssignExports | src/entry.js:361-419 | `assignExportsToNamespace` changes only this entry's getters, its namespace proxy and object contents; it adds and removes no object, and other entries are untouched |
| ExportsLaws.AssignExportsGetters | src/entry.js:376-418 | afterwards every copied name, and `default` when skipped, has a getter; existing getters are kept and each new one reads this entry's namespace |
| ExportsLaws.CjsCopyInstalls | src/entry.js:404-413 | each copied name that a CommonJS namespace lacks (other than a skipped `default`) becomes an accessor onto the container's property |
| ExportsLaws.CjsCopyKeeps | src/entry.js:404-413 | copying never overwrites a property a CommonJS namespace already had and touches no other object |
| ExportsLaws.ContainerAccessorIsLive | src/entry.js:408-412 | the accessor reads the container's current value, and a write through it lands on the container |
| Exports.CallGetter | src/entry.js:421-427 | a missing getter, or a compiled getter whose binding is not initialised, gives the error sentinel; a conflict getter gives the star-conflict sentinel; a compiled getter gives its binding's value |
| Exports.RunGetter | src/entry.js:529-539 | the change flag becomes set exactly when the getter succeeds with a value that differs by `Object.is` from the namespace's; when it does not, nothing changes |
| ExportsLaws.RunGetterWrites | src/entry.js:529-539 | a getter that fires stores its value as a data property of the namespace and changes no other object |
| ExportsLaws.RunGetterSettles | src/entry.js:529-539 | after `runGetter`, the same getter does not fire again |
| ExportsLaws.RunGettersOverSettles | src/entry.js:541-545 | after one pass, no getter in the pass fires |
| ExportsLaws.RunGettersOverQuiet | src/entry.js:541-545 | a pass in which no getter fires changes nothing |
| Exports.RunGetters | src/entry.js:541-549 | `runGetters` changes only this entry's getters, proxy and change flag, plus object contents; other entries are untouched |
| ExportsLaws.EsmRunGettersIdempotent | src/entry.js:541-549 | for an ES module with compiled getters, running the getters twice is the same as running them once |
| Reconcile.Changed | src/entry.js:429-438 | reports a change exactly when the value differs by `Object.is` from the memo (missing counts as undefined); afterwards the memo holds the value and other keys are kept |
| ReconcileLaws.ChangedOnce | src/entry.js:429-438 | a second `changed` with the same value reports no change |
| ReconcileLaws.FreshSetterIgnoresUndefined | src/entry.js:229 | a newly registered setter does not fire for undefined but does fire for a defined value |
| Reconcile.GetExportByName | src/entry.js:454-485 | `*` finds the CommonJS view for a script importer and the ES view otherwise; an ES module's name finds the namespace's current value; for CommonJS a missing-export error is thrown exactly when the export is missing, and otherwise an error is thrown exactly when the namespace holds the star-conflict sentinel, the value found being the namespace's; a missing export also drops that name's setters; a value that is found leaves the store unchanged |
| ReconcileLaws.ScriptImportsOnlyDefault | src/entry.js:457-476 | a module without named-exports interop that imports a name other than `default` from CommonJS gets a missing-export error, and that name's setters are removed while all others are kept |
| ReconcileLaws.EsmLookupNeverThrows | src/entry.js:461-467 | an ES module lookup returns the ESM namespace for `*`, otherwise the namespace's current value, and never throws |
| ReconcileLaws.MissingExportNotRetried | src/entry.js:473-475 | once a missing export's setters are removed, running that name's setters does nothing |
| ReconcileLaws.LookupIgnoresSetters | src/entry.js:454-485 | what a lookup finds does not depend on the setter memos or on the bindings that setters assign |
| Reconcile.SetterStep | src/entry.js:555-567 | a namespace setter is forced with undefined when the namespace changed; otherwise the step throws exactly when the lookup throws, a found value that differs from the setter's memo by `SameValue` is recorded in the memo, assigned to the setter's binding and schedules the setter's importer, and a value equal to the memo records nothing, assigns nothing and schedules nothing; a step changes nothing but bindings and the setter's memo |
| Reconcile.RunSetter | src/entry.js:551-569 | `runSetter` changes only this entry's setter memos and the bound locals; names, order and importers are kept, and the lists of other names are untouched |
| ReconcileLaws.RunSetterSchedules | src/entry.js:551-569 | after `runSetter` the importers scheduled for update are those scheduled before plus exactly the importers of the setters that fired (forced, or seeing a value different from their memo) |
| ReconcileLaws.RunSetterSettles | src/entry.js:551-569 | after `runSetter`, each of that name's setters holds in its memo what a lookup finds |
| Reconcile.RunSetters | src/entry.js:571-575 | `runSetters` changes only setter memos and the bound locals |
| ReconcileLaws.RunSettersSchedules | src/entry.js:551-575 | after a full pass the importers scheduled for update are exactly those scheduled before plus the importers of the setters that fired, name by name |
| ReconcileLaws.UpdateSchedulesFiredImporters | src/entry.js:330-355 | `update()` goes on to update importers exactly when some setter of its pass fired: with fuel for one level, it runs out of fuel if and only if the set of importers of fired setters is non-empty |
| ReconcileLaws.RunSettersSettles | src/entry.js:571-575 | after a full pass every setter's memo holds what a lookup finds |
| ReconcileLaws.RunSettersQuiet | src/entry.js:571-575 | a pass over settled setters changes nothing and schedules no importer |
| ReconcileLaws.SecondPassFiresNothing | src/entry.js:330-355 | a second pass of the setters fires none of them when neither pass is forced (the namespace flag is clear) |
| ReconcileLaws.QuietUpdateStops | src/entry.js:330-358 | `update()` on an ES module entry with nothing new to report leaves the store exactly as it was and updates no importer |
| Lifecycle.Loaded | src/entry.js:243-318 | keeps the store well formed and the record of every entry that was already settled unchanged, setter lists being copied by a merge rather than shared (see "## Left out"); a reached state is stored; a completed load needs the module to have executed and takes its name out of the skip set; an incomplete entry that gets past incomplete has every child settled, and as an ES module has sealed exports |
| LifecycleLaws.LoadedWithoutWork | src/entry.js:243-250 | a settled entry reports its state, and an entry whose module is still running reports its state, without changing anything |
| LifecycleLaws.LoadedIsSticky | src/entry.js:243-246 | once `loaded()` has returned a state other than incomplete, calling it again returns that state and changes nothing |
| LifecycleLaws.SettledChildrenPass | src/entry.js:254-260 | a walk over children that are all settled gets through without changing anything |
| LifecycleLaws.BlockedChildHoldsBack | src/entry.js:254-259 | a first child whose module is still running keeps the entry incomplete, and the store ends as it began |
| LifecycleLaws.EsmCycleCompletes | src/entry.js:252-278 | an ES module whose children are settled, apart from itself in a cycle, completes and its exports end sealed |
| Lifecycle.LoadChildren | src/entry.js:254-260 | the walk keeps the store well formed and leaves the records of settled entries unchanged, setter lists being copied by a merge rather than shared (see "## Left out"); a walk that gets through leaves every walked child settled, and a blocked walk stopped at a child that is incomplete |
| Lifecycle.Visit | src/entry.js:252-260 | the entry is indeterminate while its children load; a walk that gets through leaves all its children settled, a blocked one leaves one of them incomplete |
| Lifecycle.AfterChildren | src/entry.js:257-258 | a blocked walk makes the entry incomplete; a walk that gets through reaches a state, completed for an ES module; a walk out of fuel stays out of fuel; the stored state is the returned one |
| Lifecycle.Begin | src/entry.js:252-317 | the state returned is the one stored; completion takes the name out of the skip set; an ES module past incomplete ends sealed; past incomplete, every child is settled |
| Lifecycle.Finish | src/entry.js:262-317 | an ES module always completes with its exports sealed; in either branch the state returned is the one stored, and completion takes the name out of the skip set |
| Lifecycle.FinishEsm | src/entry.js:262-317 | the ES module branch always completes, with the exports container sealed, the name out of the skip set, the state stored and no other entry's record changed |
| Lifecycle.DefineGetters | src/entry.js:274-276 | each namespace name gets an accessor onto the namespace; every other property and object is kept |
| Lifecycle.SealContainer | src/entry.js:267-278 | the container joins the sealed set; no object is added or removed, and nothing but objects and the sealed set changes |
| LifecycleLaws.SealedContainerInstalls | src/entry.js:273-276 | after sealing, every enumerable namespace name is an accessor onto this entry's namespace |
| LifecycleLaws.SealedContainerMirrors | src/entry.js:274-276 | reading such a name from the sealed container reads the namespace |
| LifecycleLaws.SealedContainerRefusesWrites | src/entry.js:274-278 | writing a mirrored name, or adding a new name, to the sealed container changes nothing |
| LifecycleLaws.SealedContainerFlag | src/entry.js:269-272 | with interop on and no `__esModule` anywhere, the container gets a hidden `__esModule` that is `true`; with interop off, and no enumerable `__esModule` in the namespace, no flag is added |
| LifecycleLaws.SealedContainerKeeps | src/entry.js:267-278 | sealing keeps the container's other properties and every other object |
| Lifecycle.Complete | src/entry.js:316-317 | the entry becomes completed and its name leaves the skip set; nothing else changes |
| Lifecycle.Publish | src/entry.js:306-317 | copying the exports and making the views ends completed, with the name out of the skip set and other entries untouched; every copied export name and, when `default` is skipped, `default` gets a getter on this entry; with `setNsGetters` the views are the CommonJS and ES namespaces of the entry, otherwise they are kept |
| Lifecycle.SetViews | src/entry.js:308-314 | only this entry's two views change, and they become the CommonJS namespace `{ default: module.exports }` and the ES namespace of the entry |
| Lifecycle.Prepare | src/entry.js:306-314 | copying the exports and making the views keeps the store well formed and touches no other entry; every copied export name gets a getter; with `setNsGetters` the views are the entry's CommonJS and ES namespaces, otherwise they are kept |
| Lifecycle.Find | src/entry.js:282 | `Entry.get(this.module)` yields an existing entry, the one `Entry.get` returns for the entry's module, and changes no existing entry |
| Lifecycle.Absorb | src/entry.js:286 | `this.merge(newEntry)` keeps the store well formed and changes only this entry's record, which becomes the merge of the two records with copies of the merged setter lists (see "## Left out") |
| Lifecycle.Adopt | src/entry.js:280-286 | re-resolving and merging changes only this entry's record: it is merged with the entry `Entry.get` returns for its module, with copies of the merged setter lists (see "## Left out"), and takes that entry's module; the views are to be made exactly when that entry had not completed |
| Lifecycle.Rekey | src/entry.js:291-299 | a registration key is moved only when the old and new values differ by `===`; the move is a delete followed by a set |
| Lifecycle.Reregister | src/entry.js:288-299 | re-registering touches only the cache and keeps the store well formed; when neither the module nor its exports changed by `===` nothing changes; a changed exports container that can be a key finds the entry; a changed module finds the entry unless the old container's removal took that same key away |
| Lifecycle.Settle | src/entry.js:301-317 | the entry is left incomplete exactly when its module is still running, and completed otherwise; the state is stored and completion takes the name out of the skip set |
| Lifecycle.FinishCjs | src/entry.js:279-303 | the CommonJS branch stores the state it reaches and changes no other entry's record, setter lists being copied by the merge rather than shared (see "## Left out"); the entry takes the module of the entry `Entry.get` found and is re-registered as Lifecycle.RegisteredAfter states, relative to the registry `Entry.get` left |
| LifecycleLaws.CjsFinishRegisters | src/entry.js:279-299 | when a CommonJS entry finishes, it stands for the module of the entry `Entry.get` found; it is registered under that module if the module changed and under its exports container if the container changed; if neither changed the registry is the one `Entry.get` left |

## Left out

- **I/O and the package cache.** `Package.from`, `getModuleName`, and the
  `compileData` getter and setter over the package's compile cache are not
  modelled. A module object carries its name, compile data and package options
  directly.
- **Fields with no behaviour in this file.** `_requireESM`, `builtin`,
  `cacheName`, `id`, `parent`, `runtimeName`, `state` and `url` are never read
  here, so they are not modelled.
- **Mode.** The `mode` getter is evaluated once, when the entry is created. The
  source re-evaluates it on each read until compile data exists, and only then
  pins it.
- **Deferred views.** `setDeferred` in `loaded()` is modelled as an eager
  computation when the load completes. A key added to the namespace between
  completion and the first read of a view is therefore missing from the
  model's key list.
- **Getters and setters are data, not code.** Getters and setters are
  arbitrary functions in the source. The model has a fixed set of kinds:
  - a compiled getter reads a local binding, and throws while the binding is
    uninitialised;
  - a namespace getter reads a namespace property;
  - a conflict getter returns the star-conflict sentinel;
  - a setter assigns one local binding of its importer.
  Other exceptions inside getters or setters are not modelled.
- **Warnings.** `warn` is not modelled as output. The TDZ warning and the
  namespace-assignment warnings are returned as values.
- **`proxyExports`.** Its proxy is an opaque value that reads the exports of the
  module it wraps.
- **Reads through accessors.** Reads follow at most `EntryState.MaxHops`
  accessors and proxies. This is more than the longest chain the engine builds.
- **Failing strict-mode writes.** A write to a setter-less accessor, or a new
  key on a sealed object, would throw in strict mode. The engine never
  performs such a write, and the model makes it a no-op.
- **Property attributes.** Writability and configurability are not modelled.
  A property is enumerable data, hidden data, or one of the two accessor kinds.
- **`Object.isSealed`.** It is modelled only for the objects the engine tracks.
  Any other value counts as sealed.
- **`Object.prototype`.** The view `{ default: exports }` inherits from
  `Object.prototype`. Only the names an inherited read can find are modelled.
- Lifecycle.Loaded: `loaded()` and the child walk take a fuel bound in place
  of the depth of the child graph. When the fuel runs out the result is
  `LoadOutOfFuel`, which the source has no equivalent for.
- Reconcile.Update: `update()` takes a fuel bound in place of the depth of the
  importer cascade, and has no contract of its own. Its laws are
  `ReconcileLaws.QuietUpdateStops`, `ReconcileLaws.SecondPassFiresNothing` and
  `ReconcileLaws.UpdateSchedulesFiredImporters`.
- ReconcileLaws.UpdateSchedulesFiredImporters: is stated with fuel for one
  level, where going on to the importers shows as running out of fuel. It does
  not follow the cascade into the importers' own `update()` calls, and it
  says nothing when the pass of setters throws.
- Lifecycle.Loaded: requires a well-formed store, in which every entry's
  module, namespace, children, getter owners and setter parents exist. Every
  store the operations build is well formed.
- Merge.MergeRec: merges setter lists with the corrected `Merge.MergeSetters`,
  not the loop as written. So a `loaded()` that merges a CommonJS entry with an
  entry holding setters for a name this entry has no list for completes in the
  model, where the source throws a TypeError (src/entry.js:515-519; see
  Findings).
- Reconcile.SetterStep: the TDZ test reads the temporal export names the entry
  took from its compile data when it was created. The source reads
  `compileData.exportTemporals` on every `runSetter` (src/entry.js:565), and it
  throws a TypeError when the compile data is missing or still the placeholder
  `true` while the rest of the condition holds. The model treats that case as
  no temporal names: no warning and no error.
- Merge.MergeEntries: gives this entry its own copy of each merged setter
  list. The source assigns the other entry's array to this entry
  (src/entry.js:517) and pushes this entry's setters into that array
  (src/entry.js:521). After `A.merge(B)` both entries therefore hold one
  array with the same setter objects. In the source, B's list grows too, a
  later `update()` of B also calls A's setters, and a memo written through
  either entry is seen through the other. The model leaves B's record as it
  was and gives A separate memos, so it can miss calls that the source makes
  and make calls that the shared memo would suppress.
- Lifecycle.Absorb: changes only this entry's record because the merge
  copies setter lists (see Merge.MergeEntries); in the source, the merged
  entry's setter arrays grow as well.
- Lifecycle.Adopt: the same copy of setter lists as Lifecycle.Absorb.
- Lifecycle.FinishCjs: the same copy of setter lists. The entry merged in may
  already be completed, so in the source a completed entry's setter arrays
  change.
- Lifecycle.LoadChildren: a settled entry's record is unchanged in the model.
  In the source, a child's CommonJS merge can grow a settled entry's setter
  arrays (see Merge.MergeEntries).
- Lifecycle.Loaded: the same holds for settled entries during `loaded()`.
- **Array-index keys.** JavaScript lists an object's array-index keys first,
  in ascending numeric order, and its other string keys after them in
  creation order. `OrderedMaps` keeps every key in creation order. Take
  `module.exports = { b: 1, 10: 2, 2: 3 }`: the model walks "b", "10", "2",
  where `keys()` (src/entry.js:401) and the `for…in` loops at
  src/entry.js:196, 274 and 572 walk "2", "10", "b". This changes three
  orders: the order in which namespace properties are created, the order of
  the accessors on a sealed container, and the order in which `runSetters`
  calls setters and emits warnings. The views' sorted key lists do not
  change.
- **Lone surrogates.** A JavaScript property name may contain an unpaired
  surrogate code unit. A Dafny `char` is a Unicode scalar value, so the
  model's names cannot contain one, and `StringOrder` orders well-formed
  strings only.
- Registry.DeleteEntry: `Entry.delete(value, entry)` ignores its second
  argument, exactly as the source does.
- **Symbol keys.** Only `Symbol.toStringTag` is modelled, on namespace views.
  Other symbol keys and the prototype of the raw namespace object are not
  modelled.

## Findings

| source | as written | input that shows it | evidently intended | confidence | as-written member | corrected member |
|---|---|---|---|---|---|---|
| src/entry.js:515-523 | the `"setters"` case of `mergeProperty` loops over `settersMap[name]` before it has checked that this entry has a list for `name` | the other entry has setters for `x` and this entry has none: `for…of` over `undefined` throws a TypeError (exhibited by `MergeLaws.MergeSettersMissingList`) | a name missing on this entry takes the other entry's list as it is | not executed | Merge.MergeSettersAsWritten | Merge.MergeSetters |

=== FILE: accessors.dfy ===
/** The getter and setter registries of an entry (`addGetter`,
    `addGetters`, `addSetter`, `addSetters`, `addGettersFrom`). Getters read
    the exporting module's bindings; setters assign the importing modules'
    local bindings. */
module Accessors {
  import opened Values
  import opened OrderedMaps
  import opened EntryState

  /** `entry.addGetter(name, getter)`: the getter is stamped with its owner
      and replaces `getters[name]` alone. */
  function AddGetter(e: EntryRec, self: EntryId, name: string, body: GetterBody): (r: EntryRec)
    ensures name in r.getters.items && r.getters.items[name] == Getter(self, body)
    ensures forall k :: k != name ==> (k in r.getters.items <==> k in e.getters.items)
    ensures forall k :: k != name && k in e.getters.items ==> r.getters.items[k] == e.getters.items[k]
    ensures name in e.getters.items ==> r.getters.order == e.getters.order
    ensures r == e.(getters := r.getters)
  {
    e.(getters := Put(e.getters, name, Getter(self, body)))
  }

  /** The names a list of pairs mentions. */
  function NamesOf<T>(pairs: seq<(string, T)>): set<string> {
    if pairs == [] then {} else {pairs[0].0} + NamesOf(pairs[1..])
  }

  /** The getter body of the last pair naming `k`. */
  function LastBody(pairs: seq<(string, GetterBody)>, k: string): GetterBody
    requires k in NamesOf(pairs)
  {
    if k in NamesOf(pairs[1..]) then LastBody(pairs[1..], k) else pairs[0].1
  }

  /** `entry.addGetters(pairs)`: for each name the last pair naming it
      wins; names no pair mentions keep their getter. */
  function AddGetters(e: EntryRec, self: EntryId, pairs: seq<(string, GetterBody)>): (r: EntryRec)
    ensures r == e.(getters := r.getters)
    ensures r.getters.items.Keys == e.getters.items.Keys + NamesOf(pairs)
    ensures forall k :: k in NamesOf(pairs) ==> r.getters.items[k] == Getter(self, LastBody(pairs, k))
    ensures forall k :: k in e.getters.items && k !in NamesOf(pairs) ==> r.getters.items[k] == e.getters.items[k]
    decreases |pairs|
  {
    if pairs == [] then e
    else AddGetters(AddGetter(e, self, pairs[0].0, pairs[0].1), self, pairs[1..])
  }

  /** The setters registered for `name`, none when there is no list. */
  function SettersOf(e: EntryRec, name: string): seq<Setter> {
    if name in e.setters.items then e.setters.items[name] else []
  }

  /** What `addSetter` stores: the setter with an empty `last` memo and
      its importing entry as `parent`. */
  function Registered(s: Setter, parent: EntryId): Setter {
    s.(last := map[], parent := parent)
  }

  /** `entry.addSetter(name, setter, parent)`: the setter goes last in the
      list for `name` (created when missing); every other list is kept. */
  function AddSetter(e: EntryRec, name: string, s: Setter, parent: EntryId): (r: EntryRec)
    ensures name in r.setters.items && r.setters.items[name] == SettersOf(e, name) + [Registered(s, parent)]
    ensures forall k :: k != name ==> SettersOf(r, k) == SettersOf(e, k)
    ensures forall k :: k != name ==> (k in r.setters.items <==> k in e.setters.items)
    ensures name in e.setters.items ==> r.setters.order == e.setters.order
    ensures name !in e.setters.items ==> r.setters.order == e.setters.order + [name]
    ensures r == e.(setters := r.setters)
  {
    e.(setters := Put(e.setters, name, SettersOf(e, name) + [Registered(s, parent)]))
  }

  /** The setters `addSetters` registers under `name`, in order. */
  function RegisteredFor(pairs: seq<(string, Setter)>, name: string, parent: EntryId): (ss: seq<Setter>)
    ensures |ss| <= |pairs|
    ensures forall t :: t in ss ==> t.parent == parent && t.last == map[]
  {
    if pairs == [] then []
    else (if pairs[0].0 == name then [Registered(pairs[0].1, parent)] else []) + RegisteredFor(pairs[1..], name, parent)
  }

  /** `entry.addSetters(pairs, parent)`: each list grows by the pairs naming
      it, in the order given. */
  function AddSetters(e: EntryRec, pairs: seq<(string, Setter)>, parent: EntryId): (r: EntryRec)
    ensures r == e.(setters := r.setters)
    ensures r.setters.items.Keys == e.setters.items.Keys + NamesOf(pairs)
    ensures forall k :: SettersOf(r, k) == SettersOf(e, k) + RegisteredFor(pairs, k, parent)
    ensures e.setters.order <= r.setters.order
    decreases |pairs|
  {
    if pairs == [] then e
    else
      AddSetterThenRest(e, pairs, parent);
      AddSetters(AddSetter(e, pairs[0].0, pairs[0].1, parent), pairs[1..], parent)
  }

  lemma AddSetterThenRest(e: EntryRec, pairs: seq<(string, Setter)>, parent: EntryId)
    requires pairs != []
    ensures var e1 := AddSetter(e, pairs[0].0, pairs[0].1, parent);
      forall k :: SettersOf(e1, k) + RegisteredFor(pairs[1..], k, parent) == SettersOf(e, k) + RegisteredFor(pairs, k, parent)
  {
    var e1 := AddSetter(e, pairs[0].0, pairs[0].1, parent);
    forall k ensures SettersOf(e1, k) + RegisteredFor(pairs[1..], k, parent) == SettersOf(e, k) + RegisteredFor(pairs, k, parent) {
      var head := if pairs[0].0 == k then [Registered(pairs[0].1, parent)] else [];
      assert SettersOf(e1, k) == SettersOf(e, k) + head;
      assert (SettersOf(e, k) + head) + RegisteredFor(pairs[1..], k, parent)
          == SettersOf(e, k) + (head + RegisteredFor(pairs[1..], k, parent));
    }
  }

  /* ----- addGettersFrom ----- */

  /** Every getter of `e` belongs to `self` or to an entry of the store. */
  ghost predicate OwnersKnown(w: World, self: EntryId, e: EntryRec) {
    forall k :: k in e.getters.items ==> e.getters.items[k].owner == self || e.getters.items[k].owner in w.entries
  }

  /** `getter.owner.name`, where `e` is the current record of `self`. */
  function OwnerName(w: World, self: EntryId, e: EntryRec, g: Getter): string
    requires g.owner == self || g.owner in w.entries
  {
    if g.owner == self then e.name else w.entries[g.owner].name
  }

  /** The condition under which `addGettersFrom` replaces this entry's getter
      for `k` by one returning the star-conflict sentinel: a CJS entry, both
      entries have a getter, and the current getter's owner is neither this
      entry nor the owner of the other entry's getter (by name). */
  predicate StarConflict(w: World, self: EntryId, e: EntryRec, other: EntryRec, k: string)
    requires OwnersKnown(w, self, e) && OwnersKnown(w, self, other)
  {
    && e.mode == CJS
    && k in e.getters.items && k in other.getters.items
    && OwnerName(w, self, e, e.getters.items[k]) != e.name
    && OwnerName(w, self, e, e.getters.items[k]) != OwnerName(w, self, e, other.getters.items[k])
  }

  /** One iteration of the `addGettersFrom` loop, for export `key`. */
  function GetterFromStep(w: World, self: EntryId, e: EntryRec, other: EntryRec, key: string): (r: EntryRec)
    requires OwnersKnown(w, self, e) && OwnersKnown(w, self, other)
    ensures OwnersKnown(w, self, r)
    ensures r == e.(getters := r.getters)
    ensures forall k :: k != key ==> (k in r.getters.items <==> k in e.getters.items)
    ensures forall k :: k != key && k in e.getters.items ==> r.getters.items[k] == e.getters.items[k]
  {
    if key == "default" then e
    else if key !in e.getters.items then
      if key in other.getters.items then e.(getters := Put(e.getters, key, other.getters.items[key])) else e
    else if StarConflict(w, self, e, other, key) then AddGetter(e, self, key, Conflict)
    else e
  }

  /** The loop of `addGettersFrom` over the given keys. */
  function GettersFromKeys(w: World, self: EntryId, e: EntryRec, other: EntryRec, keys: seq<string>): (r: EntryRec)
    requires OwnersKnown(w, self, e) && OwnersKnown(w, self, other)
    ensures OwnersKnown(w, self, r)
    ensures r == e.(getters := r.getters)
    decreases |keys|
  {
    if keys == [] then e
    else GettersFromKeys(w, self, GetterFromStep(w, self, e, other, keys[0]), other, keys[1..])
  }

  /** `entry.addGettersFrom(otherEntry)`: walks the keys of the other
      entry's namespace object. */
  function GettersFrom(w: World, self: EntryId, e: EntryRec, other: EntryRec): (r: EntryRec)
    requires OwnersKnown(w, self, e) && OwnersKnown(w, self, other)
    ensures OwnersKnown(w, self, r)
    ensures r == e.(getters := r.getters)
  {
    GettersFromKeys(w, self, e, other, EnumerableKeys(PropsOf(w, Obj(other.ns))))
  }

  /** The getter `addGettersFrom` leaves for `k`, stated rule by rule:
      "default" and keys the other namespace lacks are untouched; a missing
      getter is adopted from the other entry; an existing one is replaced by
      the conflict getter exactly when `StarConflict` holds. */
  lemma {:induction false} GettersFromKeysRule(w: World, self: EntryId, e: EntryRec, other: EntryRec, keys: seq<string>, k: string)
    requires OwnersKnown(w, self, e) && OwnersKnown(w, self, other)
    requires Distinct(keys)
    ensures var r := GettersFromKeys(w, self, e, other, keys).getters.items;
      && (k == "default" || k !in keys ==>
            (k in r <==> k in e.getters.items) && (k in r ==> r[k] == e.getters.items[k]))
      && (k != "default" && k in keys && k !in e.getters.items ==>
            (k in r <==> k in other.getters.items) && (k in r ==> r[k] == other.getters.items[k]))
      && (k != "default" && k in keys && k in e.getters.items ==>
            k in r && r[k] == if StarConflict(w, self, e, other, k) then Getter(self, Conflict) else e.getters.items[k])
    decreases |keys|
  {
    if keys != [] {
      var e1 := GetterFromStep(w, self, e, other, keys[0]);
      assert forall x :: x in keys <==> x == keys[0] || x in keys[1..];
      assert Distinct(keys[1..]) by {
        forall i, j | 0 <= i < j < |keys[1..]| ensures keys[1..][i] != keys[1..][j] {
          assert keys[1..][i] == keys[i + 1] && keys[1..][j] == keys[j + 1];
        }
      }
      assert keys[0] !in keys[1..] by {
        forall i | 0 <= i < |keys[1..]| ensures keys[1..][i] != keys[0] {
          assert keys[1..][i] == keys[i + 1];
        }
      }
      GettersFromKeysRule(w, self, e1, other, keys[1..], k);
      if k != keys[0] {
        assert StarConflict(w, self, e1, other, k) == StarConflict(w, self, e, other, k);
      }
    }
  }

  /** An ESM entry never receives a conflict getter from `addGettersFrom`:
      every getter it ends with was its own or the other entry's. */
  lemma EsmNeverConflicts(w: World, self: EntryId, e: EntryRec, other: EntryRec, k: string)
    requires OwnersKnown(w, self, e) && OwnersKnown(w, self, other)
    requires e.mode == ESM
    ensures var r := GettersFrom(w, self, e, other).getters.items;
      k in r ==> ((k in e.getters.items && r[k] == e.getters.items[k])
                  || (k in other.getters.items && r[k] == other.getters.items[k]))
  {
    GettersFromKeysRule(w, self, e, other, EnumerableKeys(PropsOf(w, Obj(other.ns))), k);
  }

  /** Two `export *` sources that both supply `k` through getters of
      different modules make the name ambiguous in a CJS entry; the same
      binding reached twice does not. */
  lemma StarConflictScenario(w: World, self: EntryId, e: EntryRec, other: EntryRec, k: string)
    requires OwnersKnown(w, self, e) && OwnersKnown(w, self, other)
    requires e.mode == CJS && k != "default"
    requires k in PropsOf(w, Obj(other.ns)).items && !PropsOf(w, Obj(other.ns)).items[k].Hidden?
    requires k in e.getters.items && k in other.getters.items
    requires e.getters.items[k].owner != self && e.getters.items[k].owner in w.entries
    requires w.entries[e.getters.items[k].owner].name != e.name
    ensures var r := GettersFrom(w, self, e, other).getters.items;
      && k in r
      && (OwnerName(w, self, e, other.getters.items[k]) != w.entries[e.getters.items[k].owner].name ==>
            r[k] == Getter(self, Conflict))
      && (OwnerName(w, self, e, other.getters.items[k]) == w.entries[e.getters.items[k].owner].name ==>
            r[k] == e.getters.items[k])
  {
    GettersFromKeysRule(w, self, e, other, EnumerableKeys(PropsOf(w, Obj(other.ns))), k);
  }

  /** `entry.addGettersFrom(otherEntry)` on the store. */
  function AddGettersFrom(w: World, id: EntryId, otherId: EntryId): (w': World)
    requires id in w.entries && otherId in w.entries
    requires OwnersKnown(w, id, w.entries[id]) && OwnersKnown(w, id, w.entries[otherId])
    ensures w'.entries.Keys == w.entries.Keys
    ensures forall i :: i in w.entries && i != id ==> w'.entries[i] == w.entries[i]
    ensures w'.entries[id] == w.entries[id].(getters := w'.entries[id].getters)
    ensures w' == w.(entries := w'.entries)
  {
    w.(entries := w.entries[id := GettersFrom(w, id, w.entries[id], w.entries[otherId])])
  }

  /** `addGettersFrom` keeps the store well formed: adopted getters are the
      other entry's, conflict getters belong to this entry. */
  lemma AddGettersFromWf(w: World, id: EntryId, otherId: EntryId)
    requires Wf(w) && id in w.entries && otherId in w.entries
    ensures OwnersKnown(w, id, w.entries[id]) && OwnersKnown(w, id, w.entries[otherId])
    ensures Wf(AddGettersFrom(w, id, otherId))
  {
    var e := w.entries[id];
    var other := w.entries[otherId];
    assert RefsOk(w, e) && RefsOk(w, other);
    var keys := EnumerableKeys(PropsOf(w, Obj(other.ns)));
    var r := GettersFrom(w, id, e, other);
    forall k | k in r.getters.items ensures GetterRefsOk(w, r.getters.items[k]) {
      GettersFromKeysRule(w, id, e, other, keys, k);
    }
    WfPutEntry(w, id, r);
  }
}

=== FILE: entry_state.dfy ===
/** The state the binding engine keeps: one record per module entry, the
    registry that finds entries by module handle or exports container, and
    the objects those entries read and write (exports containers and each
    entry's raw namespace object). Module handles are inputs: whether a
    module has finished executing and what its `module.exports` holds are
    decided by code outside the engine. */
module EntryState {
  import opened Values
  import opened OrderedMaps

  /** `_loaded`, ordered Incomplete < Indeterminate < Completed. */
  datatype Load = Incomplete | Indeterminate | Completed

  function Rank(l: Load): nat {
    match l
    case Incomplete => 0
    case Indeterminate => 1
    case Completed => 2
  }

  datatype Mode = CJS | ESM

  datatype SourceType = ModuleSource | ScriptSource

  /** What the compiler cached for a module: nothing yet, the placeholder
      `true`, or real compile data. */
  datatype CompileData =
    | NoCompileData
    | CompilePending
    | Compiled(sourceType: SourceType, exportTemporals: seq<string>)

  /** The package options the engine consults (`cjs.interop`,
      `cjs.namedExports`, `warnings`). */
  datatype Options = Options(interop: bool, namedExports: bool, warnings: bool)

  /** A module handle: `module.id`-derived name, `module.exports`,
      `module.loaded`, its compile data and its package options. */
  datatype Module = Module(
    name: string,
    exports: Value,
    loaded: bool,
    compileData: CompileData,
    options: Options)

  /** An own property of an object the engine touches.
      - `Data`/`Hidden`: an enumerable / non-enumerable data property;
      - `ContainerProp(t, k)`: an accessor reading (and writing) `t[k]`,
        installed on a CJS entry's namespace object;
      - `EntryNsProp(e, k)`: an accessor without a setter reading
        `e._namespace[k]`, installed on an ESM entry's exports container. */
  datatype Slot =
    | Data(v: Value)
    | Hidden(v: Value)
    | ContainerProp(target: Value, key: string)
    | EntryNsProp(entry: EntryId, key: string)

  /** The own string-keyed properties of an object, in creation order. */
  type Props = OrdMap<Slot>

  /** `keys(o)`: the own enumerable string keys, in creation order. */
  function EnumerableKeys(p: Props): (ks: seq<string>)
    ensures forall k :: k in ks <==> k in p.items && !p.items[k].Hidden?
  {
    FilterEnumerable(p.order, p.items)
  }

  function FilterEnumerable(order: seq<string>, items: map<string, Slot>): (ks: seq<string>)
    ensures forall k :: k in ks <==> k in order && k in items && !items[k].Hidden?
    ensures Distinct(order) ==> Distinct(ks)
  {
    if order == [] then []
    else
      var rest := FilterEnumerable(order[1..], items);
      assert forall k :: k in order <==> k == order[0] || k in order[1..];
      assert Distinct(order) ==> Distinct(order[1..]) && order[0] !in order[1..];
      if order[0] in items && !items[order[0]].Hidden? then [order[0]] + rest else rest
  }

  /** What a getter function computes when called.
      - `Local(slot)`: a compiled getter returning a module-local binding,
        which throws while the binding is uninitialised;
      - `NamespaceSlot(of, k)`: `() => entry._namespace[k]`;
      - `NamespaceDefault(of)`: `() => entry.namespace.default`;
      - `Conflict`: `() => STAR_ERROR`. */
  datatype GetterBody =
    | Local(slot: nat)
    | NamespaceSlot(of: EntryId, key: string)
    | NamespaceDefault(of: EntryId)
    | Conflict

  datatype Getter = Getter(owner: EntryId, body: GetterBody)

  /** A setter function as registered by an importing module: its identity,
      `setter.parent`, the `setter.last` memo, whether `setter.from` is
      "nsSetter", and the importer's local binding it assigns. */
  datatype Setter = Setter(id: nat, parent: EntryId, last: map<string, Value>, fromNs: bool, slot: nat)

  datatype EntryRec = EntryRec(
    name: string,
    handle: Value,
    exports: Value,
    loaded: Load,
    mode: Mode,
    options: Options,
    exportTemporals: seq<string>,
    changed: bool,
    ns: Ref,
    proxiedBy: Option<EntryId>,
    cjsNamespace: Value,
    esmNamespace: Value,
    children: OrdMap<EntryId>,
    getters: OrdMap<Getter>,
    setters: OrdMap<seq<Setter>>)

  datatype World = World(
    entries: map<EntryId, EntryRec>,
    cache: map<Value, EntryId>,
    skipExports: set<string>,
    modules: map<Ref, Module>,
    objects: map<Ref, Props>,
    sealed: set<Ref>,
    locals: map<nat, Value>,
    nextEntry: nat,
    nextRef: nat)

  datatype Warning =
    | TdzAccess(handle: Value, name: string)
    | NsAssignment(handle: Value, name: string)
    | NsExtension(handle: Value, name: string)

  datatype EngineError =
    | ExportMissing(handle: Value, name: string)
    | ExportStarConflict(handle: Value, name: string)

  /* ----- reading objects ----- */

  predicate IsModule(w: World, v: Value) {
    v.Obj? && v.ref in w.modules
  }

  function ModuleAt(w: World, v: Value): Module
    requires IsModule(w, v)
  {
    w.modules[v.ref]
  }

  function PropsOf(w: World, v: Value): Props {
    if v.Obj? && v.ref in w.objects then w.objects[v.ref] else Empty()
  }

  /** How many accessor and proxy hops a read follows; the chains the engine
      builds are shorter (a namespace view over a namespace accessor over an
      exports container property). */
  const MaxHops: nat := 4

  /** The names `Object.prototype` supplies to every ordinary object, which a
      read of the literal `{ default: exports }` finds by inheritance. */
  const ObjectProtoNames: set<string> := {
    "constructor", "hasOwnProperty", "isPrototypeOf", "propertyIsEnumerable",
    "toLocaleString", "toString", "valueOf", "__proto__", "__defineGetter__",
    "__defineSetter__", "__lookupGetter__", "__lookupSetter__"}

  /** `target[key]`, following at most `hops` accessors and proxies.
      Objects the engine does not create have their properties in `objects`;
      a namespace view reads through to its source; the exports proxy reads
      the exports of the module it wraps. */
  function ReadPropN(w: World, target: Value, key: string, hops: nat): Value
    decreases hops, 1
  {
    match target
    case Obj(r) =>
      var props := PropsOf(w, target);
      if key in props.items then ReadSlot(w, props.items[key], hops) else Undefined
    case NsView(_, _, _, src) =>
      if hops == 0 then Undefined else ReadSource(w, src, key, hops - 1)
    case ExportsProxy(owner) =>
      if hops == 0 || owner !in w.entries || !IsModule(w, w.entries[owner].handle) then Undefined
      else ReadPropN(w, ModuleAt(w, w.entries[owner].handle).exports, key, hops - 1)
    case _ => Undefined
  }

  function ReadSlot(w: World, s: Slot, hops: nat): Value
    decreases hops, 0
  {
    match s
    case Data(v) => v
    case Hidden(v) => v
    case ContainerProp(t, k) =>
      if hops == 0 then Undefined else ReadPropN(w, t, k, hops - 1)
    case EntryNsProp(e, k) =>
      if hops == 0 || e !in w.entries then Undefined
      else ReadPropN(w, Obj(w.entries[e].ns), k, hops - 1)
  }

  /** `Reflect.get(source, key)` for the source of a namespace view. Through
      the default-wrapping proxy an object-like `default` reads as the
      exports proxy of the entry that installed it. */
  function ReadSource(w: World, src: ViewSource, key: string, hops: nat): Value
    decreases hops, 2
  {
    match src
    case LiveNamespace(ns, proxiedBy) =>
      var v := ReadPropN(w, Obj(ns), key, hops);
      if proxiedBy.Some? && key == "default" && ObjectLike(v) then ExportsProxy(proxiedBy.value) else v
    case DefaultOnly(container) =>
      if key == "default" then container
      else if key in ObjectProtoNames then Intrinsic(key)
      else Undefined
  }

  /** `target[key]`. */
  function ReadProp(w: World, target: Value, key: string): Value {
    ReadPropN(w, target, key, MaxHops)
  }

  /** What `entry.namespace` is: the raw namespace object, or the proxy over
      it that the entry `proxiedBy` installed. */
  function NamespaceSource(e: EntryRec): ViewSource {
    LiveNamespace(e.ns, e.proxiedBy)
  }

  /** `entry.namespace[name]`. */
  function ReadNamespace(w: World, e: EntryRec, name: string): Value {
    ReadSource(w, NamespaceSource(e), name, MaxHops)
  }

  /** `has(o, key)`: an own property. A namespace view owns its keys. */
  predicate HasOwn(w: World, v: Value, key: string) {
    if v.NsView? then key in v.keys else key in PropsOf(w, v).items
  }

  /** `keys(o)`: own enumerable string keys in order; a namespace view
      reports its sorted keys; other values have none the engine sees. */
  function OwnKeys(w: World, v: Value): seq<string> {
    if v.NsView? then v.keys else EnumerableKeys(PropsOf(w, v))
  }

  /** `target[key] = v` in strict code, where the engine never performs an
      assignment that fails: an own data property is overwritten in place, an
      accessor the engine installed forwards the write to its container, a
      new key is added at the end. Writes to sealed objects' missing keys, to
      setter-less accessors and to values that are not plain objects leave
      the world as it is. */
  function WritePropN(w: World, target: Value, key: string, v: Value, hops: nat): (w': World)
    ensures w' == w.(objects := w'.objects) && w'.objects.Keys == w.objects.Keys
    decreases hops
  {
    if !(target.Obj? && target.ref in w.objects) then w
    else
      var p := w.objects[target.ref];
      if key !in p.items then
        if target.ref in w.sealed then w
        else w.(objects := w.objects[target.ref := Put(p, key, Data(v))])
      else
        match p.items[key]
        case Data(_) => w.(objects := w.objects[target.ref := Put(p, key, Data(v))])
        case Hidden(_) => w.(objects := w.objects[target.ref := Put(p, key, Hidden(v))])
        case ContainerProp(t, k) => if hops == 0 then w else WritePropN(w, t, k, v, hops - 1)
        case EntryNsProp(_, _) => w
  }

  function WriteProp(w: World, target: Value, key: string, v: Value): (w': World)
    ensures w' == w.(objects := w'.objects) && w'.objects.Keys == w.objects.Keys
  {
    WritePropN(w, target, key, v, MaxHops)
  }

  /** `Reflect.defineProperty(o, key, slot)` on an object that is not
      sealed (a sealed object refuses every redefinition the engine asks
      for). */
  function DefineProp(w: World, r: Ref, key: string, slot: Slot): (w': World)
    ensures w' == w.(objects := w'.objects) && w'.objects.Keys == w.objects.Keys
    ensures forall x :: x in w.objects && x != r ==> w'.objects[x] == w.objects[x]
  {
    if r !in w.objects || r in w.sealed then w
    else w.(objects := w.objects[r := Put(w.objects[r], key, slot)])
  }

  /** `truthy` of a JavaScript value. */
  predicate Truthy(v: Value) {
    !Falsy(v)
  }

  /* ----- well-formedness: every reference resolves ----- */

  ghost predicate GetterRefsOk(w: World, g: Getter) {
    && g.owner in w.entries
    && (g.body.NamespaceSlot? ==> g.body.of in w.entries)
    && (g.body.NamespaceDefault? ==> g.body.of in w.entries)
  }

  ghost predicate SettersRefsOk(w: World, ss: seq<Setter>) {
    forall i :: 0 <= i < |ss| ==> ss[i].parent in w.entries
  }

  ghost predicate RefsOk(w: World, e: EntryRec) {
    && e.ns in w.objects
    && IsModule(w, e.handle)
    && (forall k :: k in e.children.items ==> e.children.items[k] in w.entries)
    && (forall k :: k in e.getters.items ==> GetterRefsOk(w, e.getters.items[k]))
    && (forall k :: k in e.setters.items ==> SettersRefsOk(w, e.setters.items[k]))
  }

  ghost predicate Wf(w: World) {
    && (forall id :: id in w.entries ==> id < w.nextEntry)
    && (forall id {:trigger RefsOk(w, w.entries[id])} :: id in w.entries ==> RefsOk(w, w.entries[id]))
    && (forall r :: r in w.objects ==> r < w.nextRef)
    && (forall r :: r in w.modules ==> r < w.nextRef)
    && (forall v :: v in w.cache ==> ObjectLike(v) && w.cache[v] in w.entries)
  }

  /** `w2` keeps everything `w1` could refer to. */
  ghost predicate Grows(w1: World, w2: World) {
    && w1.entries.Keys <= w2.entries.Keys
    && w1.objects.Keys <= w2.objects.Keys
    && w1.modules == w2.modules
    && w1.nextEntry <= w2.nextEntry
    && w1.nextRef <= w2.nextRef
  }

  lemma GrowsTransitive(w1: World, w2: World, w3: World)
    requires Grows(w1, w2) && Grows(w2, w3)
    ensures Grows(w1, w3)
  {
  }

  lemma RefsOkGrows(w1: World, w2: World, e: EntryRec)
    requires RefsOk(w1, e) && Grows(w1, w2)
    ensures RefsOk(w2, e)
  {
    forall k | k in e.getters.items ensures GetterRefsOk(w2, e.getters.items[k]) {
      assert GetterRefsOk(w1, e.getters.items[k]);
    }
    forall k | k in e.setters.items ensures SettersRefsOk(w2, e.setters.items[k]) {
      assert SettersRefsOk(w1, e.setters.items[k]);
    }
  }

  /** Replacing one entry's record by a record whose references resolve keeps
      the world well formed. */
  lemma WfPutEntry(w: World, id: EntryId, e: EntryRec)
    requires Wf(w) && id in w.entries && RefsOk(w, e)
    ensures Wf(w.(entries := w.entries[id := e]))
  {
    var w' := w.(entries := w.entries[id := e]);
    assert Grows(w, w');
    forall i | i in w'.entries ensures i < w'.nextEntry && RefsOk(w', w'.entries[i]) {
      RefsOkGrows(w, w', if i == id then e else w.entries[i]);
    }
  }

  /** Writing the properties of an object that already exists keeps the world
      well formed. */
  lemma WfPutObject(w: World, r: Ref, p: Props)
    requires Wf(w) && r in w.objects
    ensures Wf(w.(objects := w.objects[r := p]))
  {
    var w' := w.(objects := w.objects[r := p]);
    assert Grows(w, w');
    forall i | i in w'.entries ensures i < w'.nextEntry && RefsOk(w', w'.entries[i]) {
      RefsOkGrows(w, w', w.entries[i]);
    }
  }

  /** Adding the empty object at the next free reference keeps the world
      well formed. */
  lemma WfAddObject(w: World)
    requires Wf(w)
    ensures Wf(w.(objects := w.objects[w.nextRef := Empty()], nextRef := w.nextRef + 1))
  {
    var w' := w.(objects := w.objects[w.nextRef := Empty()], nextRef := w.nextRef + 1);
    assert Grows(w, w');
    forall i | i in w'.entries ensures i < w'.nextEntry && RefsOk(w', w'.entries[i]) {
      RefsOkGrows(w, w', w.entries[i]);
    }
  }

  /** Adding a record whose references resolve at the next free entry id
      keeps the world well formed. */
  lemma WfAddEntry(w: World, e: EntryRec)
    requires Wf(w) && RefsOk(w, e)
    ensures Wf(w.(entries := w.entries[w.nextEntry := e], nextEntry := w.nextEntry + 1))
  {
    var w' := w.(entries := w.entries[w.nextEntry := e], nextEntry := w.nextEntry + 1);
    assert Grows(w, w');
    forall i | i in w'.entries ensures i < w'.nextEntry && RefsOk(w', w'.entries[i]) {
      RefsOkGrows(w, w', if i == w.nextEntry then e else w.entries[i]);
    }
  }

  /** Registering an existing entry under an object-like key keeps the world
      well formed. */
  lemma WfPutCache(w: World, v: Value, id: EntryId)
    requires Wf(w) && ObjectLike(v) && id in w.entries
    ensures Wf(w.(cache := w.cache[v := id]))
  {
    var w' := w.(cache := w.cache[v := id]);
    forall i | i in w'.entries ensures RefsOk(w', w'.entries[i]) {
      RefsOkGrows(w, w', w.entries[i]);
    }
  }
}

=== FILE: exports.dfy ===
/** Copying a module's exports into its entry's namespace object
    (`assignExportsToNamespace`) and refreshing that object from the
    entry's getters (`callGetter`, `runGetter`, `runGetters`). */
module Exports {
  import opened Values
  import opened OrderedMaps
  import opened EntryState
  import opened Accessors

  /** `entry.module.exports`. */
  function ExportedOf(w: World, e: EntryRec): Value
    requires IsModule(w, e.handle)
  {
    ModuleAt(w, e.handle).exports
  }

  /** `isPseudo`: the package enables interop and the exports container has a
      truthy own `__esModule`, i.e. it was produced by a transpiler that
      emulates ES modules. */
  predicate IsPseudo(w: World, e: EntryRec, exported: Value) {
    e.options.interop && HasOwn(w, exported, "__esModule") && Truthy(ReadProp(w, exported, "__esModule"))
  }

  /** The object whose keys are copied: the namespace object itself once the
      entry has completed loading, the exports container before. */
  function SourceObject(w: World, e: EntryRec): Value
    requires IsModule(w, e.handle)
  {
    if e.loaded == Completed then Obj(e.ns) else ExportedOf(w, e)
  }

  /** `skipDefault`: a CommonJS module's `default` export is its whole
      exports container, unless the container is a pseudo-ES module that
      supplies its own `default`. */
  predicate SkipDefault(w: World, e: EntryRec)
    requires IsModule(w, e.handle)
  {
    e.mode == CJS && !(IsPseudo(w, e, ExportedOf(w, e)) && HasOwn(w, SourceObject(w, e), "default"))
  }

  /** Replaces entry `id`'s record. */
  function WithEntry(w: World, id: EntryId, e: EntryRec): (w': World)
    ensures w'.entries == w.entries[id := e]
    ensures w' == w.(entries := w'.entries)
  {
    w.(entries := w.entries[id := e])
  }

  /** The `skipDefault` branch: the namespace's `default` becomes the
      container; the first time, a `default` getter reading it is added and
      the namespace is put behind the proxy that wraps an object-like
      `default` in the exports proxy. */
  function AssignDefault(w: World, id: EntryId): (w': World)
    requires id in w.entries && IsModule(w, w.entries[id].handle)
    ensures w'.entries.Keys == w.entries.Keys && w'.modules == w.modules
    ensures forall i :: i in w.entries && i != id ==> w'.entries[i] == w.entries[i]
    ensures "default" in w'.entries[id].getters.items
    ensures "default" in w.entries[id].getters.items ==> w'.entries[id] == w.entries[id]
    ensures "default" !in w.entries[id].getters.items ==>
      w'.entries[id] == AddGetter(w.entries[id], id, "default", NamespaceDefault(id)).(proxiedBy := Some(id))
    ensures w'.objects == WriteProp(w, Obj(w.entries[id].ns), "default", ExportedOf(w, w.entries[id])).objects
  {
    var e := w.entries[id];
    var w1 := WriteProp(w, Obj(e.ns), "default", ExportedOf(w, e));
    if "default" in e.getters.items then w1
    else WithEntry(w1, id, AddGetter(e, id, "default", NamespaceDefault(id)).(proxiedBy := Some(id)))
  }

  /** What one iteration of the copy loop does to the namespace object: an
      ES module's namespace gets the container's current value; a CommonJS
      namespace gets an accessor onto the container's property, unless it
      already has the name or the name is the skipped `default`. */
  function CopyName(w: World, e: EntryRec, exported: Value, skipDefault: bool, name: string): (w': World)
    ensures w' == w.(objects := w'.objects) && w'.objects.Keys == w.objects.Keys
  {
    if e.mode == ESM then WriteProp(w, Obj(e.ns), name, ReadProp(w, exported, name))
    else if !(skipDefault && name == "default") && !HasOwn(w, Obj(e.ns), name) then
      DefineProp(w, e.ns, name, ContainerProp(exported, name))
    else w
  }

  /** One iteration of the copy loop for `name`: the copy, then a getter
      reading the namespace if the name had none. */
  function AssignName(w: World, id: EntryId, exported: Value, skipDefault: bool, name: string): (w': World)
    requires id in w.entries
    ensures w'.entries.Keys == w.entries.Keys && w'.objects.Keys == w.objects.Keys
    ensures w' == w.(entries := w'.entries, objects := w'.objects)
    ensures forall i :: i in w.entries && i != id ==> w'.entries[i] == w.entries[i]
    ensures w'.entries[id] == w.entries[id].(getters := w'.entries[id].getters)
    ensures name in w'.entries[id].getters.items
    ensures w'.objects == CopyName(w, w.entries[id], exported, skipDefault, name).objects
  {
    var e := w.entries[id];
    var w1 := CopyName(w, e, exported, skipDefault, name);
    if name in e.getters.items then w1
    else WithEntry(w1, id, AddGetter(e, id, name, NamespaceSlot(id, name)))
  }

  function AssignNames(w: World, id: EntryId, exported: Value, skipDefault: bool, names: seq<string>): (w': World)
    requires id in w.entries
    ensures w'.entries.Keys == w.entries.Keys && w'.objects.Keys == w.objects.Keys
    ensures w' == w.(entries := w'.entries, objects := w'.objects)
    ensures forall i :: i in w.entries && i != id ==> w'.entries[i] == w.entries[i]
    ensures w'.entries[id] == w.entries[id].(getters := w'.entries[id].getters)
    decreases |names|
  {
    if names == [] then w
    else AssignNames(AssignName(w, id, exported, skipDefault, names[0]), id, exported, skipDefault, names[1..])
  }

  /** The world after the `skipDefault` branch. */
  function AfterDefault(w: World, id: EntryId): (w': World)
    requires id in w.entries && IsModule(w, w.entries[id].handle)
    ensures w'.entries.Keys == w.entries.Keys && w'.modules == w.modules
  {
    if SkipDefault(w, w.entries[id]) then AssignDefault(w, id) else w
  }

  /** The names the copy loop visits: the keys of the source object as they
      are after the `skipDefault` branch, none when the container is not an
      object. */
  function CopiedNames(w: World, id: EntryId): seq<string>
    requires id in w.entries && IsModule(w, w.entries[id].handle)
  {
    if !ObjectLike(ExportedOf(w, w.entries[id])) then []
    else OwnKeys(AfterDefault(w, id), SourceObject(w, w.entries[id]))
  }

  /** `assignExportsToNamespace(entry)`. */
  function AssignExports(w: World, id: EntryId): (w': World)
    requires id in w.entries && IsModule(w, w.entries[id].handle)
    ensures w'.entries.Keys == w.entries.Keys && w'.objects.Keys == w.objects.Keys
    ensures w' == w.(entries := w'.entries, objects := w'.objects)
    ensures forall i :: i in w.entries && i != id ==> w'.entries[i] == w.entries[i]
    ensures w'.entries[id] == w.entries[id].(getters := w'.entries[id].getters, proxiedBy := w'.entries[id].proxiedBy)
  {
    var e := w.entries[id];
    var exported := ExportedOf(w, e);
    var w1 := AfterDefault(w, id);
    if !ObjectLike(exported) then w1
    else AssignNames(w1, id, exported, SkipDefault(w, e), CopiedNames(w, id))
  }

  /** `callGetter(getter)`: the getter's value, or the `GETTER_ERROR`
      sentinel when it throws — a compiled getter throws while its binding
      is uninitialised, and calling a missing getter throws a TypeError. */
  function CallGetter(w: World, g: Option<Getter>): (v: Value)
    ensures g.None? ==> v == GetterError
    ensures g.Some? && g.value.body.Conflict? ==> v == StarError
    ensures g.Some? && g.value.body.Local? ==>
      v == (if g.value.body.slot in w.locals then w.locals[g.value.body.slot] else GetterError)
  {
    if g.None? then GetterError
    else match g.value.body
      case Local(slot) => if slot in w.locals then w.locals[slot] else GetterError
      case NamespaceSlot(of, key) =>
        if of in w.entries then ReadProp(w, Obj(w.entries[of].ns), key) else GetterError
      case NamespaceDefault(of) =>
        if of in w.entries then ReadNamespace(w, w.entries[of], "default") else GetterError
      case Conflict => StarError
  }

  /** The getter registered for `name`, if any. */
  function GetterFor(e: EntryRec, name: string): Option<Getter> {
    if name in e.getters.items then Some(e.getters.items[name]) else None
  }

  /** What `runGetter` would store: nothing when the getter failed or the
      namespace already holds the same value by `Object.is`. */
  predicate GetterFires(w: World, e: EntryRec, name: string) {
    var v := CallGetter(w, GetterFor(e, name));
    v != GetterError && !(name in PropsOf(w, Obj(e.ns)).items && SameValue(ReadProp(w, Obj(e.ns), name), v))
  }

  /** `runGetter(entry, name)`. */
  function RunGetter(w: World, id: EntryId, name: string): (w': World)
    requires id in w.entries
    ensures w'.entries.Keys == w.entries.Keys && w'.objects.Keys == w.objects.Keys
    ensures w' == w.(entries := w'.entries, objects := w'.objects)
    ensures forall i :: i in w.entries && i != id ==> w'.entries[i] == w.entries[i]
    ensures w'.entries[id] == w.entries[id].(changed := w'.entries[id].changed)
    ensures w'.entries[id].changed == (w.entries[id].changed || GetterFires(w, w.entries[id], name))
    ensures !GetterFires(w, w.entries[id], name) ==> w' == w
  {
    var e := w.entries[id];
    if !GetterFires(w, e, name) then w
    else
      var w1 := WithEntry(w, id, e.(changed := true));
      WriteProp(w1, Obj(e.ns), name, CallGetter(w, GetterFor(e, name)))
  }

  function RunGettersOver(w: World, id: EntryId, names: seq<string>): (w': World)
    requires id in w.entries
    ensures w'.entries.Keys == w.entries.Keys && w'.objects.Keys == w.objects.Keys
    ensures w' == w.(entries := w'.entries, objects := w'.objects)
    ensures forall i :: i in w.entries && i != id ==> w'.entries[i] == w.entries[i]
    ensures w'.entries[id] == w.entries[id].(changed := w'.entries[id].changed)
    ensures w.entries[id].changed ==> w'.entries[id].changed
    decreases |names|
  {
    if names == [] then w
    else RunGettersOver(RunGetter(w, id, names[0]), id, names[1..])
  }

  /** `runGetters(entry)`: an ES module's namespace is refreshed from every
      getter in registration order; a CommonJS module's is copied from its
      exports container again. */
  function RunGetters(w: World, id: EntryId): (w': World)
    requires id in w.entries && IsModule(w, w.entries[id].handle)
    ensures w'.entries.Keys == w.entries.Keys && w'.objects.Keys == w.objects.Keys
    ensures w' == w.(entries := w'.entries, objects := w'.objects)
    ensures forall i :: i in w.entries && i != id ==> w'.entries[i] == w.entries[i]
    ensures var e' := w'.entries[id];
      e' == w.entries[id].(getters := e'.getters, proxiedBy := e'.proxiedBy, changed := e'.changed)
  {
    if w.entries[id].mode == ESM then RunGettersOver(w, id, w.entries[id].getters.order)
    else AssignExports(w, id)
  }
}

=== FILE: exports_laws.dfy ===
/** What copying exports into a namespace and refreshing it from the
    getters guarantee. */
module ExportsLaws {
  import opened Values
  import opened OrderedMaps
  import opened EntryState
  import opened Accessors
  import opened Exports

  /* ----- getters are only ever added ----- */

  /** A getter the copy loop adds reads the entry's own namespace. */
  ghost predicate AddedGetters(g: map<string, Getter>, g': map<string, Getter>, id: EntryId) {
    && (forall k :: k in g ==> k in g' && g'[k] == g[k])
    && (forall k :: k in g' && k !in g ==>
          g'[k].owner == id
          && (g'[k].body == NamespaceSlot(id, k) || (k == "default" && g'[k].body == NamespaceDefault(id))))
  }

  lemma AddedGettersTransitive(g: map<string, Getter>, g1: map<string, Getter>, g2: map<string, Getter>, id: EntryId)
    requires AddedGetters(g, g1, id) && AddedGetters(g1, g2, id)
    ensures AddedGetters(g, g2, id)
  {
    forall k | k in g2 && k !in g
      ensures g2[k].owner == id
      ensures g2[k].body == NamespaceSlot(id, k) || (k == "default" && g2[k].body == NamespaceDefault(id))
    {
      if k in g1 { assert g2[k] == g1[k]; }
    }
  }

  lemma AssignNameGetters(w: World, id: EntryId, exported: Value, skip: bool, name: string)
    requires id in w.entries
    ensures var g' := AssignName(w, id, exported, skip, name).entries[id].getters.items;
      name in g' && AddedGetters(w.entries[id].getters.items, g', id)
  {
    var e := w.entries[id];
    var w1 := CopyName(w, e, exported, skip, name);
    assert w1.entries == w.entries;
    if name !in e.getters.items {
      var e1 := AddGetter(e, id, name, NamespaceSlot(id, name));
      assert AssignName(w, id, exported, skip, name).entries[id] == e1;
    }
  }

  lemma {:induction false} AssignNamesGetters(w: World, id: EntryId, exported: Value, skip: bool, names: seq<string>)
    requires id in w.entries
    ensures var g' := AssignNames(w, id, exported, skip, names).entries[id].getters.items;
      && (forall n :: n in names ==> n in g')
      && AddedGetters(w.entries[id].getters.items, g', id)
    decreases |names|
  {
    if names != [] {
      var w1 := AssignName(w, id, exported, skip, names[0]);
      var w' := AssignNames(w1, id, exported, skip, names[1..]);
      assert AssignNames(w, id, exported, skip, names) == w';
      AssignNameGetters(w, id, exported, skip, names[0]);
      AssignNamesGetters(w1, id, exported, skip, names[1..]);
      var g := w.entries[id].getters.items;
      var g1 := w1.entries[id].getters.items;
      var g' := w'.entries[id].getters.items;
      AddedGettersTransitive(g, g1, g', id);
      assert names[0] in g';
      assert forall n :: n in names ==> n == names[0] || n in names[1..];
    }
  }

  /** `assignExportsToNamespace` gives every copied name — and `default`
      when it is skipped — a getter, never replaces a getter the entry
      already had, and every getter it adds reads the entry's namespace. */
  lemma AssignExportsGetters(w: World, id: EntryId)
    requires id in w.entries && IsModule(w, w.entries[id].handle)
    ensures var g' := AssignExports(w, id).entries[id].getters.items;
      && (forall n :: n in CopiedNames(w, id) ==> n in g')
      && (SkipDefault(w, w.entries[id]) ==> "default" in g')
      && AddedGetters(w.entries[id].getters.items, g', id)
  {
    var e := w.entries[id];
    var w1 := AfterDefault(w, id);
    var g1 := w1.entries[id].getters.items;
    assert AddedGetters(e.getters.items, g1, id);
    if ObjectLike(ExportedOf(w, e)) {
      AssignNamesGetters(w1, id, ExportedOf(w, e), SkipDefault(w, e), CopiedNames(w, id));
    }
  }

  /* ----- the CommonJS copy never overwrites ----- */

  /** The copy of a CommonJS module only adds accessors to the namespace
      object: properties it already had and every other object stay as they
      were. */
  /** One CommonJS copy step touches only the namespace object, keeps what
      it had, and installs the accessor for a new, not skipped name. */
  lemma CjsCopyNameStep(w: World, e: EntryRec, exported: Value, skip: bool, name: string)
    requires e.mode == CJS && e.ns in w.objects
    ensures var w1 := CopyName(w, e, exported, skip, name);
      && (forall x :: x in w.objects && x != e.ns ==> w1.objects[x] == w.objects[x])
      && (forall k :: k in w.objects[e.ns].items ==>
            k in w1.objects[e.ns].items && w1.objects[e.ns].items[k] == w.objects[e.ns].items[k])
      && (name !in w.objects[e.ns].items && !(skip && name == "default") && e.ns !in w.sealed ==>
            name in w1.objects[e.ns].items && w1.objects[e.ns].items[name] == ContainerProp(exported, name))
      && (forall k :: k in w1.objects[e.ns].items ==> k in w.objects[e.ns].items || k == name)
  {
    if !(skip && name == "default") && !HasOwn(w, Obj(e.ns), name) && e.ns !in w.sealed {
      var p := w.objects[e.ns];
      assert CopyName(w, e, exported, skip, name).objects == w.objects[e.ns := Put(p, name, ContainerProp(exported, name))];
    } else {
      assert CopyName(w, e, exported, skip, name) == w;
    }
  }

  lemma CopyNameInstalls(w: World, e: EntryRec, exported: Value, skip: bool, name: string)
    requires e.mode == CJS && e.ns in w.objects && e.ns !in w.sealed
    requires name !in w.objects[e.ns].items && !(skip && name == "default")
    ensures var o := CopyName(w, e, exported, skip, name).objects;
      e.ns in o && name in o[e.ns].items && o[e.ns].items[name] == ContainerProp(exported, name)
  {
    var p := w.objects[e.ns];
    assert CopyName(w, e, exported, skip, name).objects == w.objects[e.ns := Put(p, name, ContainerProp(exported, name))];
  }

  lemma CopyNameAddsOnly(w: World, e: EntryRec, exported: Value, skip: bool, name: string, other: string)
    requires e.mode == CJS && e.ns in w.objects && other != name && other !in w.objects[e.ns].items
    ensures var o := CopyName(w, e, exported, skip, name).objects;
      e.ns in o && other !in o[e.ns].items
  {
    if !(skip && name == "default") && !HasOwn(w, Obj(e.ns), name) && e.ns !in w.sealed {
      var p := w.objects[e.ns];
      assert CopyName(w, e, exported, skip, name).objects == w.objects[e.ns := Put(p, name, ContainerProp(exported, name))];
    }
  }

  lemma {:induction false} CjsCopyKeeps(w: World, id: EntryId, exported: Value, skip: bool, names: seq<string>)
    requires id in w.entries && w.entries[id].mode == CJS && w.entries[id].ns in w.objects
    ensures var w' := AssignNames(w, id, exported, skip, names);
      var ns := w.entries[id].ns;
      && (forall x :: x in w.objects && x != ns ==> w'.objects[x] == w.objects[x])
      && (forall k :: k in w.objects[ns].items ==> k in w'.objects[ns].items && w'.objects[ns].items[k] == w.objects[ns].items[k])
    decreases |names|
  {
    if names != [] {
      var e := w.entries[id];
      var w1 := AssignName(w, id, exported, skip, names[0]);
      assert w1.entries[id].ns == e.ns && w1.entries[id].mode == CJS;
      CjsCopyNameStep(w, e, exported, skip, names[0]);
      CjsCopyKeeps(w1, id, exported, skip, names[1..]);
      assert AssignNames(w, id, exported, skip, names) == AssignNames(w1, id, exported, skip, names[1..]);
    }
  }

  /** ... and every copied name it did not have becomes an accessor onto
      the container's property of that name (except the skipped
      `default`). */
  lemma CjsCopyInstalls(w: World, id: EntryId, exported: Value, skip: bool, names: seq<string>)
    requires id in w.entries && w.entries[id].mode == CJS
    requires w.entries[id].ns in w.objects && w.entries[id].ns !in w.sealed
    ensures var w' := AssignNames(w, id, exported, skip, names);
      var ns := w.entries[id].ns;
      forall n :: n in names && n !in w.objects[ns].items && !(skip && n == "default") ==>
        n in w'.objects[ns].items && w'.objects[ns].items[n] == ContainerProp(exported, n)
  {
    var ns := w.entries[id].ns;
    forall n | n in names && n !in w.objects[ns].items && !(skip && n == "default")
      ensures var w' := AssignNames(w, id, exported, skip, names);
        n in w'.objects[ns].items && w'.objects[ns].items[n] == ContainerProp(exported, n)
    {
      CjsCopyInstallsName(w, id, exported, skip, names, n);
    }
  }

  lemma {:induction false} CjsCopyInstallsName(w: World, id: EntryId, exported: Value, skip: bool, names: seq<string>, n: string)
    requires id in w.entries && w.entries[id].mode == CJS
    requires w.entries[id].ns in w.objects && w.entries[id].ns !in w.sealed
    requires n in names && n !in w.objects[w.entries[id].ns].items && !(skip && n == "default")
    ensures var w' := AssignNames(w, id, exported, skip, names);
      var ns := w.entries[id].ns;
      n in w'.objects[ns].items && w'.objects[ns].items[n] == ContainerProp(exported, n)
    decreases |names|
  {
    var e := w.entries[id];
    var w1 := AssignName(w, id, exported, skip, names[0]);
    assert w1.entries[id].ns == e.ns && w1.entries[id].mode == CJS && w1.sealed == w.sealed;
    assert w1.objects == CopyName(w, e, exported, skip, names[0]).objects;
    assert AssignNames(w, id, exported, skip, names) == AssignNames(w1, id, exported, skip, names[1..]);
    if n == names[0] {
      CopyNameInstalls(w, e, exported, skip, n);
      CjsCopyKeeps(w1, id, exported, skip, names[1..]);
    } else {
      CopyNameAddsOnly(w, e, exported, skip, names[0], n);
      assert n in names[1..];
      CjsCopyInstallsName(w1, id, exported, skip, names[1..], n);
    }
  }

  /** A CommonJS module's `default` export is its exports container: once
      the container has been copied, the namespace reads `default` as the
      container itself — or, when that is an object, as the exports proxy
      the entry installed over it. */
  lemma CjsDefaultIsContainer(w: World, id: EntryId)
    requires id in w.entries && IsModule(w, w.entries[id].handle)
    requires SkipDefault(w, w.entries[id]) && "default" !in w.entries[id].getters.items
    requires w.entries[id].ns in w.objects && w.entries[id].ns !in w.sealed
    requires "default" in w.objects[w.entries[id].ns].items ==> w.objects[w.entries[id].ns].items["default"].Data?
    ensures var w' := AssignExports(w, id);
      var exported := ExportedOf(w, w.entries[id]);
      && w'.entries[id].proxiedBy == Some(id)
      && ReadNamespace(w', w'.entries[id], "default") == if ObjectLike(exported) then ExportsProxy(id) else exported
  {
    var e := w.entries[id];
    var exported := ExportedOf(w, e);
    var w1 := AfterDefault(w, id);
    CjsDefaultAssigned(w, id);
    var w' := AssignExports(w, id);
    if ObjectLike(exported) {
      CjsCopyKeeps(w1, id, exported, true, CopiedNames(w, id));
      assert w' == AssignNames(w1, id, exported, true, CopiedNames(w, id));
    }
    assert w'.objects[e.ns].items["default"] == Data(exported);
    assert w'.entries[id].proxiedBy == Some(id) && w'.entries[id].ns == e.ns;
    ReadNamespaceData(w', w'.entries[id], "default", exported);
  }

  /** Reading a namespace whose property is a plain data slot. */
  lemma ReadNamespaceData(w: World, e: EntryRec, name: string, v: Value)
    requires e.ns in w.objects && name in w.objects[e.ns].items && w.objects[e.ns].items[name] == Data(v)
    ensures ReadNamespace(w, e, name) ==
      if e.proxiedBy.Some? && name == "default" && ObjectLike(v) then ExportsProxy(e.proxiedBy.value) else v
  {
    assert ReadPropN(w, Obj(e.ns), name, MaxHops) == v;
  }

  /** The `skipDefault` branch itself: the namespace's `default` holds the
      container and the entry is put behind the proxy. */
  lemma CjsDefaultAssigned(w: World, id: EntryId)
    requires id in w.entries && IsModule(w, w.entries[id].handle)
    requires SkipDefault(w, w.entries[id]) && "default" !in w.entries[id].getters.items
    requires w.entries[id].ns in w.objects && w.entries[id].ns !in w.sealed
    requires "default" in w.objects[w.entries[id].ns].items ==> w.objects[w.entries[id].ns].items["default"].Data?
    ensures var w1 := AfterDefault(w, id);
      var e := w.entries[id];
      && w1.entries[id] == AddGetter(e, id, "default", NamespaceDefault(id)).(proxiedBy := Some(id))
      && w1.sealed == w.sealed && e.ns in w1.objects
      && "default" in w1.objects[e.ns].items
      && w1.objects[e.ns].items["default"] == Data(ExportedOf(w, e))
  {
  }

  /** A pseudo-ES module (a transpiled container with a truthy `__esModule`
      and its own `default`) keeps that `default`: the namespace gets an
      accessor onto the container's `default`, not the container, and no
      proxy is installed. */
  lemma PseudoKeepsDefault(w: World, id: EntryId)
    requires id in w.entries && IsModule(w, w.entries[id].handle)
    requires w.entries[id].mode == CJS && w.entries[id].loaded != Completed
    requires IsPseudo(w, w.entries[id], ExportedOf(w, w.entries[id]))
    requires HasOwn(w, ExportedOf(w, w.entries[id]), "default")
    requires ObjectLike(ExportedOf(w, w.entries[id])) && "default" in CopiedNames(w, id)
    requires w.entries[id].ns in w.objects && w.entries[id].ns !in w.sealed
    requires "default" !in w.objects[w.entries[id].ns].items
    ensures var w' := AssignExports(w, id);
      && w'.entries[id].proxiedBy == w.entries[id].proxiedBy
      && "default" in w'.objects[w.entries[id].ns].items
      && w'.objects[w.entries[id].ns].items["default"] == ContainerProp(ExportedOf(w, w.entries[id]), "default")
  {
    var e := w.entries[id];
    assert !SkipDefault(w, e);
    CjsCopyInstalls(w, id, ExportedOf(w, e), false, CopiedNames(w, id));
  }

  /** The accessor a CommonJS namespace gets is live in both directions:
      it reads the container's current value and forwards assignments to
      the container. */
  lemma ContainerAccessorIsLive(w: World, ns: Ref, c: Ref, k: string, v: Value, x: Value)
    requires ns in w.objects && k in w.objects[ns].items && w.objects[ns].items[k] == ContainerProp(Obj(c), k)
    requires c != ns && c in w.objects && k in w.objects[c].items && w.objects[c].items[k] == Data(v)
    ensures ReadProp(w, Obj(ns), k) == v
    ensures ReadProp(WriteProp(w, Obj(ns), k, x), Obj(c), k) == x
    ensures ReadProp(WriteProp(w, Obj(ns), k, x), Obj(ns), k) == x
  {
  }

  /* ----- refreshing an ES module's namespace ----- */

  /** A namespace object holding only data properties, which can be
      assigned. */
  ghost predicate PlainNamespace(w: World, e: EntryRec) {
    && e.ns in w.objects && e.ns !in w.sealed
    && forall k :: k in w.objects[e.ns].items ==> w.objects[e.ns].items[k].Data?
  }

  /** Getters the compiler registered for local bindings, and the conflict
      getters `export *` adds: their values do not depend on any object. */
  ghost predicate CompiledGetters(e: EntryRec) {
    forall k :: k in e.getters.items ==> e.getters.items[k].body.Local? || e.getters.items[k].body.Conflict?
  }

  /** On a plain namespace, a getter that fires stores its value as a data
      property and touches no other object. */
  lemma RunGetterWrites(w: World, id: EntryId, name: string)
    requires id in w.entries && PlainNamespace(w, w.entries[id])
    ensures var e := w.entries[id];
      var w' := RunGetter(w, id, name);
      && w'.locals == w.locals
      && w'.entries[id].getters == e.getters && w'.entries[id].ns == e.ns
      && (forall x :: x in w.objects && x != e.ns ==> w'.objects[x] == w.objects[x])
      && (GetterFires(w, e, name) ==>
            w'.objects[e.ns] == Put(w.objects[e.ns], name, Data(CallGetter(w, GetterFor(e, name)))))
  {
    var e := w.entries[id];
    if GetterFires(w, e, name) {
      var w1 := WithEntry(w, id, e.(changed := true));
      var v := CallGetter(w, GetterFor(e, name));
      assert RunGetter(w, id, name) == WritePropN(w1, Obj(e.ns), name, v, MaxHops);
    }
  }

  /** A compiled getter reads only local bindings. */
  lemma CompiledGetterReadsLocals(w: World, w': World, e: EntryRec, name: string)
    requires CompiledGetters(e) && w'.locals == w.locals
    ensures CallGetter(w', GetterFor(e, name)) == CallGetter(w, GetterFor(e, name))
  {
  }

  /** After `runGetter` the namespace agrees with the getter, so a second
      run has nothing to store. */
  lemma RunGetterSettles(w: World, id: EntryId, name: string)
    requires id in w.entries && PlainNamespace(w, w.entries[id]) && CompiledGetters(w.entries[id])
    ensures var w' := RunGetter(w, id, name);
      && PlainNamespace(w', w'.entries[id])
      && !GetterFires(w', w'.entries[id], name)
  {
    var e := w.entries[id];
    var w' := RunGetter(w, id, name);
    RunGetterWrites(w, id, name);
    var e' := w'.entries[id];
    CompiledGetterReadsLocals(w, w', e, name);
    assert GetterFor(e', name) == GetterFor(e, name);
    if GetterFires(w, e, name) {
      var v := CallGetter(w, GetterFor(e, name));
      var p' := w'.objects[e.ns];
      assert p'.items[name] == Data(v);
      assert ReadProp(w', Obj(e.ns), name) == v;
    }
  }

  /** ... and running the getter of another name leaves that agreement in
      place. */
  lemma RunGetterKeepsSettled(w: World, id: EntryId, name: string, other: string)
    requires id in w.entries && PlainNamespace(w, w.entries[id]) && CompiledGetters(w.entries[id])
    requires other != name && !GetterFires(w, w.entries[id], other)
    ensures var w' := RunGetter(w, id, name);
      !GetterFires(w', w'.entries[id], other)
  {
    var e := w.entries[id];
    var w' := RunGetter(w, id, name);
    RunGetterWrites(w, id, name);
    var e' := w'.entries[id];
    CompiledGetterReadsLocals(w, w', e, other);
    assert GetterFor(e', other) == GetterFor(e, other);
    if GetterFires(w, e, name) && other in w.objects[e.ns].items {
      var p := w.objects[e.ns];
      var p' := w'.objects[e.ns];
      assert p'.items[other] == p.items[other];
      assert ReadProp(w', Obj(e.ns), other) == ReadProp(w, Obj(e.ns), other);
    }
  }

  lemma {:induction false} RunGettersOverSettles(w: World, id: EntryId, names: seq<string>)
    requires id in w.entries && PlainNamespace(w, w.entries[id]) && CompiledGetters(w.entries[id])
    ensures var w' := RunGettersOver(w, id, names);
      && PlainNamespace(w', w'.entries[id])
      && forall n :: n in names ==> !GetterFires(w', w'.entries[id], n)
    decreases |names|
  {
    if names != [] {
      var w1 := RunGetter(w, id, names[0]);
      RunGetterSettles(w, id, names[0]);
      RunGettersOverSettles(w1, id, names[1..]);
      var w' := RunGettersOver(w, id, names);
      if !GetterFires(w', w'.entries[id], names[0]) {
      } else {
        RunGettersOverKeepsSettled(w1, id, names[1..], names[0]);
      }
      assert forall n :: n in names ==> n == names[0] || n in names[1..];
    }
  }

  lemma {:induction false} RunGettersOverKeepsSettled(w: World, id: EntryId, names: seq<string>, other: string)
    requires id in w.entries && PlainNamespace(w, w.entries[id]) && CompiledGetters(w.entries[id])
    requires !GetterFires(w, w.entries[id], other)
    ensures var w' := RunGettersOver(w, id, names);
      !GetterFires(w', w'.entries[id], other)
    decreases |names|
  {
    if names != [] {
      var w1 := RunGetter(w, id, names[0]);
      if names[0] == other {
        assert w1 == w;
      } else {
        RunGetterKeepsSettled(w, id, names[0], other);
      }
      RunGetterSettles(w, id, names[0]);
      RunGettersOverKeepsSettled(w1, id, names[1..], other);
    }
  }

  /** When no getter has anything to store, running them changes nothing. */
  lemma {:induction false} RunGettersOverQuiet(w: World, id: EntryId, names: seq<string>)
    requires id in w.entries
    requires forall n :: n in names ==> !GetterFires(w, w.entries[id], n)
    ensures RunGettersOver(w, id, names) == w
    decreases |names|
  {
    if names != [] {
      assert RunGetter(w, id, names[0]) == w;
      assert forall n :: n in names[1..] ==> n in names;
      RunGettersOverQuiet(w, id, names[1..]);
    }
  }

  /** Refreshing an ES module whose getters are compiled bindings twice is
      the same as refreshing it once: the second pass stores nothing and
      leaves the change flag alone. */
  lemma EsmRunGettersIdempotent(w: World, id: EntryId)
    requires id in w.entries && IsModule(w, w.entries[id].handle) && w.entries[id].mode == ESM
    requires PlainNamespace(w, w.entries[id]) && CompiledGetters(w.entries[id])
    ensures RunGetters(RunGetters(w, id), id) == RunGetters(w, id)
  {
    var w1 := RunGetters(w, id);
    RunGettersOverSettles(w, id, w.entries[id].getters.order);
    assert w1.entries[id].getters == w.entries[id].getters;
    RunGettersOverQuiet(w1, id, w1.entries[id].getters.order);
  }
}

=== FILE: lifecycle.dfy ===
/** Finishing a module's load (`Entry#loaded`). An entry is complete once
    its module has executed and none of its children is still incomplete; at
    that point an ES module's exports container is sealed behind accessors
    onto the namespace, a CommonJS entry is reconciled with the entry its
    (possibly replaced) exports belong to, the exports are copied into the
    namespace, and the namespace views are made. A child already being
    loaded further up the stack reports `Indeterminate`, which breaks
    import cycles. */
module Lifecycle {
  import opened Values
  import opened OrderedMaps
  import opened EntryState
  import opened Registry
  import opened Merge
  import opened Namespaces
  import opened Exports
  import ExportsLaws
  import MergeLaws

  /** How a call to `loaded()` ends: with a state, or cut off by the fuel
      bound that stands in for the depth of the child graph. */
  datatype LoadOutcome = Reached(w: World, state: Load) | LoadOutOfFuel(w: World)

  /** How the walk over an entry's children ends. */
  datatype ChildrenOutcome = ChildrenDone(w: World) | ChildBlocked(w: World) | ChildrenOutOfFuel(w: World)

  /* ----- well-formedness of the steps ----- */

  /** A world that differs from a well-formed one only in the contents of
      existing objects, the sealed set and the skip set is well formed. */
  lemma WfReshaped(w: World, w': World)
    requires Wf(w)
    requires w'.entries == w.entries && w'.cache == w.cache && w'.modules == w.modules
    requires w'.objects.Keys == w.objects.Keys && w'.nextEntry == w.nextEntry && w'.nextRef == w.nextRef
    ensures Wf(w') && Grows(w, w')
  {
    assert Grows(w, w');
    forall i | i in w'.entries ensures RefsOk(w', w'.entries[i]) {
      RefsOkGrows(w, w', w.entries[i]);
    }
  }

  /** Dropping registry keys keeps the world well formed. */
  lemma WfDeleteEntry(w: World, v: Value)
    requires Wf(w)
    ensures Wf(DeleteEntry(w, v)) && Grows(w, DeleteEntry(w, v))
  {
    var w' := DeleteEntry(w, v);
    assert Grows(w, w');
    forall i | i in w'.entries ensures RefsOk(w', w'.entries[i]) {
      RefsOkGrows(w, w', w.entries[i]);
    }
  }

  /** Copying the exports adds only getters that read the entry's own
      namespace, so every reference still resolves. */
  lemma AssignExportsWf(w: World, id: EntryId)
    requires Wf(w) && id in w.entries && IsModule(w, w.entries[id].handle)
    ensures Wf(AssignExports(w, id)) && Grows(w, AssignExports(w, id))
  {
    var e := w.entries[id];
    assert RefsOk(w, e);
    var w' := AssignExports(w, id);
    var e' := w'.entries[id];
    ExportsLaws.AssignExportsGetters(w, id);
    assert Grows(w, w');
    RefsOkAddedGetters(w, w', e, e', id);
    forall i | i in w'.entries ensures RefsOk(w', w'.entries[i]) {
      if i != id {
        RefsOkGrows(w, w', w.entries[i]);
      }
    }
  }

  /** A record that only gained getters reading entry `id`'s namespace
      keeps its references resolving. */
  lemma RefsOkAddedGetters(w: World, w': World, e: EntryRec, e': EntryRec, id: EntryId)
    requires RefsOk(w, e) && Grows(w, w') && id in w'.entries
    requires e' == e.(getters := e'.getters, proxiedBy := e'.proxiedBy)
    requires ExportsLaws.AddedGetters(e.getters.items, e'.getters.items, id)
    ensures RefsOk(w', e')
  {
    RefsOkGrows(w, w', e);
    forall k | k in e'.getters.items ensures GetterRefsOk(w', e'.getters.items[k]) {
      if k in e.getters.items {
        assert GetterRefsOk(w', e.getters.items[k]);
      }
    }
  }

  /** Replacing an entry's record by one with the same references keeps
      the world well formed. */
  lemma WfPutSameRefs(w: World, id: EntryId, e': EntryRec)
    requires Wf(w) && id in w.entries
    requires var e := w.entries[id];
      e'.ns == e.ns && e'.handle == e.handle && e'.children == e.children
      && e'.getters == e.getters && e'.setters == e.setters
    ensures Wf(w.(entries := w.entries[id := e'])) && Grows(w, w.(entries := w.entries[id := e']))
  {
    assert RefsOk(w, w.entries[id]);
    assert RefsOk(w, e');
    WfPutEntry(w, id, e');
  }

  /** `this._loaded = s`. */
  function SetLoad(w: World, id: EntryId, s: Load): (w': World)
    requires Wf(w) && id in w.entries
    ensures Wf(w') && Grows(w, w')
    ensures w' == w.(entries := w.entries[id := w.entries[id].(loaded := s)])
  {
    WfPutSameRefs(w, id, w.entries[id].(loaded := s));
    w.(entries := w.entries[id := w.entries[id].(loaded := s)])
  }

  /* ----- sealing an ES module's exports container ----- */

  /** `Object.isSealed(exported)`. Values that are not objects the engine
      tracks count as sealed: a primitive is, and the views and proxies sit
      over sealed or engine-owned targets. */
  predicate IsSealed(w: World, v: Value) {
    !(v.Obj? && v.ref in w.objects) || v.ref in w.sealed
  }

  /** The property `Reflect.defineProperty(exported, "__esModule",
      { value: true })` leaves: a new one is not enumerable, an existing
      enumerable one stays enumerable. */
  function PseudoSlot(p: Props): (s: Slot)
    ensures s == Data(Bool(true)) || s == Hidden(Bool(true))
    ensures s.Hidden? <==> !("__esModule" in p.items && !p.items["__esModule"].Hidden?)
  {
    if "__esModule" in p.items && !p.items["__esModule"].Hidden? then Data(Bool(true)) else Hidden(Bool(true))
  }

  /** `setGetter(exported, name, () => this._namespace[name])` for each
      name in turn. */
  function DefineGetters(w: World, r: Ref, id: EntryId, names: seq<string>): (w': World)
    requires r in w.objects && r !in w.sealed
    ensures w' == w.(objects := w'.objects) && w'.objects.Keys == w.objects.Keys
    ensures forall x :: x in w.objects && x != r ==> w'.objects[x] == w.objects[x]
    ensures forall k :: k in names ==> k in w'.objects[r].items && w'.objects[r].items[k] == EntryNsProp(id, k)
    ensures forall k :: k !in names ==> (k in w'.objects[r].items <==> k in w.objects[r].items)
    ensures forall k :: k !in names && k in w.objects[r].items ==> w'.objects[r].items[k] == w.objects[r].items[k]
    decreases |names|
  {
    if names == [] then w
    else
      var w1 := DefineProp(w, r, names[0], EntryNsProp(id, names[0]));
      assert forall k :: k in names <==> k == names[0] || k in names[1..];
      DefineGetters(w1, r, id, names[1..])
  }

  /** The ES module branch of `loaded()` for an exports container that is
      not sealed yet: the `__esModule` flag when the package enables interop
      and the namespace has none, an accessor onto the namespace for each of
      its enumerable names, then the seal. */
  function SealContainer(w: World, id: EntryId, r: Ref): (w': World)
    requires id in w.entries && r in w.objects && r !in w.sealed
    ensures w' == w.(objects := w'.objects, sealed := w.sealed + {r}) && w'.objects.Keys == w.objects.Keys
  {
    var e := w.entries[id];
    var w1 := if e.options.interop && "__esModule" !in PropsOf(w, Obj(e.ns)).items
      then DefineProp(w, r, "__esModule", PseudoSlot(w.objects[r])) else w;
    var w2 := DefineGetters(w1, r, id, EnumerableKeys(PropsOf(w1, Obj(e.ns))));
    w2.(sealed := w2.sealed + {r})
  }

  /* ----- the steps after the children ----- */

  /** `setDeferred` of `cjsNamespace` and `esmNamespace`. */
  function SetViews(w: World, id: EntryId): (w': World)
    requires Wf(w) && id in w.entries
    ensures Wf(w') && Grows(w, w')
    ensures var e' := w'.entries[id];
      w' == w.(entries := w.entries[id := e'])
      && e' == w.entries[id].(cjsNamespace := e'.cjsNamespace, esmNamespace := e'.esmNamespace)
    ensures w'.sealed == w.sealed && w'.skipExports == w.skipExports && w'.entries[id].name == w.entries[id].name
    ensures forall i :: i in w.entries && i != id ==> w'.entries[i] == w.entries[i]
    ensures IsModule(w, w.entries[id].handle)
    ensures w'.entries[id].cjsNamespace == CjsNamespaceOf(w, id) && w'.entries[id].esmNamespace == EsmNamespaceOf(w, id)
  {
    var e := w.entries[id];
    assert RefsOk(w, e);
    var e' := e.(cjsNamespace := CjsNamespaceOf(w, id), esmNamespace := EsmNamespaceOf(w, id));
    WfPutSameRefs(w, id, e');
    w.(entries := w.entries[id := e'])
  }

  /** What `assignExportsToNamespace` leaves in the getters `g'` of entry
      `id` of `w`: a getter for every copied name, and for a skipped
      `default`; the getters it had are kept and each new one reads this
      entry's namespace. */
  ghost predicate ExportsCopied(w: World, id: EntryId, g': map<string, Getter>)
    requires id in w.entries && IsModule(w, w.entries[id].handle)
  {
    && (forall n :: n in CopiedNames(w, id) ==> n in g')
    && (SkipDefault(w, w.entries[id]) ==> "default" in g')
    && ExportsLaws.AddedGetters(w.entries[id].getters.items, g', id)
  }

  /** `assignExportsToNamespace(this)` inside `loaded()`. */
  function CopyExports(w: World, id: EntryId): (w': World)
    requires Wf(w) && id in w.entries && IsModule(w, w.entries[id].handle)
    ensures Wf(w') && Grows(w, w') && w'.sealed == w.sealed && w'.skipExports == w.skipExports
    ensures forall i :: i in w.entries && i != id ==> w'.entries[i] == w.entries[i]
    ensures w'.entries[id].name == w.entries[id].name && w'.cache == w.cache
    ensures w'.entries[id] == w.entries[id].(getters := w'.entries[id].getters, proxiedBy := w'.entries[id].proxiedBy)
    ensures ExportsCopied(w, id, w'.entries[id].getters.items)
  {
    AssignExportsWf(w, id);
    ExportsLaws.AssignExportsGetters(w, id);
    AssignExports(w, id)
  }

  /** Copying the exports and, when asked to, making the views. */
  function Prepare(w: World, id: EntryId, setViews: bool): (w': World)
    requires Wf(w) && id in w.entries && IsModule(w, w.entries[id].handle)
    ensures Wf(w') && Grows(w, w') && w'.sealed == w.sealed && w'.skipExports == w.skipExports
    ensures forall i :: i in w.entries && i != id ==> w'.entries[i] == w.entries[i]
    ensures w'.entries[id].name == w.entries[id].name && w'.cache == w.cache
    ensures w'.entries[id].handle == w.entries[id].handle && w'.entries[id].loaded == w.entries[id].loaded
    ensures ExportsCopied(w, id, w'.entries[id].getters.items)
    ensures setViews ==>
      w'.entries[id].cjsNamespace == CjsNamespaceOf(w', id) && w'.entries[id].esmNamespace == EsmNamespaceOf(w', id)
    ensures !setViews ==>
      w'.entries[id].cjsNamespace == w.entries[id].cjsNamespace && w'.entries[id].esmNamespace == w.entries[id].esmNamespace
  {
    var w1 := CopyExports(w, id);
    if !setViews then w1
    else
      var w2 := SetViews(w1, id);
      GrowsTransitive(w, w1, w2);
      ViewsOfViews(w1, w2, id);
      w2
  }

  /** Making the views does not change what the views would be. */
  lemma ViewsOfViews(w: World, w': World, id: EntryId)
    requires id in w.entries && IsModule(w, w.entries[id].handle) && id in w'.entries
    requires w' == w.(entries := w.entries[id := w'.entries[id]])
    requires w'.entries[id] == w.entries[id].(cjsNamespace := w'.entries[id].cjsNamespace, esmNamespace := w'.entries[id].esmNamespace)
    ensures CjsNamespaceOf(w', id) == CjsNamespaceOf(w, id) && EsmNamespaceOf(w', id) == EsmNamespaceOf(w, id)
  {
    assert NamespaceSource(w'.entries[id]) == NamespaceSource(w.entries[id]);
    assert w'.objects == w.objects;
  }

  /** `delete skipExports[this.name]`, then `this._loaded = COMPLETED`. */
  function Complete(w: World, id: EntryId): (r: LoadOutcome)
    requires Wf(w) && id in w.entries
    ensures r.Reached? && r.state == Completed
    ensures Wf(r.w) && Grows(w, r.w) && r.w.sealed == w.sealed
    ensures forall i :: i in w.entries && i != id ==> r.w.entries[i] == w.entries[i]
    ensures r.w.entries[id].loaded == Completed
    ensures r.w.skipExports == w.skipExports - {w.entries[id].name}
    ensures r.w.entries[id].name !in r.w.skipExports
  {
    var w1 := w.(skipExports := w.skipExports - {w.entries[id].name});
    WfReshaped(w, w1);
    var w2 := SetLoad(w1, id, Completed);
    GrowsTransitive(w, w1, w2);
    Reached(w2, Completed)
  }

  /** The common tail of `loaded()`: copy the exports, make the views when
      asked to, take the module's name out of the skip set, and complete. */
  function Publish(w: World, id: EntryId, setViews: bool): (r: LoadOutcome)
    requires Wf(w) && id in w.entries && IsModule(w, w.entries[id].handle)
    ensures r.Reached? && r.state == Completed
    ensures Wf(r.w) && Grows(w, r.w) && r.w.sealed == w.sealed
    ensures forall i :: i in w.entries && i != id ==> r.w.entries[i] == w.entries[i]
    ensures r.w.entries[id].loaded == Completed
    ensures r.w.entries[id].name !in r.w.skipExports
    ensures r.w.skipExports == w.skipExports - {w.entries[id].name}
    ensures r.w.cache == w.cache && r.w.entries[id].handle == w.entries[id].handle
    ensures ExportsCopied(w, id, r.w.entries[id].getters.items)
    ensures setViews ==>
      r.w.entries[id].cjsNamespace == CjsNamespaceOf(r.w, id) && r.w.entries[id].esmNamespace == EsmNamespaceOf(r.w, id)
    ensures !setViews ==>
      r.w.entries[id].cjsNamespace == w.entries[id].cjsNamespace && r.w.entries[id].esmNamespace == w.entries[id].esmNamespace
  {
    var w1 := Prepare(w, id, setViews);
    var r := Complete(w1, id);
    GrowsTransitive(w, w1, r.w);
    r
  }

  /** Re-registers the entry when a value it was registered under was
      replaced: `Entry.delete(was)` and `Entry.set(now, this)`. */
  function Rekey(w: World, id: EntryId, was: Value, now: Value): (w': World)
    requires Wf(w) && id in w.entries
    ensures Wf(w') && Grows(w, w') && w' == w.(cache := w'.cache)
    ensures StrictEquals(was, now) ==> w' == w
    ensures !StrictEquals(was, now) ==> w' == SetEntry(DeleteEntry(w, was), now, id)
  {
    if StrictEquals(was, now) then w
    else
      var w1 := DeleteEntry(w, was);
      WfDeleteEntry(w, was);
      WfSetEntry(w1, now, id);
      SetEntry(w1, now, id)
  }

  /** `Entry.get(this.module)` and `this.merge(newEntry)`: the entry takes
      over the state of the entry its module's current exports are
      registered to (itself, unless the exports were replaced by another
      module's). Also says whether that entry had not completed yet. */
  function Adopt(w: World, id: EntryId): (r: (World, bool))
    requires Wf(w) && id in w.entries && IsModule(w, w.entries[id].handle)
    ensures Wf(r.0) && Grows(w, r.0)
    ensures forall i :: i in w.entries && i != id ==> r.0.entries[i] == w.entries[i]
    ensures IsModule(r.0, r.0.entries[id].handle)
    ensures r.0.skipExports == w.skipExports && r.0.sealed == w.sealed
    ensures var (w1, found) := GetEntry(w, w.entries[id].handle);
      && found.Some? && found.value in w1.entries
      && r.0 == MergeEntries(w1, id, found.value)
      && r.0.entries[id].handle == w1.entries[found.value].handle
      && r.0.cache == w1.cache
      && (r.1 <==> w1.entries[found.value].loaded != Completed)
  {
    var (w1, newId) := Find(w, id);
    var setViews := w1.entries[newId].loaded != Completed;
    var w2 := Absorb(w1, id, newId);
    forall i | i in w.entries && i != id ensures w2.entries[i] == w.entries[i] {
      assert w2.entries[i] == w1.entries[i];
    }
    GrowsTransitive(w, w1, w2);
    (w2, setViews)
  }

  /** `this.merge(newEntry)`, which changes only this entry's record (the
      merged setter lists are copies, see `Merge.MergeEntries`). */
  function Absorb(w: World, id: EntryId, otherId: EntryId): (w': World)
    requires Wf(w) && id in w.entries && otherId in w.entries
    ensures Wf(w') && Grows(w, w') && w' == w.(entries := w'.entries)
    ensures forall i :: i in w.entries && i != id ==> w'.entries[i] == w.entries[i]
    ensures IsModule(w', w'.entries[id].handle)
    ensures w' == MergeEntries(w, id, otherId)
  {
    MergeLaws.MergeEntriesWf(w, id, otherId);
    var w' := MergeEntries(w, id, otherId);
    assert RefsOk(w', w'.entries[id]);
    w'
  }

  /** `Entry.get(this.module)`, which finds an entry or registers a new
      one and changes nothing else. */
  function Find(w: World, id: EntryId): (r: (World, EntryId))
    requires Wf(w) && id in w.entries && IsModule(w, w.entries[id].handle)
    ensures Wf(r.0) && Grows(w, r.0) && r.1 in r.0.entries
    ensures forall i :: i in w.entries ==> r.0.entries[i] == w.entries[i]
    ensures r.0.skipExports == w.skipExports && r.0.sealed == w.sealed
    ensures (r.0, Some(r.1)) == GetEntry(w, w.entries[id].handle)
  {
    GetEntryFrame(w, w.entries[id].handle);
    var (w1, found) := GetEntry(w, w.entries[id].handle);
    (w1, found.value)
  }

  /** Re-registers the entry under its handle and its exports container
      when the merge or the module replaced them. */
  function Reregister(w: World, id: EntryId, oldMod: Value, oldExported: Value): (w': World)
    requires Wf(w) && id in w.entries && IsModule(w, w.entries[id].handle)
    ensures Wf(w') && Grows(w, w') && w' == w.(cache := w'.cache)
    ensures var newMod := w.entries[id].handle;
      var newExported := ModuleAt(w, newMod).exports;
      && (StrictEquals(oldMod, newMod) && StrictEquals(oldExported, newExported) ==> w' == w)
      && (!StrictEquals(oldExported, newExported) && ObjectLike(newExported) ==> Lookup(w', newExported) == Some(id))
      && (!StrictEquals(oldMod, newMod) && ObjectLike(newMod)
            && (StrictEquals(oldExported, newExported) || oldExported != newMod || newExported == newMod) ==>
            Lookup(w', newMod) == Some(id))
  {
    var newMod := w.entries[id].handle;
    var w1 := Rekey(w, id, oldMod, newMod);
    var w2 := Rekey(w1, id, oldExported, ModuleAt(w, newMod).exports);
    GrowsTransitive(w, w1, w2);
    w2
  }

  /** The CommonJS branch: adopt the state of the entry the exports belong
      to, re-register, and stop as incomplete if the module taken over has
      not finished executing. The views are made unless the adopted entry
      had completed (its views came along in the merge). */
  function FinishCjs(w: World, id: EntryId): (r: LoadOutcome)
    requires Wf(w) && id in w.entries && IsModule(w, w.entries[id].handle)
    ensures r.Reached? && Wf(r.w) && Grows(w, r.w)
    ensures forall i :: i in w.entries && i != id ==> r.w.entries[i] == w.entries[i]
    ensures r.w.entries[id].loaded == r.state
    ensures r.state == Completed ==> r.w.entries[id].name !in r.w.skipExports
    ensures var (w1, found) := GetEntry(w, w.entries[id].handle);
      && found.Some? && found.value in w1.entries
      && r.w.entries[id].handle == w1.entries[found.value].handle
      && RegisteredAfter(w1, r.w, id, w.entries[id].handle, ModuleAt(w, w.entries[id].handle).exports)
  {
    var oldMod := w.entries[id].handle;
    var (w1, setViews) := Adopt(w, id);
    var w2 := Reregister(w1, id, oldMod, ModuleAt(w, oldMod).exports);
    GrowsTransitive(w, w1, w2);
    assert w2.entries == w1.entries;
    var r := Settle(w2, id, setViews);
    GrowsTransitive(w, w2, r.w);
    forall i | i in w.entries && i != id ensures r.w.entries[i] == w.entries[i] {
      assert r.w.entries[i] == w2.entries[i] == w1.entries[i];
    }
    ReregisterRegisters(w1, id, oldMod, ModuleAt(w, oldMod).exports);
    RegisteredAfterFrame(GetEntry(w, oldMod).0, w1, w2, r.w, id, oldMod, ModuleAt(w, oldMod).exports);
    r
  }

  /** What re-registering an entry leaves in the registry: the entry is
      registered under its module if that differs from `oldMod`, and under
      the module's exports container if that differs from `oldExported`;
      when neither differs the registry is `w`'s. */
  ghost predicate RegisteredAfter(w: World, w': World, id: EntryId, oldMod: Value, oldExported: Value) {
    && id in w'.entries && IsModule(w', w'.entries[id].handle)
    && var newMod := w'.entries[id].handle;
      var newExported := ModuleAt(w', newMod).exports;
      && (StrictEquals(oldMod, newMod) && StrictEquals(oldExported, newExported) ==> w'.cache == w.cache)
      && (!StrictEquals(oldExported, newExported) && ObjectLike(newExported) ==> Lookup(w', newExported) == Some(id))
      && (!StrictEquals(oldMod, newMod) && ObjectLike(newMod)
            && (StrictEquals(oldExported, newExported) || oldExported != newMod || newExported == newMod) ==>
            Lookup(w', newMod) == Some(id))
  }

  /** What Reregister's contract says, as a `RegisteredAfter`. */
  lemma ReregisterRegisters(w: World, id: EntryId, oldMod: Value, oldExported: Value)
    requires Wf(w) && id in w.entries && IsModule(w, w.entries[id].handle)
    ensures RegisteredAfter(w, Reregister(w, id, oldMod, oldExported), id, oldMod, oldExported)
  {
    var w' := Reregister(w, id, oldMod, oldExported);
    var newMod := w.entries[id].handle;
    var newExported := ModuleAt(w, newMod).exports;
    assert w'.entries[id].handle == newMod && IsModule(w', newMod);
    assert ModuleAt(w', newMod).exports == newExported;
    assert StrictEquals(oldMod, newMod) && StrictEquals(oldExported, newExported) ==> w'.cache == w.cache;
    assert !StrictEquals(oldExported, newExported) && ObjectLike(newExported) ==> Lookup(w', newExported) == Some(id);
    assert (!StrictEquals(oldMod, newMod) && ObjectLike(newMod)
            && (StrictEquals(oldExported, newExported) || oldExported != newMod || newExported == newMod))
      ==> Lookup(w', newMod) == Some(id);
  }

  /** Re-registration facts survive steps that keep the cache, the
      modules and the entry's handle, and steps before it that keep the
      cache. */
  lemma RegisteredAfterFrame(w: World, w1: World, w2: World, w3: World, id: EntryId, oldMod: Value, oldExported: Value)
    requires RegisteredAfter(w1, w2, id, oldMod, oldExported) && w1.cache == w.cache
    requires w3.cache == w2.cache && w3.modules == w2.modules && id in w3.entries
    requires w3.entries[id].handle == w2.entries[id].handle
    ensures RegisteredAfter(w, w3, id, oldMod, oldExported)
  {
    var newMod := w2.entries[id].handle;
    var newExported := ModuleAt(w2, newMod).exports;
    assert w3.entries[id].handle == newMod && ModuleAt(w3, newMod).exports == newExported;
    assert Lookup(w3, newMod) == Lookup(w2, newMod);
    assert Lookup(w3, newExported) == Lookup(w2, newExported);
  }

  /** The end of the CommonJS branch: incomplete while the module the
      entry now stands for is still executing, published otherwise. */
  function Settle(w: World, id: EntryId, setViews: bool): (r: LoadOutcome)
    requires Wf(w) && id in w.entries && IsModule(w, w.entries[id].handle)
    ensures r.Reached? && Wf(r.w) && Grows(w, r.w)
    ensures forall i :: i in w.entries && i != id ==> r.w.entries[i] == w.entries[i]
    ensures r.w.entries[id].loaded == r.state
    ensures r.state == Completed ==> r.w.entries[id].name !in r.w.skipExports
    ensures r.state == Incomplete <==> !ModuleAt(w, w.entries[id].handle).loaded
    ensures r.state == Completed || r.state == Incomplete
    ensures r.w.cache == w.cache && r.w.entries[id].handle == w.entries[id].handle
  {
    if !ModuleAt(w, w.entries[id].handle).loaded then Reached(SetLoad(w, id, Incomplete), Incomplete)
    else Publish(w, id, setViews)
  }

  /** What `loaded()` does once every child is settled. */
  function Finish(w: World, id: EntryId): (r: LoadOutcome)
    requires Wf(w) && id in w.entries && IsModule(w, w.entries[id].handle)
    ensures r.Reached? && Wf(r.w) && Grows(w, r.w)
    ensures forall i :: i in w.entries && i != id ==> r.w.entries[i] == w.entries[i]
    ensures r.w.entries[id].loaded == r.state
    ensures r.state == Completed ==> r.w.entries[id].name !in r.w.skipExports
    ensures w.entries[id].mode == ESM ==> r.state == Completed && IsSealed(r.w, ExportedOf(w, w.entries[id]))
  {
    if w.entries[id].mode == ESM then FinishEsm(w, id) else FinishCjs(w, id)
  }

  /** The ES module branch: seal the exports container unless it already
      is, then publish with the views made. */
  function FinishEsm(w: World, id: EntryId): (r: LoadOutcome)
    requires Wf(w) && id in w.entries && IsModule(w, w.entries[id].handle)
    ensures r.Reached? && Wf(r.w) && Grows(w, r.w)
    ensures forall i :: i in w.entries && i != id ==> r.w.entries[i] == w.entries[i]
    ensures r.w.entries[id].loaded == r.state
    ensures r.state == Completed && r.w.entries[id].name !in r.w.skipExports
    ensures IsSealed(r.w, ExportedOf(w, w.entries[id]))
  {
    var e := w.entries[id];
    assert RefsOk(w, e);
    var exported := ExportedOf(w, e);
    var w1 := if IsSealed(w, exported) then w else SealContainer(w, id, exported.ref);
    WfReshaped(w, w1);
    var r := Publish(w1, id, true);
    assert IsSealed(w1, exported);
    GrowsTransitive(w, w1, r.w);
    r
  }

  /* ----- loaded() ----- */

  /** `entry.loaded()`. A state other than `Incomplete` is returned as it
      is; a module still executing leaves the entry incomplete; otherwise the
      entry is marked `Indeterminate`, its children are loaded in order, and
      the first child that stays incomplete makes the entry incomplete too. */
  function Loaded(w: World, id: EntryId, fuel: nat): (r: LoadOutcome)
    requires Wf(w) && id in w.entries
    ensures Wf(r.w) && Grows(w, r.w)
    ensures forall i :: i in w.entries && w.entries[i].loaded != Incomplete ==> r.w.entries[i] == w.entries[i]
    ensures r.Reached? ==> r.w.entries[id].loaded == r.state
    ensures r.Reached? && r.state == Completed && w.entries[id].loaded == Incomplete ==>
      && IsModule(w, w.entries[id].handle) && ModuleAt(w, w.entries[id].handle).loaded
      && r.w.entries[id].name !in r.w.skipExports
    ensures r.Reached? && w.entries[id].loaded == Incomplete && w.entries[id].mode == ESM && r.state != Incomplete ==>
      IsModule(w, w.entries[id].handle) && IsSealed(r.w, ModuleAt(w, w.entries[id].handle).exports)
    ensures r.Reached? && w.entries[id].loaded == Incomplete && r.state != Incomplete ==>
      AllSettled(r.w.entries, ValuesOf(w.entries[id].children))
    decreases fuel, 0
  {
    var e := w.entries[id];
    assert RefsOk(w, e);
    if fuel == 0 then LoadOutOfFuel(w)
    else if e.loaded != Incomplete then Reached(w, e.loaded)
    else if !ModuleAt(w, e.handle).loaded then Reached(w, Incomplete)
    else Begin(w, id, fuel - 1)
  }

  /** Marks the entry `Indeterminate`, loads its children, and finishes or
      gives up. */
  function Begin(w: World, id: EntryId, fuel: nat): (r: LoadOutcome)
    requires Wf(w) && id in w.entries && IsModule(w, w.entries[id].handle)
    requires w.entries[id].loaded == Incomplete
    ensures Wf(r.w) && Grows(w, r.w)
    ensures forall i :: i in w.entries && w.entries[i].loaded != Incomplete ==> r.w.entries[i] == w.entries[i]
    ensures r.Reached? ==> r.w.entries[id].loaded == r.state
    ensures r.Reached? && r.state == Completed ==> r.w.entries[id].name !in r.w.skipExports
    ensures r.Reached? && w.entries[id].mode == ESM && r.state != Incomplete ==>
      IsSealed(r.w, ModuleAt(w, w.entries[id].handle).exports)
    ensures r.Reached? && r.state != Incomplete ==> AllSettled(r.w.entries, ValuesOf(w.entries[id].children))
    decreases fuel, 3
  {
    var c := Visit(w, id, fuel);
    var r := AfterChildren(c, id);
    BeginSteps(w, c, r, id);
    r
  }

  /** What `Begin` promises, from what the walk and the step after it
      promise. */
  lemma BeginSteps(w: World, c: ChildrenOutcome, r: LoadOutcome, id: EntryId)
    requires id in w.entries && w.entries[id].loaded == Incomplete
    requires Grows(w, c.w) && Grows(c.w, r.w)
    requires forall i :: i in w.entries && w.entries[i].loaded != Incomplete ==> c.w.entries[i] == w.entries[i]
    requires forall i :: i in c.w.entries && i != id ==> r.w.entries[i] == c.w.entries[i]
    requires c.ChildrenDone? ==> AllSettled(c.w.entries, ValuesOf(w.entries[id].children))
    requires c.ChildBlocked? ==> r.Reached? && r.state == Incomplete
    requires c.ChildrenOutOfFuel? ==> r.LoadOutOfFuel?
    requires r.Reached? ==> id in r.w.entries && r.w.entries[id].loaded == r.state
    ensures Grows(w, r.w)
    ensures forall i :: i in w.entries && w.entries[i].loaded != Incomplete ==> r.w.entries[i] == w.entries[i]
    ensures r.Reached? && r.state != Incomplete ==> AllSettled(r.w.entries, ValuesOf(w.entries[id].children))
  {
    GrowsTransitive(w, c.w, r.w);
    if r.Reached? && r.state != Incomplete {
      SettledAfterFinish(c.w.entries, r.w.entries, id, ValuesOf(w.entries[id].children));
    }
  }

  /** `this._loaded = INDETERMINATE`, then the walk over the children. */
  function Visit(w: World, id: EntryId, fuel: nat): (c: ChildrenOutcome)
    requires Wf(w) && id in w.entries && IsModule(w, w.entries[id].handle)
    requires w.entries[id].loaded == Incomplete
    ensures Wf(c.w) && Grows(w, c.w)
    ensures forall i :: i in w.entries && w.entries[i].loaded != Incomplete ==> c.w.entries[i] == w.entries[i]
    ensures c.w.entries[id] == w.entries[id].(loaded := Indeterminate)
    ensures c.ChildrenDone? ==> AllSettled(c.w.entries, ValuesOf(w.entries[id].children))
    ensures c.ChildBlocked? ==> SomeBlocked(c.w.entries, ValuesOf(w.entries[id].children))
    decreases fuel, 2
  {
    ChildrenKnown(w, id);
    var w1 := SetLoad(w, id, Indeterminate);
    var c := LoadChildren(w1, ValuesOf(w.entries[id].children), fuel);
    VisitSteps(w, w1, c, id);
    c
  }

  /** What `Visit` promises, from what marking the entry and the walk
      promise. */
  lemma VisitSteps(w: World, w1: World, c: ChildrenOutcome, id: EntryId)
    requires id in w.entries && w.entries[id].loaded == Incomplete
    requires Grows(w, w1) && w1.entries == w.entries[id := w.entries[id].(loaded := Indeterminate)]
    requires Grows(w1, c.w)
    requires forall i :: i in w1.entries && w1.entries[i].loaded != Incomplete ==> c.w.entries[i] == w1.entries[i]
    ensures Grows(w, c.w)
    ensures forall i :: i in w.entries && w.entries[i].loaded != Incomplete ==> c.w.entries[i] == w.entries[i]
    ensures c.w.entries[id] == w.entries[id].(loaded := Indeterminate)
  {
    GrowsTransitive(w, w1, c.w);
    forall i | i in w.entries && w.entries[i].loaded != Incomplete ensures c.w.entries[i] == w.entries[i] {
      assert c.w.entries[i] == w1.entries[i];
    }
  }

  /** What follows the walk over the children: finish when it got through,
      `this._loaded = INCOMPLETE` when a child stayed incomplete. */
  function AfterChildren(c: ChildrenOutcome, id: EntryId): (r: LoadOutcome)
    requires Wf(c.w) && id in c.w.entries && IsModule(c.w, c.w.entries[id].handle)
    ensures Wf(r.w) && Grows(c.w, r.w)
    ensures forall i :: i in c.w.entries && i != id ==> r.w.entries[i] == c.w.entries[i]
    ensures r.Reached? ==> r.w.entries[id].loaded == r.state
    ensures r.Reached? && r.state == Completed ==> r.w.entries[id].name !in r.w.skipExports
    ensures r.Reached? && c.w.entries[id].mode == ESM && r.state != Incomplete ==>
      IsSealed(r.w, ExportedOf(c.w, c.w.entries[id]))
    ensures c.ChildrenDone? ==> r.Reached? && (c.w.entries[id].mode == ESM ==> r.state == Completed)
    ensures c.ChildBlocked? ==> r.Reached? && r.state == Incomplete
    ensures c.ChildrenOutOfFuel? ==> r.LoadOutOfFuel?
  {
    match c
    case ChildrenDone(w) => Finish(w, id)
    case ChildBlocked(w) => Reached(SetLoad(w, id, Incomplete), Incomplete)
    case ChildrenOutOfFuel(w) => LoadOutOfFuel(w)
  }

  /** Every entry in `ids` has settled: it is `Completed`, or
      `Indeterminate` because it is being loaded further up the stack. */
  predicate AllSettled(m: map<EntryId, EntryRec>, ids: seq<EntryId>) {
    forall k :: 0 <= k < |ids| ==> ids[k] in m && m[ids[k]].loaded != Incomplete
  }

  /** Some entry in `ids` is still `Incomplete`. */
  predicate SomeBlocked(m: map<EntryId, EntryRec>, ids: seq<EntryId>) {
    exists k :: 0 <= k < |ids| && ids[k] in m && m[ids[k]].loaded == Incomplete
  }

  lemma SettledTail(m1: map<EntryId, EntryRec>, m2: map<EntryId, EntryRec>, ids: seq<EntryId>)
    requires ids != [] && ids[0] in m1 && m1[ids[0]].loaded != Incomplete
    requires forall i :: i in m1 && m1[i].loaded != Incomplete ==> i in m2 && m2[i] == m1[i]
    requires AllSettled(m2, ids[1..])
    ensures AllSettled(m2, ids)
  {
    forall k | 1 <= k < |ids| ensures ids[k] in m2 && m2[ids[k]].loaded != Incomplete {
      assert ids[k] == ids[1..][k - 1];
    }
  }

  /** Finishing one entry keeps a settled list settled. */
  lemma SettledAfterFinish(m1: map<EntryId, EntryRec>, m2: map<EntryId, EntryRec>, id: EntryId, ids: seq<EntryId>)
    requires AllSettled(m1, ids) && id in m2 && m2[id].loaded != Incomplete
    requires forall i :: i in m1 && i != id ==> i in m2 && m2[i] == m1[i]
    ensures AllSettled(m2, ids)
  {
  }

  lemma BlockedTail(m: map<EntryId, EntryRec>, ids: seq<EntryId>)
    requires ids != [] && SomeBlocked(m, ids[1..])
    ensures SomeBlocked(m, ids)
  {
    var k :| 0 <= k < |ids[1..]| && ids[1..][k] in m && m[ids[1..][k]].loaded == Incomplete;
    assert ids[k + 1] == ids[1..][k];
  }

  /** Every child of an entry has an entry in a well-formed world. */
  lemma ChildrenKnown(w: World, id: EntryId)
    requires Wf(w) && id in w.entries
    ensures var kids := ValuesOf(w.entries[id].children);
      forall k :: 0 <= k < |kids| ==> kids[k] in w.entries
  {
    assert RefsOk(w, w.entries[id]);
  }

  /** `for (const id in children) if (children[id].loaded() === INCOMPLETE)
      ...`: the walk stops at the first child that stays incomplete. */
  function LoadChildren(w: World, ids: seq<EntryId>, fuel: nat): (r: ChildrenOutcome)
    requires Wf(w) && forall k :: 0 <= k < |ids| ==> ids[k] in w.entries
    ensures Wf(r.w) && Grows(w, r.w)
    ensures forall i :: i in w.entries && w.entries[i].loaded != Incomplete ==> r.w.entries[i] == w.entries[i]
    ensures r.ChildrenDone? ==> AllSettled(r.w.entries, ids)
    ensures r.ChildBlocked? ==> SomeBlocked(r.w.entries, ids)
    decreases fuel, 1, |ids|
  {
    if ids == [] then ChildrenDone(w)
    else
      match Loaded(w, ids[0], fuel)
      case LoadOutOfFuel(w1) => ChildrenOutOfFuel(w1)
      case Reached(w1, s) =>
        if s == Incomplete then ChildBlocked(w1)
        else
          var r := LoadChildren(w1, ids[1..], fuel);
          WalkSteps(w, w1, r, ids);
          r
  }

  /** What `LoadChildren` promises, from what loading the first child and
      walking the rest promise. */
  lemma WalkSteps(w: World, w1: World, r: ChildrenOutcome, ids: seq<EntryId>)
    requires ids != [] && ids[0] in w1.entries && w1.entries[ids[0]].loaded != Incomplete
    requires Grows(w, w1) && Grows(w1, r.w)
    requires forall i :: i in w.entries && w.entries[i].loaded != Incomplete ==> w1.entries[i] == w.entries[i]
    requires forall i :: i in w1.entries && w1.entries[i].loaded != Incomplete ==> r.w.entries[i] == w1.entries[i]
    requires r.ChildrenDone? ==> AllSettled(r.w.entries, ids[1..])
    requires r.ChildBlocked? ==> SomeBlocked(r.w.entries, ids[1..])
    ensures Grows(w, r.w)
    ensures forall i :: i in w.entries && w.entries[i].loaded != Incomplete ==> r.w.entries[i] == w.entries[i]
    ensures r.ChildrenDone? ==> AllSettled(r.w.entries, ids)
    ensures r.ChildBlocked? ==> SomeBlocked(r.w.entries, ids)
  {
    GrowsTransitive(w, w1, r.w);
    if r.ChildBlocked? { BlockedTail(r.w.entries, ids); }
    if r.ChildrenDone? { SettledTail(w1.entries, r.w.entries, ids); }
  }
}

=== FILE: lifecycle_laws.dfy ===
/** Laws of `loaded()`: a settled state is final, an import cycle does not
    hold an ES module back, a child whose module is still executing holds
    its importer back without changing anything, and a sealed ES exports
    container mirrors the namespace and refuses writes. */
module LifecycleLaws {
  import opened Values
  import opened OrderedMaps
  import opened EntryState
  import opened Registry
  import opened Merge
  import opened Lifecycle

  /* ----- loaded() ----- */

  /** Once `loaded()` has settled an entry, asking again returns the same
      state and changes nothing. */
  lemma LoadedIsSticky(w: World, id: EntryId, fuel: nat, fuel': nat)
    requires Wf(w) && id in w.entries && fuel' > 0
    ensures var r := Loaded(w, id, fuel);
      r.Reached? && r.state != Incomplete ==> Loaded(r.w, id, fuel') == Reached(r.w, r.state)
  {
    var r := Loaded(w, id, fuel);
    if r.Reached? && r.state != Incomplete {
      assert r.w.entries[id].loaded == r.state;
    }
  }

  /** `loaded()` does no work, and changes nothing, for an entry that has
      already settled or whose module has not finished executing. */
  lemma LoadedWithoutWork(w: World, id: EntryId, fuel: nat)
    requires Wf(w) && id in w.entries && fuel > 0
    requires w.entries[id].loaded != Incomplete
      || (IsModule(w, w.entries[id].handle) && !ModuleAt(w, w.entries[id].handle).loaded)
    ensures Loaded(w, id, fuel) == Reached(w, w.entries[id].loaded)
  {
    assert RefsOk(w, w.entries[id]);
  }

  /** Children that have all settled (completed, or being loaded further up
      the stack) let the walk through and change nothing. */
  lemma {:induction false} SettledChildrenPass(w: World, ids: seq<EntryId>, fuel: nat)
    requires Wf(w) && fuel > 0
    requires forall k :: 0 <= k < |ids| ==> ids[k] in w.entries && w.entries[ids[k]].loaded != Incomplete
    ensures LoadChildren(w, ids, fuel) == ChildrenDone(w)
    decreases |ids|
  {
    if ids != [] {
      LoadedWithoutWork(w, ids[0], fuel);
      SettledChildrenPass(w, ids[1..], fuel);
    }
  }

  /** An ES module that has executed, and whose children other than itself
      have all settled, completes and its exports container ends sealed —
      also when it imports itself: the cycle reads back as `Indeterminate`
      and does not hold it back. */
  lemma EsmCycleCompletes(w: World, id: EntryId, fuel: nat)
    requires Wf(w) && id in w.entries && fuel >= 2
    requires w.entries[id].loaded == Incomplete && w.entries[id].mode == ESM
    requires IsModule(w, w.entries[id].handle) && ModuleAt(w, w.entries[id].handle).loaded
    requires var kids := ValuesOf(w.entries[id].children);
      forall k :: 0 <= k < |kids| && kids[k] != id ==> kids[k] in w.entries && w.entries[kids[k]].loaded != Incomplete
    ensures var r := Loaded(w, id, fuel);
      r.Reached? && r.state == Completed && IsSealed(r.w, ModuleAt(w, w.entries[id].handle).exports)
  {
    var w1 := SetLoad(w, id, Indeterminate);
    assert Visit(w, id, fuel - 1) == ChildrenDone(w1) by { SettledVisit(w, id, fuel - 1); }
    assert Loaded(w, id, fuel) == AfterChildren(Visit(w, id, fuel - 1), id) by { LoadedThroughChildren(w, id, fuel); }
    assert w1.entries[id].mode == ESM && w1.entries[id].handle == w.entries[id].handle && w1.modules == w.modules;
    assert AfterChildren(ChildrenDone(w1), id) == Finish(w1, id);
  }

  /** Settled children: the walk ends with the entry `Indeterminate` and
      nothing else changed. */
  lemma SettledVisit(w: World, id: EntryId, fuel: nat)
    requires Wf(w) && id in w.entries && fuel >= 1 && IsModule(w, w.entries[id].handle)
    requires w.entries[id].loaded == Incomplete
    requires var kids := ValuesOf(w.entries[id].children);
      forall k :: 0 <= k < |kids| && kids[k] != id ==> kids[k] in w.entries && w.entries[kids[k]].loaded != Incomplete
    ensures Visit(w, id, fuel) == ChildrenDone(SetLoad(w, id, Indeterminate))
  {
    ChildrenKnown(w, id);
    var w1 := SetLoad(w, id, Indeterminate);
    SettledChildrenPass(w1, ValuesOf(w.entries[id].children), fuel);
  }

  /** `loaded()` on an incomplete entry whose module has executed is the
      walk over its children followed by what comes after it. */
  lemma LoadedThroughChildren(w: World, id: EntryId, fuel: nat)
    requires Wf(w) && id in w.entries && fuel >= 1 && IsModule(w, w.entries[id].handle)
    requires w.entries[id].loaded == Incomplete && ModuleAt(w, w.entries[id].handle).loaded
    ensures Loaded(w, id, fuel) == AfterChildren(Visit(w, id, fuel - 1), id)
  {
    assert Loaded(w, id, fuel) == Begin(w, id, fuel - 1);
  }

  /** A first child whose module is still executing holds its importer
      back: `loaded()` reports `Incomplete` and leaves the world exactly as
      it found it. */
  lemma BlockedChildHoldsBack(w: World, id: EntryId, fuel: nat)
    requires Wf(w) && id in w.entries && fuel >= 2
    requires w.entries[id].loaded == Incomplete
    requires IsModule(w, w.entries[id].handle) && ModuleAt(w, w.entries[id].handle).loaded
    requires var kids := ValuesOf(w.entries[id].children);
      && |kids| > 0 && kids[0] in w.entries && w.entries[kids[0]].loaded == Incomplete
      && IsModule(w, w.entries[kids[0]].handle) && !ModuleAt(w, w.entries[kids[0]].handle).loaded
    ensures Loaded(w, id, fuel) == Reached(w, Incomplete)
  {
    var w1 := SetLoad(w, id, Indeterminate);
    var w2 := SetLoad(w1, id, Incomplete);
    assert w2 == w by { SetLoadRestores(w, id, Indeterminate); }
    assert Visit(w, id, fuel - 1) == ChildBlocked(w1) by { BlockedVisit(w, id, fuel - 1); }
    assert AfterChildren(ChildBlocked(w1), id) == Reached(w2, Incomplete) by { BlockedAfter(w1, id); }
    assert Loaded(w, id, fuel) == AfterChildren(Visit(w, id, fuel - 1), id) by { LoadedThroughChildren(w, id, fuel); }
  }

  /** A blocked walk leaves the entry `Incomplete`. */
  lemma BlockedAfter(w: World, id: EntryId)
    requires Wf(w) && id in w.entries && IsModule(w, w.entries[id].handle)
    ensures AfterChildren(ChildBlocked(w), id) == Reached(SetLoad(w, id, Incomplete), Incomplete)
  {
  }

  /** Setting the load state back undoes setting it. */
  lemma SetLoadRestores(w: World, id: EntryId, s: Load)
    requires Wf(w) && id in w.entries
    ensures SetLoad(SetLoad(w, id, s), id, w.entries[id].loaded) == w
  {
    var e := w.entries[id];
    assert e.(loaded := s).(loaded := e.loaded) == e;
    assert w.entries[id := e] == w.entries;
  }

  /** A blocked first child: the walk stops at once, with the entry
      `Indeterminate` and nothing else changed. */
  lemma BlockedVisit(w: World, id: EntryId, fuel: nat)
    requires Wf(w) && id in w.entries && fuel >= 1 && IsModule(w, w.entries[id].handle)
    requires w.entries[id].loaded == Incomplete && ModuleAt(w, w.entries[id].handle).loaded
    requires var kids := ValuesOf(w.entries[id].children);
      && |kids| > 0 && kids[0] in w.entries && w.entries[kids[0]].loaded == Incomplete
      && IsModule(w, w.entries[kids[0]].handle) && !ModuleAt(w, w.entries[kids[0]].handle).loaded
    ensures Visit(w, id, fuel) == ChildBlocked(SetLoad(w, id, Indeterminate))
  {
    ChildrenKnown(w, id);
    var kids := ValuesOf(w.entries[id].children);
    var w1 := SetLoad(w, id, Indeterminate);
    LoadedWithoutWork(w1, kids[0], fuel);
    assert LoadChildren(w1, kids, fuel) == ChildBlocked(w1);
  }

  /* ----- the CommonJS branch ----- */

  /** When a CommonJS entry finishes loading it stands for the module of
      the entry `Entry.get` found for its old module, and is registered
      under that module if it differs from the old one and under that
      module's exports container if the container changed; when neither
      changed the registry is the one `Entry.get` left. */
  lemma CjsFinishRegisters(w: World, id: EntryId)
    requires Wf(w) && id in w.entries && IsModule(w, w.entries[id].handle)
    requires w.entries[id].mode == CJS
    ensures var r := Finish(w, id);
      var oldMod := w.entries[id].handle;
      var oldExported := ModuleAt(w, oldMod).exports;
      var (w1, found) := GetEntry(w, oldMod);
      && found.Some? && found.value in w1.entries
      && r.w.entries[id].handle == w1.entries[found.value].handle
      && IsModule(r.w, r.w.entries[id].handle)
      && var newMod := r.w.entries[id].handle;
        var newExported := ModuleAt(r.w, newMod).exports;
        && (StrictEquals(oldMod, newMod) && StrictEquals(oldExported, newExported) ==> r.w.cache == w1.cache)
        && (!StrictEquals(oldExported, newExported) && ObjectLike(newExported) ==> Lookup(r.w, newExported) == Some(id))
        && (!StrictEquals(oldMod, newMod) && ObjectLike(newMod)
              && (StrictEquals(oldExported, newExported) || oldExported != newMod || newExported == newMod) ==>
              Lookup(r.w, newMod) == Some(id))
  {
    assert Finish(w, id) == FinishCjs(w, id);
  }

  /* ----- the sealed ES exports container ----- */

  /** The names `SealContainer` installs accessors for, and the world just
      before it does. */
  lemma SealSteps(w: World, id: EntryId, r: Ref)
    requires id in w.entries && r in w.objects && r !in w.sealed && r != w.entries[id].ns
    ensures var e := w.entries[id];
      var w1 := if e.options.interop && "__esModule" !in PropsOf(w, Obj(e.ns)).items
        then DefineProp(w, r, "__esModule", PseudoSlot(w.objects[r])) else w;
      var names := EnumerableKeys(PropsOf(w, Obj(e.ns)));
      && r in w1.objects && r !in w1.sealed
      && w1 == w.(objects := w1.objects)
      && (forall x :: x in w.objects && x != r ==> w1.objects[x] == w.objects[x])
      && SealContainer(w, id, r) == DefineGetters(w1, r, id, names).(sealed := w.sealed + {r})
  {
    var e := w.entries[id];
    var w1 := if e.options.interop && "__esModule" !in PropsOf(w, Obj(e.ns)).items
      then DefineProp(w, r, "__esModule", PseudoSlot(w.objects[r])) else w;
    assert PropsOf(w1, Obj(e.ns)) == PropsOf(w, Obj(e.ns));
  }

  /** The seal installs an accessor onto the namespace for each of its
      enumerable names and leaves the entries alone. */
  lemma SealedContainerInstalls(w: World, id: EntryId, r: Ref)
    requires id in w.entries && r in w.objects && r !in w.sealed && r != w.entries[id].ns
    ensures var w' := SealContainer(w, id, r);
      && w'.entries == w.entries && r in w'.sealed && r in w'.objects
      && forall k :: k in EnumerableKeys(PropsOf(w, Obj(w.entries[id].ns))) ==>
           k in w'.objects[r].items && w'.objects[r].items[k] == EntryNsProp(id, k)
  {
    SealSteps(w, id, r);
  }

  /** After the seal, every enumerable name of the namespace reads on the
      exports container as it reads on the namespace. */
  lemma SealedContainerMirrors(w: World, id: EntryId, r: Ref, name: string)
    requires id in w.entries && r in w.objects && r !in w.sealed && r != w.entries[id].ns
    requires name in EnumerableKeys(PropsOf(w, Obj(w.entries[id].ns)))
    ensures var w' := SealContainer(w, id, r);
      ReadProp(w', Obj(r), name) == ReadPropN(w', Obj(w.entries[id].ns), name, MaxHops - 1)
  {
    var w' := SealContainer(w, id, r);
    assert name in w'.objects[r].items && w'.objects[r].items[name] == EntryNsProp(id, name) && w'.entries == w.entries by {
      SealedContainerInstalls(w, id, r);
    }
    ReadThroughAccessor(w', r, id, name, MaxHops - 1);
  }

  /** Reading a property that is an accessor onto an entry's namespace. */
  lemma ReadThroughAccessor(w: World, r: Ref, id: EntryId, name: string, hops: nat)
    requires r in w.objects && name in w.objects[r].items && w.objects[r].items[name] == EntryNsProp(id, name)
    requires id in w.entries
    ensures ReadPropN(w, Obj(r), name, hops + 1) == ReadPropN(w, Obj(w.entries[id].ns), name, hops)
  {
  }

  /** A write to a sealed object's missing key or to an accessor onto a
      namespace is refused. */
  lemma WriteRefused(w: World, r: Ref, name: string, v: Value, hops: nat)
    requires r in w.objects && r in w.sealed
    requires name in w.objects[r].items ==> w.objects[r].items[name].EntryNsProp?
    ensures WritePropN(w, Obj(r), name, v, hops) == w
  {
  }

  /** Writes to the namespace's names, and to names the container does not
      have, leave the sealed container and everything else unchanged. */
  lemma SealedContainerRefusesWrites(w: World, id: EntryId, r: Ref, name: string, v: Value)
    requires id in w.entries && r in w.objects && r !in w.sealed && r != w.entries[id].ns
    requires name in EnumerableKeys(PropsOf(w, Obj(w.entries[id].ns)))
      || name !in SealContainer(w, id, r).objects[r].items
    ensures var w' := SealContainer(w, id, r);
      WriteProp(w', Obj(r), name, v) == w'
  {
    var w' := SealContainer(w, id, r);
    assert r in w'.sealed && r in w'.objects by { SealedContainerInstalls(w, id, r); }
    if name in EnumerableKeys(PropsOf(w, Obj(w.entries[id].ns))) {
      assert name in w'.objects[r].items && w'.objects[r].items[name] == EntryNsProp(id, name) by {
        SealedContainerInstalls(w, id, r);
      }
    }
    WriteRefused(w', r, name, v, MaxHops);
  }

  /** With interop on and no `__esModule` on either object, the seal adds a
      non-enumerable `__esModule` of `true`; with interop off a container's
      `__esModule` is only ever touched as one of the namespace's names. */
  lemma SealedContainerFlag(w: World, id: EntryId, r: Ref)
    requires id in w.entries && r in w.objects && r !in w.sealed && r != w.entries[id].ns
    ensures var w' := SealContainer(w, id, r);
      var e := w.entries[id];
      && (e.options.interop && "__esModule" !in PropsOf(w, Obj(e.ns)).items && "__esModule" !in w.objects[r].items ==>
            "__esModule" in w'.objects[r].items && w'.objects[r].items["__esModule"] == Hidden(Bool(true)))
      && (!e.options.interop && "__esModule" !in EnumerableKeys(PropsOf(w, Obj(e.ns))) ==>
            ("__esModule" in w'.objects[r].items <==> "__esModule" in w.objects[r].items))
  {
    var e := w.entries[id];
    if e.options.interop && "__esModule" !in PropsOf(w, Obj(e.ns)).items && "__esModule" !in w.objects[r].items {
      SealFlagAdded(w, id, r);
    }
    if !e.options.interop && "__esModule" !in EnumerableKeys(PropsOf(w, Obj(e.ns))) {
      SealFlagUntouched(w, id, r);
    }
  }

  lemma SealFlagAdded(w: World, id: EntryId, r: Ref)
    requires id in w.entries && r in w.objects && r !in w.sealed && r != w.entries[id].ns
    requires w.entries[id].options.interop && "__esModule" !in PropsOf(w, Obj(w.entries[id].ns)).items
    requires "__esModule" !in w.objects[r].items
    ensures var w' := SealContainer(w, id, r);
      "__esModule" in w'.objects[r].items && w'.objects[r].items["__esModule"] == Hidden(Bool(true))
  {
    SealSteps(w, id, r);
    assert "__esModule" !in EnumerableKeys(PropsOf(w, Obj(w.entries[id].ns)));
  }

  lemma SealFlagUntouched(w: World, id: EntryId, r: Ref)
    requires id in w.entries && r in w.objects && r !in w.sealed && r != w.entries[id].ns
    requires !w.entries[id].options.interop && "__esModule" !in EnumerableKeys(PropsOf(w, Obj(w.entries[id].ns)))
    ensures var w' := SealContainer(w, id, r);
      "__esModule" in w'.objects[r].items <==> "__esModule" in w.objects[r].items
  {
    SealSteps(w, id, r);
  }

  /** The seal changes only the container: its properties other than the
      namespace's names and `__esModule` stay as they were, and so does
      every other object. */
  lemma SealedContainerKeeps(w: World, id: EntryId, r: Ref)
    requires id in w.entries && r in w.objects && r !in w.sealed && r != w.entries[id].ns
    ensures var w' := SealContainer(w, id, r);
      var names := EnumerableKeys(PropsOf(w, Obj(w.entries[id].ns)));
      && w'.sealed == w.sealed + {r}
      && (forall x :: x in w.objects && x != r ==> w'.objects[x] == w.objects[x])
      && (forall k :: k !in names && k != "__esModule" ==>
            (k in w'.objects[r].items <==> k in w.objects[r].items)
            && (k in w.objects[r].items ==> w'.objects[r].items[k] == w.objects[r].items[k]))
  {
    SealSteps(w, id, r);
  }
}

=== FILE: merge.dfy ===
/** `entry.merge(otherEntry)` and `mergeProperty`: folding the entry that
    the registry now finds for a module into the entry that was loading it. */
module Merge {
  import opened Values
  import opened OrderedMaps
  import opened EntryState
  import opened Accessors

  /** The identities of the setters in a list. */
  function IdsOf(ss: seq<Setter>): set<nat> {
    set i | 0 <= i < |ss| :: ss[i].id
  }

  lemma IdsOfCons(s: Setter, ss: seq<Setter>)
    ensures IdsOf([s] + ss) == {s.id} + IdsOf(ss)
  {
    var t := [s] + ss;
    assert forall i :: 0 <= i < |ss| ==> t[i + 1] == ss[i];
    forall x | x in IdsOf(t) ensures x in {s.id} + IdsOf(ss) {
      var i :| 0 <= i < |t| && t[i].id == x;
      if i > 0 { assert ss[i - 1].id == x; }
    }
    assert t[0].id == s.id;
    forall x | x in IdsOf(ss) ensures x in IdsOf(t) {
      var i :| 0 <= i < |ss| && ss[i].id == x;
      assert t[i + 1].id == x;
    }
  }

  lemma IdsOfSnoc(ss: seq<Setter>, s: Setter)
    ensures IdsOf(ss + [s]) == IdsOf(ss) + {s.id}
  {
    var t := ss + [s];
    assert forall i :: 0 <= i < |ss| ==> t[i] == ss[i];
    assert t[|ss|] == s;
    forall x | x in IdsOf(t) ensures x in IdsOf(ss) + {s.id} {
      var i :| 0 <= i < |t| && t[i].id == x;
      if i < |ss| { assert ss[i].id == x; }
    }
    forall x | x in IdsOf(ss) ensures x in IdsOf(t) {
      var i :| 0 <= i < |ss| && ss[i].id == x;
      assert t[i].id == x;
    }
  }

  /** The list under `k`, empty when there is none. */
  function ListOr(m: OrdMap<seq<Setter>>, k: string): seq<Setter> {
    if k in m.items then m.items[k] else []
  }

  /** No setter occurs twice in a list. */
  ghost predicate UniqueIds(ss: seq<Setter>) {
    forall i, j :: 0 <= i < j < |ss| ==> ss[i].id != ss[j].id
  }

  /** The inner loop of the "setters" case: each setter of `mine` that is
      not yet in `acc` (by identity) is pushed onto it. */
  function AppendMissing(acc: seq<Setter>, mine: seq<Setter>): (r: seq<Setter>)
    ensures acc <= r
    decreases |mine|
  {
    if mine == [] then acc
    else if mine[0].id in IdsOf(acc) then AppendMissing(acc, mine[1..])
    else AppendMissing(acc + [mine[0]], mine[1..])
  }

  /** Pushing the missing setters loses no identity and invents none. */
  lemma {:induction false} AppendMissingIds(acc: seq<Setter>, mine: seq<Setter>)
    ensures IdsOf(AppendMissing(acc, mine)) == IdsOf(acc) + IdsOf(mine)
    decreases |mine|
  {
    if mine != [] {
      assert mine == [mine[0]] + mine[1..];
      IdsOfCons(mine[0], mine[1..]);
      if mine[0].id in IdsOf(acc) {
        AppendMissingIds(acc, mine[1..]);
      } else {
        IdsOfSnoc(acc, mine[0]);
        AppendMissingIds(acc + [mine[0]], mine[1..]);
      }
    }
  }

  /** What follows `acc` comes from `mine` and was not in `acc`. */
  lemma {:induction false} AppendMissingTail(acc: seq<Setter>, mine: seq<Setter>)
    ensures var r := AppendMissing(acc, mine);
      forall i :: |acc| <= i < |r| ==> r[i] in mine && r[i].id !in IdsOf(acc)
    decreases |mine|
  {
    if mine != [] {
      assert forall x :: x in mine[1..] ==> x in mine;
      if mine[0].id in IdsOf(acc) {
        assert AppendMissing(acc, mine) == AppendMissing(acc, mine[1..]);
        AppendMissingTail(acc, mine[1..]);
      } else {
        var acc' := acc + [mine[0]];
        assert AppendMissing(acc, mine) == AppendMissing(acc', mine[1..]);
        AppendMissingTail(acc', mine[1..]);
        IdsOfSnoc(acc, mine[0]);
        var r := AppendMissing(acc', mine[1..]);
        assert acc' <= r;
        assert r[|acc|] == acc'[|acc|] == mine[0];
      }
    }
  }

  /** Pushing only missing setters adds no repeats. */
  lemma {:induction false} AppendMissingUnique(acc: seq<Setter>, mine: seq<Setter>)
    requires UniqueIds(acc)
    ensures UniqueIds(AppendMissing(acc, mine))
    decreases |mine|
  {
    if mine != [] {
      if mine[0].id in IdsOf(acc) {
        AppendMissingUnique(acc, mine[1..]);
      } else {
        var acc' := acc + [mine[0]];
        forall i, j | 0 <= i < j < |acc'| ensures acc'[i].id != acc'[j].id {
          if j == |acc| {
            assert acc'[i] == acc[i];
          }
        }
        AppendMissingUnique(acc', mine[1..]);
      }
    }
  }

  /** The "setters" case of `mergeProperty` exactly as written: for each
      name of the other entry, this entry's list is read, the other entry's
      list takes its place, and the read list is walked with `for ... of`.
      When this entry has no list for the name the walk is over `undefined`,
      which throws a TypeError: the result is `None`. */
  function MergeSettersAsWritten(acc: OrdMap<seq<Setter>>, theirs: OrdMap<seq<Setter>>, names: seq<string>): Option<OrdMap<seq<Setter>>>
    requires forall k :: k in names ==> k in theirs.items
    decreases |names|
  {
    if names == [] then Some(acc)
    else if names[0] !in acc.items then None
    else
      var merged := AppendMissing(theirs.items[names[0]], acc.items[names[0]]);
      MergeSettersAsWritten(Put(acc, names[0], merged), theirs, names[1..])
  }

  /** The other entry's setter lists come first: each list is the other
      entry's, followed by those of this entry's setters it lacks. */
  function MergeSettersFrom(acc: OrdMap<seq<Setter>>, theirs: OrdMap<seq<Setter>>, names: seq<string>): (r: OrdMap<seq<Setter>>)
    requires forall k :: k in names ==> k in theirs.items
    requires Distinct(names)
    ensures r.items.Keys == acc.items.Keys + (set k | k in names)
    ensures forall k :: k in names ==> r.items[k] == AppendMissing(theirs.items[k], ListOr(acc, k))
    ensures forall k :: k in acc.items && k !in names ==> r.items[k] == acc.items[k]
    ensures acc.order <= r.order
    decreases |names|
  {
    if names == [] then acc
    else
      var k0 := names[0];
      var acc1 := Put(acc, k0, AppendMissing(theirs.items[k0], ListOr(acc, k0)));
      MergeSettersStep(acc, theirs, names);
      var r := MergeSettersFrom(acc1, theirs, names[1..]);
      assert r.items[k0] == acc1.items[k0];
      r
  }

  lemma MergeSettersStep(acc: OrdMap<seq<Setter>>, theirs: OrdMap<seq<Setter>>, names: seq<string>)
    requires names != [] && Distinct(names)
    requires forall k :: k in names ==> k in theirs.items
    ensures Distinct(names[1..]) && names[0] !in names[1..]
    ensures forall k :: k in names <==> k == names[0] || k in names[1..]
    ensures var acc1 := Put(acc, names[0], AppendMissing(theirs.items[names[0]], ListOr(acc, names[0])));
      forall k :: k in names[1..] ==> ListOr(acc1, k) == ListOr(acc, k)
    ensures (set k | k in names) == {names[0]} + (set k | k in names[1..])
  {
    assert forall i :: 1 <= i < |names| ==> names[1..][i - 1] == names[i];
  }

  /** The "setters" case with a missing list read as empty. */
  function MergeSetters(mine: OrdMap<seq<Setter>>, theirs: OrdMap<seq<Setter>>): (r: OrdMap<seq<Setter>>)
    ensures r.items.Keys == mine.items.Keys + theirs.items.Keys
    ensures forall k :: k in theirs.items ==> r.items[k] == AppendMissing(theirs.items[k], ListOr(mine, k))
    ensures forall k :: k in mine.items && k !in theirs.items ==> r.items[k] == mine.items[k]
    ensures mine.order <= r.order
  {
    MergeSettersFrom(mine, theirs, theirs.order)
  }

  /** The other entry's getters as `[name, getter]` pairs, in order. */
  function GetterPairs(g: OrdMap<Getter>): (ps: seq<(string, GetterBody)>)
    ensures NamesOf(ps) == g.items.Keys
    ensures forall k :: k in g.items ==> LastBody(ps, k) == g.items[k].body
  {
    PairsFrom(g.order, g.items)
  }

  function PairsFrom(ks: seq<string>, items: map<string, Getter>): (ps: seq<(string, GetterBody)>)
    requires forall k :: k in ks ==> k in items
    ensures NamesOf(ps) == set k | k in ks
    ensures forall k :: k in ks ==> LastBody(ps, k) == items[k].body
    decreases |ks|
  {
    if ks == [] then []
    else
      var rest := PairsFrom(ks[1..], items);
      assert forall k :: k in ks <==> k == ks[0] || k in ks[1..];
      [(ks[0], items[ks[0]].body)] + rest
  }

  /** `loaded` of the merge: the larger of the two. */
  function MaxLoad(a: Load, b: Load): (r: Load)
    ensures Rank(r) == if Rank(a) < Rank(b) then Rank(b) else Rank(a)
    ensures r == a || r == b
  {
    if Rank(b) > Rank(a) then b else a
  }

  /** The record `mergeProperty` leaves after visiting every key of the other
      entry: `_loaded` rises to the larger state, `children` are assigned
      over, every other getter is re-registered under this entry, setter
      lists are merged, and every other field takes the other entry's value
      when that is not null or undefined. */
  function MergeRec(e: EntryRec, self: EntryId, other: EntryRec): (r: EntryRec)
    ensures Rank(r.loaded) >= Rank(e.loaded) && Rank(r.loaded) >= Rank(other.loaded)
    ensures r.loaded == e.loaded || r.loaded == other.loaded
    ensures r.children.items == e.children.items + other.children.items
    ensures r.getters.items.Keys == e.getters.items.Keys + other.getters.items.Keys
    ensures forall k :: k in other.getters.items ==> r.getters.items[k] == Getter(self, other.getters.items[k].body)
    ensures forall k :: k in e.getters.items && k !in other.getters.items ==> r.getters.items[k] == e.getters.items[k]
    ensures r.setters == MergeSetters(e.setters, other.setters)
    ensures r.exports == if other.exports.Null? || other.exports.Undefined? then e.exports else other.exports
    ensures r.ns == other.ns && r.handle == other.handle && r.name == other.name
    ensures r == other.(loaded := r.loaded, children := r.children, getters := r.getters,
      setters := r.setters, exports := r.exports)
  {
    var g := AddGetters(e, self, GetterPairs(other.getters)).getters;
    other.(
      loaded := MaxLoad(e.loaded, other.loaded),
      children := Assign(e.children, other.children),
      getters := g,
      setters := MergeSetters(e.setters, other.setters),
      exports := if other.exports.Null? || other.exports.Undefined? then e.exports else other.exports)
  }

  /** `entry.merge(otherEntry)` on the store: nothing happens when the two
      are the same entry. The merged setter lists are this entry's own; the
      other entry keeps the lists it had. */
  function MergeEntries(w: World, id: EntryId, otherId: EntryId): (w': World)
    requires id in w.entries && otherId in w.entries
    ensures otherId == id ==> w' == w
    ensures otherId != id ==> w' == w.(entries := w.entries[id := MergeRec(w.entries[id], id, w.entries[otherId])])
  {
    if otherId == id then w
    else w.(entries := w.entries[id := MergeRec(w.entries[id], id, w.entries[otherId])])
  }

  /** What the merged list under `k` keeps: every setter either side had,
      the other entry's list as a prefix, and only this entry's setters after
      it, without new repeats. */
  ghost predicate KeptSetters(mine: OrdMap<seq<Setter>>, theirs: OrdMap<seq<Setter>>, k: string) {
    var r := MergeSetters(mine, theirs).items;
    && k in r
    && IdsOf(r[k]) == IdsOf(ListOr(mine, k)) + IdsOf(ListOr(theirs, k))
    && ListOr(theirs, k) <= r[k]
    && (UniqueIds(ListOr(theirs, k)) && UniqueIds(ListOr(mine, k)) ==> UniqueIds(r[k]))
    && (forall i :: |ListOr(theirs, k)| <= i < |r[k]| ==> r[k][i] in ListOr(mine, k))
  }
}

=== FILE: merge_laws.dfy ===
/** Laws of `merge`: nothing a side had is lost, the code as written and
    the corrected setter merge agree whenever the written one does not
    throw, and merging keeps the store well formed. */
module MergeLaws {
  import opened Values
  import opened OrderedMaps
  import opened EntryState
  import opened Merge

  /** Whenever this entry has a list for every name the other entry has,
      the code as written and the corrected merge agree. */
  lemma {:induction false} MergeSettersAgree(acc: OrdMap<seq<Setter>>, theirs: OrdMap<seq<Setter>>, names: seq<string>)
    requires forall k :: k in names ==> k in theirs.items && k in acc.items
    requires Distinct(names)
    ensures MergeSettersAsWritten(acc, theirs, names) == Some(MergeSettersFrom(acc, theirs, names))
    decreases |names|
  {
    if names != [] {
      var k0 := names[0];
      assert k0 !in names[1..] && Distinct(names[1..]) by {
        assert forall i :: 1 <= i < |names| ==> names[1..][i - 1] == names[i];
      }
      var merged := AppendMissing(theirs.items[k0], acc.items[k0]);
      assert ListOr(acc, k0) == acc.items[k0];
      MergeSettersAgree(Put(acc, k0, merged), theirs, names[1..]);
    }
  }

  /** The failing input: a fresh entry (only the "*" list) merged with one
      that has setters registered for "x". The code as written throws; the
      corrected merge keeps the setter. */
  lemma MergeSettersMissingList(s: Setter)
    ensures var mine := Put(Empty(), "*", []);
      var theirs := Put(Put(Empty(), "*", []), "x", [s]);
      && MergeSettersAsWritten(mine, theirs, theirs.order).None?
      && MergeSetters(mine, theirs).items["x"] == [s]
  {
    var mine: OrdMap<seq<Setter>> := Put(Empty(), "*", []);
    var t1: OrdMap<seq<Setter>> := Put(Empty(), "*", []);
    var theirs := Put(t1, "x", [s]);
    assert theirs.order == ["*", "x"];
    var afterStar := Put(mine, "*", AppendMissing([], []));
    assert "x" !in afterStar.items;
    assert MergeSettersAsWritten(mine, theirs, ["*", "x"]) == MergeSettersAsWritten(afterStar, theirs, ["x"]);
  }

  /** No setter is lost: every list of the merged entry holds every setter
      either side had for that name, the other entry's list leads it, and
      what follows comes from this entry's list without repeats. */
  lemma MergeKeepsSetters(mine: OrdMap<seq<Setter>>, theirs: OrdMap<seq<Setter>>, k: string)
    requires k in mine.items || k in theirs.items
    ensures KeptSetters(mine, theirs, k)
  {
    if k in theirs.items {
      TheirsKept(mine, theirs, k);
    } else {
      MineOnlyKept(mine, theirs, k);
    }
  }

  lemma TheirsKept(mine: OrdMap<seq<Setter>>, theirs: OrdMap<seq<Setter>>, k: string)
    requires k in theirs.items
    ensures KeptSetters(mine, theirs, k)
  {
    var t := theirs.items[k];
    var mm := ListOr(mine, k);
    assert MergeSetters(mine, theirs).items[k] == AppendMissing(t, mm) && ListOr(theirs, k) == t;
    AppendMissingKeeps(t, mm);
  }

  /** The inner loop on its own: `acc` leads the result, which holds the
      identities of both lists, adds no repeats, and takes the rest from
      `mine`. */
  lemma AppendMissingKeeps(acc: seq<Setter>, mine: seq<Setter>)
    ensures var m := AppendMissing(acc, mine);
      && IdsOf(m) == IdsOf(mine) + IdsOf(acc)
      && acc <= m
      && (UniqueIds(acc) && UniqueIds(mine) ==> UniqueIds(m))
      && (forall i :: |acc| <= i < |m| ==> m[i] in mine)
  {
    AppendMissingIds(acc, mine);
    AppendMissingTail(acc, mine);
    if UniqueIds(acc) {
      AppendMissingUnique(acc, mine);
    }
  }

  lemma MineOnlyKept(mine: OrdMap<seq<Setter>>, theirs: OrdMap<seq<Setter>>, k: string)
    requires k in mine.items && k !in theirs.items
    ensures KeptSetters(mine, theirs, k)
  {
    var m := mine.items[k];
    assert MergeSetters(mine, theirs).items[k] == m && ListOr(theirs, k) == [] && ListOr(mine, k) == m;
    KeptAlone(m);
  }

  /** A list merged with nothing is kept as it is. */
  lemma KeptAlone(m: seq<Setter>)
    ensures IdsOf(m) == IdsOf(m) + IdsOf([])
    ensures forall i :: 0 <= i < |m| ==> m[i] in m
  {
    assert IdsOf([]) == {};
  }

  /** A merged record's references resolve when both inputs' do and `self`
      is an entry. */
  lemma MergeRecRefsOk(w: World, e: EntryRec, self: EntryId, other: EntryRec)
    requires RefsOk(w, e) && RefsOk(w, other) && self in w.entries
    ensures RefsOk(w, MergeRec(e, self, other))
  {
    var r := MergeRec(e, self, other);
    forall k | k in r.getters.items ensures GetterRefsOk(w, r.getters.items[k]) {
      if k in other.getters.items {
        assert GetterRefsOk(w, other.getters.items[k]);
      } else {
        assert GetterRefsOk(w, e.getters.items[k]);
      }
    }
    forall k | k in r.setters.items ensures SettersRefsOk(w, r.setters.items[k]) {
      MergedSetterParents(w, e.setters, other.setters, k);
    }
  }

  lemma ParentOk(w: World, ss: seq<Setter>, s: Setter)
    requires SettersRefsOk(w, ss) && s in ss
    ensures s.parent in w.entries
  {
    var j :| 0 <= j < |ss| && ss[j] == s;
  }

  lemma MergedSetterParents(w: World, mine: OrdMap<seq<Setter>>, theirs: OrdMap<seq<Setter>>, k: string)
    requires forall x :: x in mine.items ==> SettersRefsOk(w, mine.items[x])
    requires forall x :: x in theirs.items ==> SettersRefsOk(w, theirs.items[x])
    requires k in MergeSetters(mine, theirs).items
    ensures SettersRefsOk(w, MergeSetters(mine, theirs).items[k])
  {
    var m := MergeSetters(mine, theirs).items[k];
    if k in theirs.items {
      TheirsKept(mine, theirs, k);
      var t := theirs.items[k];
      assert t <= m;
      forall i | 0 <= i < |m| ensures m[i].parent in w.entries {
        if i < |t| {
          assert m[i] == t[i];
          ParentOk(w, t, m[i]);
        } else {
          ParentOk(w, mine.items[k], m[i]);
        }
      }
    } else {
      MineOnlyKept(mine, theirs, k);
    }
  }

  lemma MergeEntriesWf(w: World, id: EntryId, otherId: EntryId)
    requires Wf(w) && id in w.entries && otherId in w.entries
    ensures Wf(MergeEntries(w, id, otherId))
  {
    if otherId != id {
      assert RefsOk(w, w.entries[id]) && RefsOk(w, w.entries[otherId]);
      MergeRecRefsOk(w, w.entries[id], id, w.entries[otherId]);
      WfPutEntry(w, id, MergeRec(w.entries[id], id, w.entries[otherId]));
    }
  }
}

=== FILE: namespace.dfy ===
/** The namespace views importers receive (`toNamespace` and
    `createNamespace`): a sealed object whose keys are the source's own
    enumerable keys in sorted order, whose reads go through to the source at
    read time, whose `@@toStringTag` is "Module", and which ignores every
    assignment (module namespace exotic objects, section 9.4.6 of ECMA-262;
    the tag, section 26.3.1). */
module Namespaces {
  import opened Values
  import opened OrderedMaps
  import opened EntryState
  import opened StringOrder

  /** A property key a view is asked about: a string name or the well-known
      symbol `Symbol.toStringTag`. */
  datatype PropKey = Name(name: string) | ToStringTag

  /** A property descriptor as the view's `getOwnPropertyDescriptor` trap
      reports it. */
  datatype Descriptor = Descriptor(configurable: bool, enumerable: bool, writable: bool, value: Value)

  /** `keys(source)`: an entry's namespace reports the own enumerable keys of
      its raw namespace object (the default-wrapping proxy has no `ownKeys`
      trap); the literal `{ default: container }` has the one key. */
  function SourceKeys(w: World, src: ViewSource): (ks: seq<string>)
    ensures Distinct(ks)
  {
    match src
    case LiveNamespace(ns, _) =>
      var p := PropsOf(w, Obj(ns));
      FilterEnumerable(p.order, p.items)
    case DefaultOnly(_) => ["default"]
  }

  /** `Reflect.has(source, name)`: the raw namespace object has a null
      prototype, so only its own properties count; the object literal also
      inherits the names of `Object.prototype`. */
  predicate SourceHas(w: World, src: ViewSource, name: string) {
    match src
    case LiveNamespace(ns, _) => name in PropsOf(w, Obj(ns)).items
    case DefaultOnly(_) => name == "default" || name in ObjectProtoNames
  }

  /** `toNamespace(entry, source)`: the view's keys are the source's keys
      sorted by code units, fixed when the view is made. */
  function ToNamespace(w: World, owner: EntryId, kind: ViewKind, src: ViewSource): (v: Value)
    ensures v.NsView? && v.owner == owner && v.kind == kind && v.source == src
    ensures Sorted(v.keys)
    ensures forall k :: k in v.keys <==> k in SourceKeys(w, src)
  {
    SortKeepsMembers(SourceKeys(w, src));
    NsView(owner, kind, Sort(SourceKeys(w, src)), src)
  }

  /** `entry.esmNamespace`: a view over `entry.namespace`. */
  function EsmNamespaceOf(w: World, id: EntryId): (v: Value)
    requires id in w.entries
    ensures v.NsView? && v.source == NamespaceSource(w.entries[id])
  {
    ToNamespace(w, id, EsmView, NamespaceSource(w.entries[id]))
  }

  /** `entry.cjsNamespace`: a view over `{ default: module.exports }`. */
  function CjsNamespaceOf(w: World, id: EntryId): (v: Value)
    requires id in w.entries && IsModule(w, w.entries[id].handle)
    ensures v.NsView? && v.keys == ["default"]
    ensures v.source == DefaultOnly(ModuleAt(w, w.entries[id].handle).exports)
  {
    var v := ToNamespace(w, id, CjsView, DefaultOnly(ModuleAt(w, w.entries[id].handle).exports));
    assert forall k :: k in v.keys <==> k == "default";
    SingletonSorted(v.keys, "default");
    v
  }

  /** A sequence with no other member than `x` that came from sorting `[x]`
      is `[x]`. */
  lemma SingletonSorted(s: seq<string>, x: string)
    requires s == Sort([x])
    ensures s == [x]
  {
    SortedUnique(s, [x]);
  }

  /** The view's `get` trap: the tag reads "Module", every other key reads
      the source now. */
  function NsGet(w: World, v: Value, key: PropKey): (r: Value)
    requires v.NsView?
    ensures key == ToStringTag ==> r == Str("Module")
    ensures key.Name? ==> r == ReadSource(w, v.source, key.name, MaxHops)
    ensures key.Name? && v.source.LiveNamespace? && (v.source.proxiedBy.None? || key.name != "default") ==>
      r == ReadProp(w, Obj(v.source.ns), key.name)
    ensures key.Name? && v.source.LiveNamespace? && v.source.proxiedBy.Some? && key.name == "default" ==>
      r == (if ObjectLike(ReadProp(w, Obj(v.source.ns), "default")) then ExportsProxy(v.source.proxiedBy.value)
            else ReadProp(w, Obj(v.source.ns), "default"))
    ensures key.Name? && v.source.DefaultOnly? ==>
      (key.name == "default" ==> r == v.source.container) &&
      (key.name != "default" && key.name !in ObjectProtoNames ==> r == Undefined)
  {
    match key
    case ToStringTag => Str("Module")
    case Name(n) => ReadSource(w, v.source, n, MaxHops)
  }

  /** `Reflect.has` on the sealed object behind the view: its keys and the
      tag (it has a null prototype). */
  predicate NsHas(v: Value, key: PropKey)
    requires v.NsView?
  {
    key == ToStringTag || key.name in v.keys
  }

  /** The view's `getOwnPropertyDescriptor` trap. */
  function NsOwnProperty(w: World, v: Value, key: PropKey): (d: Option<Descriptor>)
    requires v.NsView?
    ensures d.Some? <==> NsHas(v, key)
    ensures d.Some? ==> !d.value.configurable && d.value.value == NsGet(w, v, key)
    ensures d.Some? ==> (d.value.enumerable <==> key.Name?) && (d.value.writable <==> key.Name?)
  {
    if !NsHas(v, key) then None
    else match key
      case ToStringTag => Some(Descriptor(false, false, false, Str("Module")))
      case Name(n) => Some(Descriptor(false, true, true, ReadSource(w, v.source, n, MaxHops)))
  }

  /** The view's `set` trap: it reports success, changes nothing, and when
      the owner's package asks for warnings names the assignment — to a name
      the source has, or an attempted extension. Returns the trap's result
      and the warning it emits, if any. */
  function NsSet(w: World, v: Value, name: string): (r: (bool, Option<Warning>))
    requires v.NsView? && v.owner in w.entries
    ensures r.0
    ensures r.1.Some? <==> w.entries[v.owner].options.warnings
    ensures r.1.Some? ==> r.1.value.handle == w.entries[v.owner].handle && r.1.value.name == name
    ensures r.1.Some? ==> (r.1.value.NsAssignment? <==> SourceHas(w, v.source, name))
    ensures r.1.Some? ==> (r.1.value.NsExtension? <==> !SourceHas(w, v.source, name))
  {
    var e := w.entries[v.owner];
    if !e.options.warnings then (true, None)
    else if SourceHas(w, v.source, name) then (true, Some(NsAssignment(e.handle, name)))
    else (true, Some(NsExtension(e.handle, name)))
  }

  /* ----- laws ----- */

  /** A sequence without repeats holds each member exactly once. */
  lemma {:induction false} DistinctCounts(s: seq<string>)
    requires Distinct(s)
    ensures forall x :: multiset(s)[x] == if x in s then 1 else 0
  {
    if s != [] {
      assert s == [s[0]] + s[1..];
      assert Distinct(s[1..]);
      DistinctCounts(s[1..]);
      assert s[0] !in s[1..];
      assert multiset(s) == multiset{s[0]} + multiset(s[1..]);
      forall x ensures multiset(s)[x] == if x in s then 1 else 0 {
        assert x in s <==> x == s[0] || x in s[1..];
      }
    }
  }

  /** Two views whose sources have the same key set list their keys in the
      same order: the order does not depend on the order the source's
      properties were created in. */
  lemma ViewOrderCanonical(w1: World, src1: ViewSource, w2: World, src2: ViewSource, id: EntryId, kind: ViewKind)
    requires forall k :: k in SourceKeys(w1, src1) <==> k in SourceKeys(w2, src2)
    ensures ToNamespace(w1, id, kind, src1).keys == ToNamespace(w2, id, kind, src2).keys
  {
    SameKeysSameOrder(SourceKeys(w1, src1), SourceKeys(w2, src2));
  }

  /** Sorting two key lists without repeats that have the same members
      gives the same list. */
  lemma SameKeysSameOrder(a: seq<string>, b: seq<string>)
    requires Distinct(a) && Distinct(b)
    requires forall k :: k in a <==> k in b
    ensures Sort(a) == Sort(b)
  {
    DistinctCounts(a);
    DistinctCounts(b);
    assert multiset(a) == multiset(b) by {
      forall x ensures multiset(a)[x] == multiset(b)[x] {
        assert x in a <==> x in b;
      }
    }
    SortedUnique(Sort(a), Sort(b));
  }

  /** A sequence holding each member at most once has no repeats. */
  lemma {:induction false} CountsDistinct(s: seq<string>)
    requires forall x :: multiset(s)[x] <= 1
    ensures Distinct(s)
  {
    if s != [] {
      assert s == [s[0]] + s[1..];
      assert multiset(s) == multiset{s[0]} + multiset(s[1..]);
      assert s[0] !in s[1..] by {
        assert multiset(s)[s[0]] == 1 + multiset(s[1..])[s[0]];
      }
      assert forall x :: multiset(s[1..])[x] <= multiset(s)[x];
      CountsDistinct(s[1..]);
      forall i, j | 0 <= i < j < |s| ensures s[i] != s[j] {
        assert s[j] == s[1..][j - 1];
        if i > 0 { assert s[i] == s[1..][i - 1]; }
      }
    }
  }

  /** The keys of a view never repeat. */
  lemma ViewKeysDistinct(w: World, id: EntryId, kind: ViewKind, src: ViewSource)
    ensures Distinct(ToNamespace(w, id, kind, src).keys)
  {
    var a := SourceKeys(w, src);
    DistinctCounts(a);
    assert multiset(Sort(a)) == multiset(a);
    CountsDistinct(Sort(a));
  }

  /** A view is live: after the source namespace's data property `k` is
      assigned, reading `k` through the view sees the new value (wrapped in
      the exports proxy when it is the object-like `default` of an entry
      whose namespace is proxied). */
  lemma ViewReadsAreLive(w: World, view: Value, k: string, x: Value)
    requires view.NsView? && view.source.LiveNamespace?
    requires view.source.ns in w.objects
    requires k in w.objects[view.source.ns].items ==> w.objects[view.source.ns].items[k].Data?
    requires k !in w.objects[view.source.ns].items ==> view.source.ns !in w.sealed
    ensures var src := view.source;
      NsGet(WriteProp(w, Obj(src.ns), k, x), view, Name(k))
        == if src.proxiedBy.Some? && k == "default" && ObjectLike(x) then ExportsProxy(src.proxiedBy.value) else x
  {
  }

  /** Assigning through a view to one of its listed names is reported as an
      assignment, never as an extension, while the source is the one the
      view was made from. */
  lemma ListedNameIsAssignment(w: World, id: EntryId, kind: ViewKind, src: ViewSource, name: string)
    requires id in w.entries && w.entries[id].options.warnings
    requires name in ToNamespace(w, id, kind, src).keys
    ensures NsSet(w, ToNamespace(w, id, kind, src), name).1 == Some(NsAssignment(w.entries[id].handle, name))
  {
    var v := ToNamespace(w, id, kind, src);
    assert name in SourceKeys(w, src);
    if src.LiveNamespace? {
      var p := PropsOf(w, Obj(src.ns));
      assert name in FilterEnumerable(p.order, p.items);
    }
  }

  /** A CommonJS view reads `default` as the container it was made with, and
      nothing is listed besides it. */
  lemma CjsViewReadsContainer(w: World, id: EntryId)
    requires id in w.entries && IsModule(w, w.entries[id].handle)
    ensures var v := CjsNamespaceOf(w, id);
      && NsGet(w, v, Name("default")) == ModuleAt(w, w.entries[id].handle).exports
      && NsOwnProperty(w, v, Name("default")).Some?
      && (forall n :: n != "default" ==> NsOwnProperty(w, v, Name(n)).None?)
  {
  }
}

=== FILE: ordered_map.dfy ===
/** An ordered map keeps a map and its key order together. JavaScript
    objects enumerate their string keys in insertion order, except that keys
    which are array indices ("0", "2", "10") come first in ascending numeric
    order; this map keeps every key in insertion order. The engine walks
    `children` and `setters` in key order. */
module OrderedMaps {

  ghost predicate Distinct(s: seq<string>) {
    forall i, j :: 0 <= i < j < |s| ==> s[i] != s[j]
  }

  datatype OMap<V> = OMap(order: seq<string>, items: map<string, V>)

  ghost predicate Valid<V>(m: OMap<V>) {
    && Distinct(m.order)
    && (forall k :: k in m.order <==> k in m.items)
  }

  type OrdMap<V> = m: OMap<V> | Valid(m) witness OMap([], map[])

  function Empty<V>(): (r: OrdMap<V>)
    ensures r.items == map[] && r.order == []
  {
    OMap([], map[])
  }

  /** Assignment `o[k] = v`: an existing key keeps its place, a new key goes
      last. */
  function Put<V>(m: OrdMap<V>, k: string, v: V): (r: OrdMap<V>)
    ensures r.items == m.items[k := v]
    ensures k in m.items ==> r.order == m.order
    ensures k !in m.items ==> r.order == m.order + [k]
  {
    if k in m.items then OMap(m.order, m.items[k := v])
    else
      var r := OMap(m.order + [k], m.items[k := v]);
      assert forall x :: x in r.order <==> x in r.items by {
        forall x ensures x in r.order <==> x in r.items {
          assert x in r.order <==> x in m.order || x == k;
        }
      }
      r
  }

  function Without(s: seq<string>, k: string): (r: seq<string>)
    ensures forall x :: x in r <==> x in s && x != k
    ensures Distinct(s) ==> Distinct(r)
  {
    if s == [] then []
    else if s[0] == k then Without(s[1..], k)
    else
      var t := Without(s[1..], k);
      assert forall x :: x in s[1..] ==> x in s;
      assert Distinct(s) ==> s[0] !in t;
      [s[0]] + t
  }

  /** `delete o[k]`: the key leaves both the map and the order. */
  function Remove<V>(m: OrdMap<V>, k: string): (r: OrdMap<V>)
    ensures r.items == m.items - {k}
    ensures forall x :: x in r.order <==> x in m.order && x != k
  {
    OMap(Without(m.order, k), m.items - {k})
  }

  /** `Object.assign(a, b)`: b's keys are put into a in b's order. */
  function Assign<V>(a: OrdMap<V>, b: OrdMap<V>): (r: OrdMap<V>)
    ensures r.items == a.items + b.items
    ensures a.order <= r.order
  {
    var r := AssignFrom(a, b.order, b.items);
    assert (set k | k in b.order) == b.items.Keys;
    assert forall k :: k in r.items ==> r.items[k] == (a.items + b.items)[k];
    r
  }

  function AssignFrom<V>(a: OrdMap<V>, ks: seq<string>, src: map<string, V>): (r: OrdMap<V>)
    requires forall k :: k in ks ==> k in src
    ensures r.items.Keys == a.items.Keys + (set k | k in ks)
    ensures forall k :: k in r.items ==> r.items[k] == if k in ks then src[k] else a.items[k]
    ensures a.order <= r.order
    decreases |ks|
  {
    if ks == [] then a
    else
      var a1 := Put(a, ks[0], src[ks[0]]);
      var r := AssignFrom(a1, ks[1..], src);
      assert forall k :: k in ks <==> k == ks[0] || k in ks[1..];
      r
  }
  /** The values in key order, as `for (const k in o)` visits `o[k]`. */
  function ValuesOf<V>(m: OrdMap<V>): (r: seq<V>)
    ensures |r| == |m.order|
    ensures forall i :: 0 <= i < |r| ==> r[i] == m.items[m.order[i]]
  {
    ValuesAt(m.order, m.items)
  }

  function ValuesAt<V>(ks: seq<string>, items: map<string, V>): (r: seq<V>)
    requires forall k :: k in ks ==> k in items
    ensures |r| == |ks|
    ensures forall i :: 0 <= i < |r| ==> r[i] == items[ks[i]]
    decreases |ks|
  {
    if ks == [] then [] else [items[ks[0]]] + ValuesAt(ks[1..], items)
  }
}

=== FILE: reconcile.dfy ===
/** Propagating new export values to importers: `changed`,
    `getExportByName`, `runSetter(s)` and `Entry#update`. A setter belongs to
    an importing module; running it assigns the importer's local binding,
    and every importer whose bindings were assigned is updated in turn. */
module Reconcile {
  import opened Values
  import opened OrderedMaps
  import opened EntryState
  import opened Exports

  /** `setter.last[key]`: the value last passed for `key`, undefined when
      there was none. */
  function LastOf(s: Setter, key: string): Value {
    if key in s.last then s.last[key] else Undefined
  }

  /** `changed(setter, key, value)`: whether `value` differs by `Object.is`
      from the value last recorded for `key`, and the setter with `value`
      recorded when it does. */
  function Changed(s: Setter, key: string, v: Value): (r: (bool, Setter))
    ensures r.0 <==> !SameValue(LastOf(s, key), v)
    ensures SameValue(LastOf(r.1, key), v)
    ensures forall k :: k != key ==> LastOf(r.1, k) == LastOf(s, k)
    ensures r.1 == s.(last := r.1.last)
  {
    if SameValue(LastOf(s, key), v) then (false, s)
    else (true, s.(last := s.last[key := v]))
  }

  /** What `getExportByName` produces: a value, or the error it throws. */
  datatype Lookup = Found(value: Value) | Thrown(err: EngineError)

  /** `isScript`: a CommonJS module imported by a module whose package does
      not enable named exports from CommonJS. */
  predicate IsScript(w: World, e: EntryRec, s: Setter)
    requires s.parent in w.entries
  {
    e.mode == CJS && !w.entries[s.parent].options.namedExports
  }

  /** The condition under which a CommonJS lookup is an `ERR_EXPORT_MISSING`:
      a script importer asks for anything but `default`, or the module has
      finished loading and has no getter for the name. */
  predicate IsMissingExport(w: World, e: EntryRec, s: Setter, name: string)
    requires s.parent in w.entries
  {
    (IsScript(w, e, s) && name != "default") || (e.loaded == Completed && name !in e.getters.items)
  }

  /** `getExportByName(entry, setter, name)`. A missing export also removes
      the entry's setters for that name, so later imports are not blocked. */
  function GetExportByName(w: World, id: EntryId, s: Setter, name: string): (r: (World, Lookup))
    requires id in w.entries && s.parent in w.entries
    ensures r.1.Found? ==> r.0 == w
    ensures r.1.Thrown? ==> r.1.err.handle == w.entries[id].handle && r.1.err.name == name
    ensures r.1.Thrown? ==> name != "*" && w.entries[id].mode == CJS
    ensures r.1.Thrown? && r.1.err.ExportStarConflict? ==> r.0 == w
    ensures r.1.Thrown? && r.1.err.ExportMissing? ==>
      r.0 == WithEntry(w, id, w.entries[id].(setters := Remove(w.entries[id].setters, name)))
    ensures name == "*" ==>
      r.1 == Found(if IsScript(w, w.entries[id], s) then w.entries[id].cjsNamespace else w.entries[id].esmNamespace)
    ensures name != "*" && w.entries[id].mode == ESM ==> r.1 == Found(ReadNamespace(w, w.entries[id], name))
    ensures name != "*" && w.entries[id].mode == CJS ==>
      (r.1.Thrown? && r.1.err.ExportMissing? <==> IsMissingExport(w, w.entries[id], s, name))
    ensures name != "*" && w.entries[id].mode == CJS && !IsMissingExport(w, w.entries[id], s, name) ==>
      (r.1.Thrown? <==> ReadNamespace(w, w.entries[id], name).StarError?)
      && (r.1.Found? ==> r.1.value == ReadNamespace(w, w.entries[id], name))
  {
    var e := w.entries[id];
    if name == "*" then (w, Found(if IsScript(w, e, s) then e.cjsNamespace else e.esmNamespace))
    else if e.mode == ESM then (w, Found(ReadNamespace(w, e, name)))
    else if (assert e.mode == CJS; IsMissingExport(w, e, s, name)) then
      (WithEntry(w, id, e.(setters := Remove(e.setters, name))), Thrown(EngineError.ExportMissing(e.handle, name)))
    else
      var v := ReadNamespace(w, e, name);
      if v.StarError? then (w, Thrown(ExportStarConflict(e.handle, name))) else (w, Found(v))
  }

  /** What a run of setters accumulates: the world, the importers to update
      afterwards (`parentsMap`, keyed by module name, in first-seen order)
      and the warnings emitted. */
  datatype Acc = Acc(w: World, parents: OrdMap<EntryId>, warnings: seq<Warning>)

  /** Calls the setter with `value` through `update`'s callback: the importer
      is remembered and its local binding assigned. */
  function Fire(a: Acc, s: Setter, value: Value): (r: Acc)
    requires s.parent in a.w.entries
    ensures r.w == a.w.(locals := a.w.locals[s.slot := value])
    ensures r.parents == Put(a.parents, a.w.entries[s.parent].name, s.parent)
    ensures r.warnings == a.warnings
  {
    Acc(a.w.(locals := a.w.locals[s.slot := value]), Put(a.parents, a.w.entries[s.parent].name, s.parent), a.warnings)
  }

  /** The condition for `WRN_TDZ_ACCESS`: the export is still undefined,
      the module has a getter for it, the importer is one of its children and
      the name is one of the module's temporal (`let`/`const`/`class`)
      exports. */
  predicate TdzAccess(w: World, e: EntryRec, s: Setter, name: string, value: Value)
    requires s.parent in w.entries
  {
    value == Undefined && name in e.getters.items
    && w.entries[s.parent].name in e.children.items && name in e.exportTemporals
  }

  /** The outcome of one setter: the accumulator and the setter with its
      updated memo, or the error that aborts the whole update. */
  datatype StepResult = Step(acc: Acc, s: Setter) | StepThrew(w: World, err: EngineError)

  /** One iteration of `runSetter`'s loop. A namespace setter (`from ===
      "nsSetter"`) is forced with undefined when the namespace changed;
      otherwise the setter fires when the export's value differs from its
      memo. */
  function SetterStep(a: Acc, id: EntryId, name: string, nsChanged: bool, s: Setter): (r: StepResult)
    requires id in a.w.entries && s.parent in a.w.entries
    ensures r.Step? ==> r.s == s.(last := r.s.last) && r.acc.w == a.w.(locals := r.acc.w.locals)
    ensures r.Step? && nsChanged && s.fromNs ==> r.acc == Fire(a, s, Undefined) && r.s == s
    ensures r.Step? ==> a.warnings <= r.acc.warnings
    ensures !(nsChanged && s.fromNs) ==> var look := GetExportByName(a.w, id, s, name).1;
      && (r.StepThrew? <==> look.Thrown?)
      && (look.Found? && !SameValue(LastOf(s, name), look.value) ==>
            r.Step? && r.s == s.(last := s.last[name := look.value]) && r.acc == Fire(a, r.s, look.value))
      && (look.Found? && SameValue(LastOf(s, name), look.value) ==>
            r.Step? && r.s == s && r.acc.w == a.w && r.acc.parents == a.parents)
  {
    if nsChanged && s.fromNs then Step(Fire(a, s, Undefined), s)
    else
      var (w1, look) := GetExportByName(a.w, id, s, name);
      match look
      case Thrown(err) => StepThrew(w1, err)
      case Found(v) =>
        var (ch, s') := Changed(s, name, v);
        if ch then Step(Fire(a, s', v), s')
        else if TdzAccess(a.w, a.w.entries[id], s, name, v) then
          Step(a.(warnings := a.warnings + [Warning.TdzAccess(a.w.entries[id].handle, name)]), s)
        else Step(a, s)
  }

  /** A thrown error keeps the warnings already emitted before it. */
  datatype ListResult = ListDone(acc: Acc, ss: seq<Setter>) | ListThrew(w: World, err: EngineError, warnings: seq<Warning>)

  predicate ParentsIn(w: World, ss: seq<Setter>) {
    forall i :: 0 <= i < |ss| ==> ss[i].parent in w.entries
  }

  /** `runSetter`'s loop over one name's setters, returning them with their
      memos updated. */
  function SetterLoop(a: Acc, id: EntryId, name: string, nsChanged: bool, ss: seq<Setter>): (r: ListResult)
    requires id in a.w.entries && ParentsIn(a.w, ss)
    ensures r.ListDone? ==> r.acc.w == a.w.(locals := r.acc.w.locals)
    ensures r.ListDone? ==> |r.ss| == |ss| && forall i :: 0 <= i < |ss| ==> r.ss[i] == ss[i].(last := r.ss[i].last)
    ensures r.ListDone? ==> a.warnings <= r.acc.warnings
    ensures r.ListThrew? ==> a.warnings <= r.warnings
    decreases |ss|
  {
    if ss == [] then ListDone(a, [])
    else match SetterStep(a, id, name, nsChanged, ss[0])
      case StepThrew(w1, err) => ListThrew(w1, err, a.warnings)
      case Step(a1, s1) =>
        match SetterLoop(a1, id, name, nsChanged, ss[1..])
        case ListThrew(w2, err, ws) => ListThrew(w2, err, ws)
        case ListDone(a2, rest) => ListDone(a2, [s1] + rest)
  }

  /** Every registered setter's importer has an entry. */
  predicate ParentsKnown(w: World, e: EntryRec) {
    forall k :: k in e.setters.items ==> ParentsIn(w, e.setters.items[k])
  }

  datatype RunResult = Ran(acc: Acc) | Threw(w: World, err: EngineError, warnings: seq<Warning>)

  /** `runSetter(entry, name, callback)`; a name whose setters are gone is
      skipped, as `for…in` skips a deleted key. */
  function RunSetter(a: Acc, id: EntryId, name: string): (r: RunResult)
    requires id in a.w.entries && ParentsKnown(a.w, a.w.entries[id])
    ensures r.Ran? ==> r.acc.w.entries.Keys == a.w.entries.Keys
    ensures r.Ran? ==> r.acc.w == a.w.(entries := r.acc.w.entries, locals := r.acc.w.locals)
    ensures r.Ran? ==> forall j :: j in a.w.entries && j != id ==> r.acc.w.entries[j] == a.w.entries[j]
    ensures r.Ran? ==> var e' := r.acc.w.entries[id];
      e' == a.w.entries[id].(setters := e'.setters) && e'.setters.items.Keys == a.w.entries[id].setters.items.Keys
      && e'.setters.order == a.w.entries[id].setters.order && ParentsKnown(r.acc.w, e')
      && forall k :: k in e'.setters.items && k != name ==> e'.setters.items[k] == a.w.entries[id].setters.items[k]
  {
    var e := a.w.entries[id];
    if name !in e.setters.items then Ran(a)
    else
      var nsChanged := name == "*" && e.changed;
      match SetterLoop(a, id, name, nsChanged, e.setters.items[name])
      case ListThrew(w1, err, ws) => Threw(w1, err, ws)
      case ListDone(a1, ss) =>
        var e' := e.(setters := Put(e.setters, name, ss));
        var w' := WithEntry(a1.w, id, e');
        StoreSteps(a.w, a1.w, w', id, name, ss);
        Ran(a1.(w := w'))
  }

  /** Storing the loop's setters back under `name`: only the entry's setter
      lists change, and every importer is still known. */
  lemma StoreSteps(w: World, w1: World, w': World, id: EntryId, name: string, ss: seq<Setter>)
    requires id in w.entries && ParentsKnown(w, w.entries[id]) && name in w.entries[id].setters.items
    requires w1 == w.(locals := w1.locals) && ParentsIn(w1, ss)
    requires w' == w1.(entries := w1.entries[id := w.entries[id].(setters := Put(w.entries[id].setters, name, ss))])
    ensures w'.entries.Keys == w.entries.Keys
    ensures w' == w.(entries := w'.entries, locals := w'.locals)
    ensures forall j :: j in w.entries && j != id ==> w'.entries[j] == w.entries[j]
    ensures var e' := w'.entries[id];
      e' == w.entries[id].(setters := e'.setters) && e'.setters.items.Keys == w.entries[id].setters.items.Keys
      && e'.setters.order == w.entries[id].setters.order && ParentsKnown(w', e')
      && forall k :: k in e'.setters.items && k != name ==> e'.setters.items[k] == w.entries[id].setters.items[k]
  {
    var e' := w'.entries[id];
    forall k | k in e'.setters.items
      ensures ParentsIn(w', e'.setters.items[k])
    {
    }
  }

  /** `runSetters(entry, callback)`: every name's setters, in registration
      order; the first error aborts. */
  function RunSetters(a: Acc, id: EntryId, names: seq<string>): (r: RunResult)
    requires id in a.w.entries && ParentsKnown(a.w, a.w.entries[id])
    ensures r.Ran? ==> r.acc.w.entries.Keys == a.w.entries.Keys
    ensures r.Ran? ==> r.acc.w == a.w.(entries := r.acc.w.entries, locals := r.acc.w.locals)
    ensures r.Ran? ==> forall j :: j in a.w.entries && j != id ==> r.acc.w.entries[j] == a.w.entries[j]
    ensures r.Ran? ==> var e' := r.acc.w.entries[id];
      e' == a.w.entries[id].(setters := e'.setters) && ParentsKnown(r.acc.w, e')
      && e'.setters.order == a.w.entries[id].setters.order
    decreases |names|
  {
    if names == [] then Ran(a)
    else match RunSetter(a, id, names[0])
      case Threw(w1, err, ws) => Threw(w1, err, ws)
      case Ran(a1) => RunSetters(a1, id, names[1..])
  }

  /** How a broadcast ends: done, aborted by an error (the world as the
      error left it), or cut off by the fuel bound. */
  datatype UpdateResult =
    | Done(w: World, warnings: seq<Warning>)
    | Failed(w: World, err: EngineError, warnings: seq<Warning>)
    | OutOfFuel(w: World, warnings: seq<Warning>)

  /** An entry `update` can run on: its module handle is known and so is
      every importer of it. Every entry of a well-formed world is ready. */
  predicate Ready(w: World, id: EntryId) {
    id in w.entries && IsModule(w, w.entries[id].handle) && ParentsKnown(w, w.entries[id])
  }

  function ResetChanged(w: World, id: EntryId): (w': World)
    requires id in w.entries
    ensures w'.entries == w.entries[id := w.entries[id].(changed := false)]
    ensures w' == w.(entries := w'.entries)
  {
    WithEntry(w, id, w.entries[id].(changed := false))
  }

  /** `entry.update()`: clear the change flag, refresh the namespace from
      the getters, run the setters, clear the flag again, then update every
      importer whose bindings were assigned. `fuel` bounds the depth of the
      cascade. */
  function Update(w: World, id: EntryId, fuel: nat): (r: UpdateResult)
    decreases fuel, 0, 0
  {
    if fuel == 0 then OutOfFuel(w, [])
    else if !Ready(w, id) then Done(w, [])
    else
      var w1 := RunGetters(ResetChanged(w, id), id);
      match RunSetters(Acc(w1, Empty(), []), id, w1.entries[id].setters.order)
      case Threw(w2, err, ws) => Failed(w2, err, ws)
      case Ran(a) =>
        match UpdateAll(ResetChanged(a.w, id), ValuesOf(a.parents), fuel - 1)
        case Done(w3, ws) => Done(w3, a.warnings + ws)
        case Failed(w3, err, ws) => Failed(w3, err, a.warnings + ws)
        case OutOfFuel(w3, ws) => OutOfFuel(w3, a.warnings + ws)
  }

  /** `update` of each collected importer in turn. */
  function UpdateAll(w: World, ids: seq<EntryId>, fuel: nat): (r: UpdateResult)
    decreases fuel, 1, |ids|
  {
    if ids == [] then Done(w, [])
    else match Update(w, ids[0], fuel)
      case Failed(w1, err, ws) => Failed(w1, err, ws)
      case OutOfFuel(w1, ws) => OutOfFuel(w1, ws)
      case Done(w1, ws) =>
        match UpdateAll(w1, ids[1..], fuel)
        case Done(w2, ws2) => Done(w2, ws + ws2)
        case Failed(w2, err, ws2) => Failed(w2, err, ws + ws2)
        case OutOfFuel(w2, ws2) => OutOfFuel(w2, ws + ws2)
  }
}

=== FILE: reconcile_laws.dfy ===
/** What the update broadcast guarantees: lookups report the errors the
    importer's options call for, a missing export is not retried, reads do
    not depend on what setters assign, and a second pass of setters with
    nothing changed fires none of them — the reason a cascade of updates
    stops. */
module ReconcileLaws {
  import opened Values
  import opened OrderedMaps
  import opened EntryState
  import opened Exports
  import opened Reconcile
  import ExportsLaws

  /* ----- the memo ----- */

  /** A setter that has seen a value does not fire for it again. */
  lemma ChangedOnce(s: Setter, key: string, v: Value)
    ensures !Changed(Changed(s, key, v).1, key, v).0
  {
  }

  /** A fresh setter's memo holds undefined, so an export that is still
      undefined does not fire a freshly registered setter. */
  lemma FreshSetterIgnoresUndefined(s: Setter, key: string)
    requires s.last == map[]
    ensures !Changed(s, key, Undefined).0
    ensures Changed(s, key, Num(1.0)).0
  {
  }

  /* ----- lookups ----- */

  /** A script-style importer of a CommonJS module may import `default` and
      the namespace only; any other name is `ERR_EXPORT_MISSING`, and that
      name's setters are dropped. */
  lemma ScriptImportsOnlyDefault(w: World, id: EntryId, s: Setter, name: string)
    requires id in w.entries && s.parent in w.entries
    requires w.entries[id].mode == CJS && !w.entries[s.parent].options.namedExports
    requires name != "default" && name != "*"
    ensures var (w', r) := GetExportByName(w, id, s, name);
      && r == Thrown(EngineError.ExportMissing(w.entries[id].handle, name))
      && name !in w'.entries[id].setters.items
      && (forall k :: k != name && k in w.entries[id].setters.items ==>
            k in w'.entries[id].setters.items && w'.entries[id].setters.items[k] == w.entries[id].setters.items[k])
  {
  }

  /** An ES module's lookups never throw: every name reads the namespace
      and `*` yields the ES namespace view. */
  lemma EsmLookupNeverThrows(w: World, id: EntryId, s: Setter, name: string)
    requires id in w.entries && s.parent in w.entries && w.entries[id].mode == ESM
    ensures var (w', r) := GetExportByName(w, id, s, name);
      && w' == w
      && r == Found(if name == "*" then w.entries[id].esmNamespace else ReadNamespace(w, w.entries[id], name))
  {
  }

  /** A name whose lookup reported a missing export has no setters left, so
      the next run of that name's setters does nothing. */
  lemma MissingExportNotRetried(a: Acc, id: EntryId, s: Setter, name: string)
    requires id in a.w.entries && s.parent in a.w.entries && ParentsKnown(a.w, a.w.entries[id])
    requires GetExportByName(a.w, id, s, name).1.Thrown?
    requires GetExportByName(a.w, id, s, name).1.err.ExportMissing?
    ensures var w' := GetExportByName(a.w, id, s, name).0;
      ParentsKnown(w', w'.entries[id]) && RunSetter(a.(w := w'), id, name) == Ran(a.(w := w'))
  {
    var w' := GetExportByName(a.w, id, s, name).0;
    assert w'.entries[id].setters.items == a.w.entries[id].setters.items - {name};
  }

  /* ----- reads do not depend on bindings or setters ----- */

  /** Two worlds that agree on everything a property read consults. */
  ghost predicate SameObjects(w: World, w': World) {
    && w'.objects == w.objects && w'.modules == w.modules
    && w'.entries.Keys == w.entries.Keys
    && forall i :: i in w.entries ==> w'.entries[i].ns == w.entries[i].ns && w'.entries[i].handle == w.entries[i].handle
  }

  lemma ReadPropAgrees(w: World, w': World, t: Value, k: string, hops: nat)
    requires SameObjects(w, w')
    ensures ReadPropN(w', t, k, hops) == ReadPropN(w, t, k, hops)
    decreases hops, 1
  {
    match t
    case Obj(r) =>
      var props := PropsOf(w, t);
      if k in props.items { ReadSlotAgrees(w, w', props.items[k], hops); }
    case NsView(_, _, _, src) =>
      if hops > 0 { ReadSourceAgrees(w, w', src, k, hops - 1); }
    case ExportsProxy(owner) =>
      if hops > 0 && owner in w.entries && IsModule(w, w.entries[owner].handle) {
        ReadPropAgrees(w, w', ModuleAt(w, w.entries[owner].handle).exports, k, hops - 1);
      }
    case _ =>
  }

  lemma ReadSlotAgrees(w: World, w': World, s: Slot, hops: nat)
    requires SameObjects(w, w')
    ensures ReadSlot(w', s, hops) == ReadSlot(w, s, hops)
    decreases hops, 0
  {
    match s
    case Data(_) =>
    case Hidden(_) =>
    case ContainerProp(t, k) =>
      if hops > 0 { ReadPropAgrees(w, w', t, k, hops - 1); }
    case EntryNsProp(e, k) =>
      if hops > 0 && e in w.entries { ReadPropAgrees(w, w', Obj(w.entries[e].ns), k, hops - 1); }
  }

  lemma ReadSourceAgrees(w: World, w': World, src: ViewSource, k: string, hops: nat)
    requires SameObjects(w, w')
    ensures ReadSource(w', src, k, hops) == ReadSource(w, src, k, hops)
    decreases hops, 2
  {
    if src.LiveNamespace? { ReadPropAgrees(w, w', Obj(src.ns), k, hops); }
  }

  /** `w'` is `w` after setters ran for entry `id`: only local bindings and
      that entry's setter lists differ. */
  ghost predicate SetterFrame(w: World, w': World, id: EntryId) {
    && id in w.entries
    && w' == w.(entries := w'.entries, locals := w'.locals)
    && w'.entries.Keys == w.entries.Keys
    && (forall j :: j in w.entries && j != id ==> w'.entries[j] == w.entries[j])
    && w'.entries[id] == w.entries[id].(setters := w'.entries[id].setters)
  }

  lemma SetterFrameTransitive(w1: World, w2: World, w3: World, id: EntryId)
    requires SetterFrame(w1, w2, id) && SetterFrame(w2, w3, id)
    ensures SetterFrame(w1, w3, id)
  {
  }

  /** What an export lookup finds does not depend on local bindings or on
      the setters registered. */
  lemma LookupIgnoresSetters(w: World, w': World, id: EntryId, s: Setter, name: string)
    requires SetterFrame(w, w', id) && s.parent in w.entries
    ensures GetExportByName(w', id, s, name).1 == GetExportByName(w, id, s, name).1
  {
    var e := w.entries[id];
    var e' := w'.entries[id];
    assert w'.entries[s.parent].options == w.entries[s.parent].options;
    assert IsScript(w', e', s) == IsScript(w, e, s);
    if name != "*" && !(e.mode == CJS && IsMissingExport(w, e, s, name)) {
      SetterFrameSameObjects(w, w', id);
      ReadSourceAgrees(w, w', NamespaceSource(e), name, MaxHops);
      assert NamespaceSource(e') == NamespaceSource(e);
      assert ReadNamespace(w', e', name) == ReadNamespace(w, e, name);
    }
  }

  lemma SetterFrameSameObjects(w: World, w': World, id: EntryId)
    requires SetterFrame(w, w', id)
    ensures SameObjects(w, w')
  {
    forall i | i in w.entries
      ensures w'.entries[i].ns == w.entries[i].ns && w'.entries[i].handle == w.entries[i].handle
    {
      if i != id {
        assert w'.entries[i] == w.entries[i];
      }
    }
  }

  /* ----- a second pass fires nothing ----- */

  /** A setter whose memo already holds what a lookup finds. */
  ghost predicate Settled(w: World, id: EntryId, s: Setter, name: string)
    requires id in w.entries && s.parent in w.entries
  {
    var look := GetExportByName(w, id, s, name).1;
    look.Found? && SameValue(LastOf(s, name), look.value)
  }

  ghost predicate ListSettled(w: World, id: EntryId, name: string, ss: seq<Setter>)
    requires id in w.entries
  {
    ParentsIn(w, ss) && forall i :: 0 <= i < |ss| ==> Settled(w, id, ss[i], name)
  }

  lemma ListSettledFrame(w: World, w': World, id: EntryId, name: string, ss: seq<Setter>)
    requires SetterFrame(w, w', id) && ListSettled(w, id, name, ss)
    ensures ListSettled(w', id, name, ss)
  {
    forall i | 0 <= i < |ss| ensures Settled(w', id, ss[i], name) {
      LookupIgnoresSetters(w, w', id, ss[i], name);
    }
  }

  /** A step that is not forced leaves the setter settled. */
  lemma StepSettles(a: Acc, id: EntryId, name: string, s: Setter)
    requires id in a.w.entries && s.parent in a.w.entries
    requires SetterStep(a, id, name, false, s).Step?
    ensures var r := SetterStep(a, id, name, false, s);
      SetterFrame(a.w, r.acc.w, id) && Settled(r.acc.w, id, r.s, name)
  {
    var r := SetterStep(a, id, name, false, s);
    assert SetterFrame(a.w, r.acc.w, id);
    LookupIgnoresSetters(a.w, r.acc.w, id, r.s, name);
    assert GetExportByName(a.w, id, r.s, name).1 == GetExportByName(a.w, id, s, name).1;
  }

  /** A settled setter's step, not forced, changes nothing but warnings. */
  lemma StepQuiet(a: Acc, id: EntryId, name: string, s: Setter)
    requires id in a.w.entries && s.parent in a.w.entries && Settled(a.w, id, s, name)
    ensures var r := SetterStep(a, id, name, false, s);
      r.Step? && r.s == s && r.acc.w == a.w && r.acc.parents == a.parents
  {
  }

  lemma {:induction false} LoopSettles(a: Acc, id: EntryId, name: string, ss: seq<Setter>)
    requires id in a.w.entries && ParentsIn(a.w, ss)
    requires SetterLoop(a, id, name, false, ss).ListDone?
    ensures var r := SetterLoop(a, id, name, false, ss);
      SetterFrame(a.w, r.acc.w, id) && ListSettled(r.acc.w, id, name, r.ss)
    decreases |ss|
  {
    if ss != [] {
      var st := SetterStep(a, id, name, false, ss[0]);
      StepSettles(a, id, name, ss[0]);
      var a1 := st.acc;
      assert ParentsIn(a1.w, ss[1..]);
      LoopSettles(a1, id, name, ss[1..]);
      var rest := SetterLoop(a1, id, name, false, ss[1..]);
      var r := SetterLoop(a, id, name, false, ss);
      assert r.acc == rest.acc && r.ss == [st.s] + rest.ss;
      SetterFrameTransitive(a.w, a1.w, rest.acc.w, id);
      LookupIgnoresSetters(a1.w, rest.acc.w, id, st.s, name);
      ListSettledCons(rest.acc.w, id, name, st.s, rest.ss);
    }
  }

  lemma ListSettledCons(w: World, id: EntryId, name: string, s: Setter, ss: seq<Setter>)
    requires id in w.entries && s.parent in w.entries && Settled(w, id, s, name) && ListSettled(w, id, name, ss)
    ensures ListSettled(w, id, name, [s] + ss)
  {
    var t := [s] + ss;
    forall i | 0 <= i < |t| ensures t[i].parent in w.entries && Settled(w, id, t[i], name) {
      if i > 0 { assert t[i] == ss[i - 1]; }
    }
  }

  lemma {:induction false} LoopQuiet(a: Acc, id: EntryId, name: string, ss: seq<Setter>)
    requires id in a.w.entries && ListSettled(a.w, id, name, ss)
    ensures var r := SetterLoop(a, id, name, false, ss);
      r.ListDone? && r.ss == ss && r.acc.w == a.w && r.acc.parents == a.parents
    decreases |ss|
  {
    if ss != [] {
      StepQuiet(a, id, name, ss[0]);
      var a1 := SetterStep(a, id, name, false, ss[0]).acc;
      assert ListSettled(a1.w, id, name, ss[1..]) by {
        forall i | 0 <= i < |ss[1..]| ensures Settled(a1.w, id, ss[1..][i], name) {
          assert ss[1..][i] == ss[i + 1];
        }
      }
      LoopQuiet(a1, id, name, ss[1..]);
      assert ss == [ss[0]] + ss[1..];
    }
  }

  /** Every name among `names` that still has setters has them settled. */
  ghost predicate AllSettled(w: World, id: EntryId, names: seq<string>)
    requires id in w.entries
  {
    forall n :: n in names && n in w.entries[id].setters.items ==> ListSettled(w, id, n, w.entries[id].setters.items[n])
  }

  lemma RunSetterSettles(a: Acc, id: EntryId, name: string, earlier: seq<string>)
    requires id in a.w.entries && ParentsKnown(a.w, a.w.entries[id]) && !a.w.entries[id].changed
    requires AllSettled(a.w, id, earlier)
    requires RunSetter(a, id, name).Ran?
    ensures var w' := RunSetter(a, id, name).acc.w;
      SetterFrame(a.w, w', id) && AllSettled(w', id, earlier + [name])
  {
    var e := a.w.entries[id];
    var r := RunSetter(a, id, name);
    var w' := r.acc.w;
    assert SetterFrame(a.w, w', id);
    if name in e.setters.items {
      var ss := e.setters.items[name];
      LoopSettles(a, id, name, ss);
      var lr := SetterLoop(a, id, name, false, ss);
      assert w' == WithEntry(lr.acc.w, id, e.(setters := Put(e.setters, name, lr.ss)));
      ListSettledFrame(lr.acc.w, w', id, name, lr.ss);
      forall n | n in earlier + [name] && n in w'.entries[id].setters.items
        ensures ListSettled(w', id, n, w'.entries[id].setters.items[n])
      {
        if n != name {
          assert n in earlier;
          ListSettledFrame(a.w, w', id, n, e.setters.items[n]);
        }
      }
    } else {
      assert w' == a.w;
    }
  }

  lemma RunSetterQuiet(a: Acc, id: EntryId, name: string)
    requires id in a.w.entries && ParentsKnown(a.w, a.w.entries[id]) && !a.w.entries[id].changed
    requires AllSettled(a.w, id, [name])
    ensures var r := RunSetter(a, id, name);
      r.Ran? && r.acc.w == a.w && r.acc.parents == a.parents
  {
    var e := a.w.entries[id];
    if name in e.setters.items {
      LoopQuiet(a, id, name, e.setters.items[name]);
      assert Put(e.setters, name, e.setters.items[name]) == e.setters;
    }
  }

  lemma {:induction false} RunSettersSettles(a: Acc, id: EntryId, names: seq<string>, earlier: seq<string>)
    requires id in a.w.entries && ParentsKnown(a.w, a.w.entries[id]) && !a.w.entries[id].changed
    requires AllSettled(a.w, id, earlier)
    requires RunSetters(a, id, names).Ran?
    ensures var w' := RunSetters(a, id, names).acc.w;
      SetterFrame(a.w, w', id) && AllSettled(w', id, earlier + names)
    decreases |names|
  {
    if names == [] {
      assert earlier + names == earlier;
    } else {
      RunSetterSettles(a, id, names[0], earlier);
      var a1 := RunSetter(a, id, names[0]).acc;
      RunSettersSettles(a1, id, names[1..], earlier + [names[0]]);
      assert earlier + [names[0]] + names[1..] == earlier + names;
      SetterFrameTransitive(a.w, a1.w, RunSetters(a1, id, names[1..]).acc.w, id);
    }
  }

  lemma {:induction false} RunSettersQuiet(a: Acc, id: EntryId, names: seq<string>)
    requires id in a.w.entries && ParentsKnown(a.w, a.w.entries[id]) && !a.w.entries[id].changed
    requires AllSettled(a.w, id, names)
    ensures var r := RunSetters(a, id, names);
      r.Ran? && r.acc.w == a.w && r.acc.parents == a.parents
    decreases |names|
  {
    if names != [] {
      RunSetterQuiet(a, id, names[0]);
      RunSettersQuiet(RunSetter(a, id, names[0]).acc, id, names[1..]);
    }
  }

  /** Running an entry's setters twice in a row, with the namespace flag
      clear, fires nothing the second time: no binding is assigned and no
      importer is scheduled for an update. This is why `update` stops
      broadcasting once there is nothing new to report. */
  lemma SecondPassFiresNothing(w: World, id: EntryId)
    requires id in w.entries && ParentsKnown(w, w.entries[id]) && !w.entries[id].changed
    requires RunSetters(Acc(w, Empty(), []), id, w.entries[id].setters.order).Ran?
    ensures var w1 := RunSetters(Acc(w, Empty(), []), id, w.entries[id].setters.order).acc.w;
      var r := RunSetters(Acc(w1, Empty(), []), id, w1.entries[id].setters.order);
      r.Ran? && r.acc.w == w1 && r.acc.parents.items == map[]
  {
    var order := w.entries[id].setters.order;
    RunSettersSettles(Acc(w, Empty(), []), id, order, []);
    var w1 := RunSetters(Acc(w, Empty(), []), id, order).acc.w;
    assert [] + order == order;
    assert w1.entries[id].setters.order == order;
    assert AllSettled(w1, id, order);
    RunSettersQuiet(Acc(w1, Empty(), []), id, order);
  }

  /* ----- a setter that sees a change fires, and its importer is updated ----- */

  /** Whether `runSetter` calls setter `s` of `name`: it is a namespace
      setter forced by a changed namespace, or the lookup finds a value that
      differs by `Object.is` from its memo. */
  ghost predicate Fires(w: World, id: EntryId, name: string, nsChanged: bool, s: Setter)
    requires id in w.entries && s.parent in w.entries
  {
    var look := GetExportByName(w, id, s, name).1;
    (nsChanged && s.fromNs) || (look.Found? && !SameValue(LastOf(s, name), look.value))
  }

  /** The names of the importers whose setters among `ss` fire. */
  ghost function FiredImporters(w: World, id: EntryId, name: string, nsChanged: bool, ss: seq<Setter>): set<string>
    requires id in w.entries && ParentsIn(w, ss)
    decreases |ss|
  {
    if ss == [] then {}
    else
      (if Fires(w, id, name, nsChanged, ss[0]) then {w.entries[ss[0].parent].name} else {})
      + FiredImporters(w, id, name, nsChanged, ss[1..])
  }

  /** The importers a `runSetter(entry, name)` over the entry's current
      setters calls. */
  ghost function NameFired(w: World, id: EntryId, name: string): set<string>
    requires id in w.entries && ParentsKnown(w, w.entries[id])
  {
    var e := w.entries[id];
    if name in e.setters.items then FiredImporters(w, id, name, name == "*" && e.changed, e.setters.items[name]) else {}
  }

  /** The importers a pass over `names` calls, judged on the store the pass
      starts from. */
  ghost function PassFired(w: World, id: EntryId, names: seq<string>): set<string>
    requires id in w.entries && ParentsKnown(w, w.entries[id])
    decreases |names|
  {
    if names == [] then {} else NameFired(w, id, names[0]) + PassFired(w, id, names[1..])
  }

  lemma {:induction false} FiredFrame(w: World, w': World, id: EntryId, name: string, nsChanged: bool, ss: seq<Setter>)
    requires SetterFrame(w, w', id) && ParentsIn(w, ss)
    ensures ParentsIn(w', ss)
    ensures FiredImporters(w', id, name, nsChanged, ss) == FiredImporters(w, id, name, nsChanged, ss)
    decreases |ss|
  {
    if ss != [] {
      LookupIgnoresSetters(w, w', id, ss[0], name);
      assert w'.entries[ss[0].parent].name == w.entries[ss[0].parent].name;
      FiredFrame(w, w', id, name, nsChanged, ss[1..]);
    }
  }

  /** One loop over a name's setters records exactly the importers of the
      setters that fire. */
  lemma {:induction false} LoopSchedules(a: Acc, id: EntryId, name: string, nsChanged: bool, ss: seq<Setter>)
    requires id in a.w.entries && ParentsIn(a.w, ss)
    requires SetterLoop(a, id, name, nsChanged, ss).ListDone?
    ensures SetterLoop(a, id, name, nsChanged, ss).acc.parents.items.Keys
      == a.parents.items.Keys + FiredImporters(a.w, id, name, nsChanged, ss)
    decreases |ss|
  {
    if ss != [] {
      var a1 := SetterStep(a, id, name, nsChanged, ss[0]).acc;
      StepSchedules(a, id, name, nsChanged, ss[0]);
      FiredFrame(a.w, a1.w, id, name, nsChanged, ss[1..]);
      LoopSchedules(a1, id, name, nsChanged, ss[1..]);
    }
  }

  /** One step records its importer exactly when the setter fires. */
  lemma StepSchedules(a: Acc, id: EntryId, name: string, nsChanged: bool, s: Setter)
    requires id in a.w.entries && s.parent in a.w.entries
    requires SetterStep(a, id, name, nsChanged, s).Step?
    ensures var a1 := SetterStep(a, id, name, nsChanged, s).acc;
      && SetterFrame(a.w, a1.w, id)
      && a1.parents.items.Keys == a.parents.items.Keys
           + (if Fires(a.w, id, name, nsChanged, s) then {a.w.entries[s.parent].name} else {})
  {
  }

  /** `runSetter` records exactly the importers of the setters that fire. */
  lemma RunSetterSchedules(a: Acc, id: EntryId, name: string)
    requires id in a.w.entries && ParentsKnown(a.w, a.w.entries[id])
    requires RunSetter(a, id, name).Ran?
    ensures RunSetter(a, id, name).acc.parents.items.Keys == a.parents.items.Keys + NameFired(a.w, id, name)
  {
    var e := a.w.entries[id];
    if name in e.setters.items {
      LoopSchedules(a, id, name, name == "*" && e.changed, e.setters.items[name]);
    }
  }

  /** A pass's later names are judged the same on the store an earlier
      name's `runSetter` leaves. */
  lemma {:induction false} PassFiredFrame(w: World, w': World, id: EntryId, done: string, names: seq<string>)
    requires SetterFrame(w, w', id) && ParentsKnown(w, w.entries[id]) && ParentsKnown(w', w'.entries[id])
    requires w'.entries[id].setters.items.Keys == w.entries[id].setters.items.Keys
    requires forall k :: k in w.entries[id].setters.items && k != done ==>
      w'.entries[id].setters.items[k] == w.entries[id].setters.items[k]
    requires done !in names
    ensures PassFired(w', id, names) == PassFired(w, id, names)
    decreases |names|
  {
    if names != [] {
      var e := w.entries[id];
      if names[0] in e.setters.items {
        FiredFrame(w, w', id, names[0], names[0] == "*" && e.changed, e.setters.items[names[0]]);
      }
      PassFiredFrame(w, w', id, done, names[1..]);
    }
  }

  /** `runSetters` over distinct names records exactly the importers of the
      setters that fire, each judged against its memo and the lookup when
      the pass began. */
  lemma {:induction false} RunSettersSchedules(a: Acc, id: EntryId, names: seq<string>)
    requires id in a.w.entries && ParentsKnown(a.w, a.w.entries[id]) && Distinct(names)
    requires RunSetters(a, id, names).Ran?
    ensures RunSetters(a, id, names).acc.parents.items.Keys == a.parents.items.Keys + PassFired(a.w, id, names)
    decreases |names|
  {
    if names != [] {
      RunSetterSchedules(a, id, names[0]);
      var a1 := RunSetter(a, id, names[0]).acc;
      assert SetterFrame(a.w, a1.w, id);
      assert names[0] !in names[1..];
      PassFiredFrame(a.w, a1.w, id, names[0], names[1..]);
      RunSettersSchedules(a1, id, names[1..]);
    }
  }

  /** With fuel for one level only, `update()` runs out of fuel exactly when
      its pass of the setters called one: every importer whose binding was
      assigned is updated in turn, and with no such importer the update
      ends there. */
  lemma UpdateSchedulesFiredImporters(w: World, id: EntryId)
    requires Ready(w, id)
    ensures var w1 := RunGetters(ResetChanged(w, id), id);
      RunSetters(Acc(w1, Empty(), []), id, w1.entries[id].setters.order).Ran? ==>
        (Update(w, id, 1).OutOfFuel? <==> PassFired(w1, id, w1.entries[id].setters.order) != {})
  {
    var w1 := RunGetters(ResetChanged(w, id), id);
    var order := w1.entries[id].setters.order;
    if RunSetters(Acc(w1, Empty(), []), id, order).Ran? {
      UpdateGoesOnWhenRecorded(w, id);
      RunSettersSchedules(Acc(w1, Empty(), []), id, order);
    }
  }

  /** With fuel for one level, `update()` runs out exactly when its pass
      recorded an importer. */
  lemma UpdateGoesOnWhenRecorded(w: World, id: EntryId)
    requires Ready(w, id)
    ensures var w1 := RunGetters(ResetChanged(w, id), id);
      var p := RunSetters(Acc(w1, Empty(), []), id, w1.entries[id].setters.order);
      p.Ran? ==> (Update(w, id, 1).OutOfFuel? <==> p.acc.parents.items != map[])
  {
    var w1 := RunGetters(ResetChanged(w, id), id);
    var p := RunSetters(Acc(w1, Empty(), []), id, w1.entries[id].setters.order);
    if p.Ran? {
      ValuesEmpty(p.acc.parents);
      UpdateAllWithoutFuel(ResetChanged(p.acc.w, id), ValuesOf(p.acc.parents));
    }
  }

  /** With no fuel left, updating a list of importers runs out of fuel
      exactly when the list is not empty. */
  lemma UpdateAllWithoutFuel(w: World, ids: seq<EntryId>)
    ensures UpdateAll(w, ids, 0).OutOfFuel? <==> ids != []
  {
  }

  lemma ValuesEmpty<V>(m: OrdMap<V>)
    ensures ValuesOf(m) == [] <==> m.items == map[]
  {
    if m.order != [] {
      assert m.order[0] in m.items;
    } else {
      assert forall k :: k !in m.items;
    }
  }

  /** `update()` on an ES module entry that has nothing new to report — its
      change flag clear, every getter agreeing with the namespace and every
      setter's memo agreeing with a lookup — returns without changing
      anything and schedules no importer. */
  lemma QuietUpdateStops(w: World, id: EntryId, fuel: nat)
    requires fuel > 0 && Ready(w, id) && w.entries[id].mode == ESM && !w.entries[id].changed
    requires forall n :: n in w.entries[id].getters.order ==> !GetterFires(w, w.entries[id], n)
    requires AllSettled(w, id, w.entries[id].setters.order)
    ensures Update(w, id, fuel).Done? && Update(w, id, fuel).w == w
  {
    assert ResetChanged(w, id) == w;
    ExportsLaws.RunGettersOverQuiet(w, id, w.entries[id].getters.order);
    assert RunGetters(w, id) == w;
    RunSettersQuiet(Acc(w, Empty(), []), id, w.entries[id].setters.order);
    var r := RunSetters(Acc(w, Empty(), []), id, w.entries[id].setters.order);
    assert ValuesOf(r.acc.parents) == [];
    assert UpdateAll(ResetChanged(r.acc.w, id), [], fuel - 1) == Done(w, []);
  }
}

=== FILE: registry.dfy ===
/** The process-wide registry that maps a module handle, and the module's
    exports container, to its entry (`Entry.get/set/has/delete`). It is a
    weak map in the engine; here it is a plain map whose keys are the
    object-like values it was given. */
module Registry {
  import opened Values
  import opened OrderedMaps
  import opened EntryState

  /** `cache.get(key)`: only objects can be keys of a weak map. */
  function Lookup(w: World, key: Value): (r: Option<EntryId>)
    ensures r.Some? <==> ObjectLike(key) && key in w.cache
    ensures r.Some? ==> r.value == w.cache[key]
  {
    if ObjectLike(key) && key in w.cache then Some(w.cache[key]) else None
  }

  /** `Entry.set(value, entry)`: registers only object-like values. */
  function SetEntry(w: World, v: Value, id: EntryId): (w': World)
    ensures ObjectLike(v) ==> w'.cache == w.cache[v := id]
    ensures !ObjectLike(v) ==> w' == w
    ensures w'.entries == w.entries && w'.objects == w.objects && w'.modules == w.modules
  {
    if ObjectLike(v) then w.(cache := w.cache[v := id]) else w
  }

  lemma WfSetEntry(w: World, v: Value, id: EntryId)
    requires Wf(w) && id in w.entries
    ensures Wf(SetEntry(w, v, id))
  {
    if ObjectLike(v) { WfPutCache(w, v, id); }
  }

  /** `Entry.has(value)`: false for anything that is not object-like. */
  function HasEntry(w: World, v: Value): (b: bool)
    ensures b ==> ObjectLike(v)
  {
    ObjectLike(v) && v in w.cache
  }

  /** `Entry.delete(value)`: a no-op for values that are not object-like. */
  function DeleteEntry(w: World, v: Value): (w': World)
    ensures !ObjectLike(v) ==> w' == w
    ensures w'.cache.Keys == if ObjectLike(v) then w.cache.Keys - {v} else w.cache.Keys
    ensures forall k :: k in w'.cache ==> w'.cache[k] == w.cache[k]
    ensures w'.entries == w.entries && w'.objects == w.objects && w'.modules == w.modules
  {
    if ObjectLike(v) then w.(cache := w.cache - {v}) else w
  }

  lemma SetThenLookup(w: World, v: Value, id: EntryId, other: Value)
    ensures Lookup(SetEntry(w, v, id), v) == if ObjectLike(v) then Some(id) else None
    ensures other != v ==> Lookup(SetEntry(w, v, id), other) == Lookup(w, other)
  {
  }

  lemma DeleteThenHas(w: World, v: Value, other: Value)
    ensures !HasEntry(DeleteEntry(w, v), v)
    ensures other != v ==> HasEntry(DeleteEntry(w, v), other) == HasEntry(w, other)
  {
  }

  lemma SetThenHas(w: World, v: Value, id: EntryId)
    ensures HasEntry(SetEntry(w, v, id), v) <==> ObjectLike(v)
  {
  }

  function TemporalsOf(cd: CompileData): seq<string> {
    if cd.Compiled? then cd.exportTemporals else []
  }

  /** The `mode` getter: ESM exactly when the compile data says the source
      is a module; with no compile data the answer is "cjs". */
  function ModeOf(cd: CompileData): Mode {
    if cd.Compiled? && cd.sourceType == ModuleSource then ESM else CJS
  }

  /** `new Entry(mod)` with `_namespace` at the fresh object `ns`. */
  function NewEntryRec(w: World, mod: Value, ns: Ref): (e: EntryRec)
    requires IsModule(w, mod)
    ensures e.loaded == Incomplete && !e.changed
    ensures e.handle == mod && e.name == ModuleAt(w, mod).name
    ensures e.setters.items == map["*" := []] && e.setters.order == ["*"]
    ensures e.getters.items == map[] && e.children.items == map[]
    ensures e.cjsNamespace == Obj(ns) && e.esmNamespace == Obj(ns) && e.proxiedBy.None?
  {
    var m := ModuleAt(w, mod);
    EntryRec(
      name := m.name,
      handle := mod,
      exports := Null,
      loaded := Incomplete,
      mode := ModeOf(m.compileData),
      options := m.options,
      exportTemporals := TemporalsOf(m.compileData),
      changed := false,
      ns := ns,
      proxiedBy := None,
      cjsNamespace := Obj(ns),
      esmNamespace := Obj(ns),
      children := Empty(),
      getters := Empty(),
      setters := Put(Empty(), "*", []))
  }

  lemma NewEntryRefsOk(w: World, mod: Value, ns: Ref)
    requires IsModule(w, mod) && ns in w.objects
    ensures RefsOk(w, NewEntryRec(w, mod, ns))
  {
    var e := NewEntryRec(w, mod, ns);
    assert SettersRefsOk(w, e.setters.items["*"]);
  }

  /** Allocates a new entry for `mod` and its empty namespace object. */
  function Allocate(w: World, mod: Value): (r: (World, EntryId))
    requires IsModule(w, mod)
    ensures r.1 == w.nextEntry
    ensures r.0.entries == w.entries[r.1 := NewEntryRec(w, mod, w.nextRef)]
    ensures r.0.objects == w.objects[w.nextRef := Empty()]
    ensures r.0.nextEntry == w.nextEntry + 1 && r.0.nextRef == w.nextRef + 1
    ensures r.0.cache == w.cache && r.0.skipExports == w.skipExports && r.0.modules == w.modules
    ensures r.0.locals == w.locals && r.0.sealed == w.sealed
  {
    var w1 := w.(objects := w.objects[w.nextRef := Empty()], nextRef := w.nextRef + 1);
    var e := NewEntryRec(w1, mod, w.nextRef);
    (w1.(entries := w1.entries[w1.nextEntry := e], nextEntry := w1.nextEntry + 1), w.nextEntry)
  }

  lemma AllocateWf(w: World, mod: Value)
    requires Wf(w) && IsModule(w, mod)
    ensures Wf(Allocate(w, mod).0) && Grows(w, Allocate(w, mod).0)
    ensures Allocate(w, mod).1 !in w.entries
  {
    var w1 := w.(objects := w.objects[w.nextRef := Empty()], nextRef := w.nextRef + 1);
    WfAddObject(w);
    var e := NewEntryRec(w1, mod, w.nextRef);
    NewEntryRefsOk(w1, mod, w.nextRef);
    WfAddEntry(w1, e);
    var w2 := w1.(entries := w1.entries[w1.nextEntry := e], nextEntry := w1.nextEntry + 1);
    assert Wf(w2);
    assert Allocate(w, mod).0 == w2;
  }

  /** The container `Entry.get` keys on: `mod.exports` when the module's
      name is not in `skipExports`, nothing (undefined) otherwise. */
  function ExportedFor(w: World, mod: Value): Value
    requires IsModule(w, mod)
  {
    var m := ModuleAt(w, mod);
    if m.name in w.skipExports then Undefined else m.exports
  }

  /** `Entry.get(mod)`: a falsy handle has no entry; otherwise the entry
      registered under the exports container or the handle, or a new one
      registered under both. */
  function GetEntry(w: World, mod: Value): (r: (World, Option<EntryId>))
    requires Falsy(mod) || IsModule(w, mod)
    ensures Falsy(mod) ==> r == (w, None)
    ensures !Falsy(mod) ==> r.1.Some? && r.0.modules == w.modules
  {
    if Falsy(mod) then (w, None)
    else
      var exported := ExportedFor(w, mod);
      var useExports := ObjectLike(exported);
      var hit := Lookup(w, if useExports then exported else mod);
      var hit' := if hit.None? && useExports then Lookup(w, mod) else hit;
      if hit'.Some? then (w, hit')
      else
        var (w1, id) := Allocate(w, mod);
        (SetEntry(SetEntry(w1, mod, id), exported, id), Some(id))
  }

  /** A fresh entry registered under the handle and the container keeps
      the world well formed. */
  lemma RegisterFreshWf(w: World, mod: Value, exported: Value)
    requires Wf(w) && IsModule(w, mod)
    ensures var (w1, id) := Allocate(w, mod);
      var r := SetEntry(SetEntry(w1, mod, id), exported, id);
      Wf(r) && Grows(w, r)
  {
    var (w1, id) := Allocate(w, mod);
    AllocateWf(w, mod);
    WfSetEntry(w1, mod, id);
    WfSetEntry(SetEntry(w1, mod, id), exported, id);
  }

  /** ... and changes nothing that was already there. */
  lemma RegisterFreshFrame(w: World, mod: Value, exported: Value)
    requires Wf(w) && IsModule(w, mod)
    ensures var (w1, id) := Allocate(w, mod);
      var r := SetEntry(SetEntry(w1, mod, id), exported, id);
      && (forall i :: i in w.entries ==> r.entries[i] == w.entries[i])
      && r.skipExports == w.skipExports && r.locals == w.locals && r.sealed == w.sealed
      && (forall x :: x in w.objects ==> r.objects[x] == w.objects[x])
  {
    var (w1, id) := Allocate(w, mod);
    var r := SetEntry(SetEntry(w1, mod, id), exported, id);
    assert r.entries == w1.entries && r.objects == w1.objects && r.sealed == w1.sealed;
    forall i | i in w.entries ensures r.entries[i] == w.entries[i] {
      assert i != w.nextEntry;
    }
    forall x | x in w.objects ensures r.objects[x] == w.objects[x] {
      assert x != w.nextRef;
    }
  }

  /** `Entry.get` only adds: existing entries, objects, locals and the
      skip set are untouched and the world stays well formed. */
  lemma GetEntryFrame(w: World, mod: Value)
    requires Wf(w) && (Falsy(mod) || IsModule(w, mod))
    ensures var r := GetEntry(w, mod);
      && Wf(r.0) && Grows(w, r.0)
      && (r.1.Some? ==> r.1.value in r.0.entries)
      && (forall id :: id in w.entries ==> r.0.entries[id] == w.entries[id])
      && r.0.skipExports == w.skipExports && r.0.locals == w.locals && r.0.sealed == w.sealed
      && (forall x :: x in w.objects ==> r.0.objects[x] == w.objects[x])
  {
    if !Falsy(mod) {
      RegisterFreshWf(w, mod, ExportedFor(w, mod));
      RegisterFreshFrame(w, mod, ExportedFor(w, mod));
    }
  }

  /** Which entry `Entry.get` finds, stated without the function: the one
      keyed by the exports container when that is usable, else the one keyed
      by the handle, else a fresh entry registered under both. */
  lemma GetEntryFinds(w: World, mod: Value)
    requires IsModule(w, mod) && !Falsy(mod)
    ensures var exported := ExportedFor(w, mod);
      var (w', r) := GetEntry(w, mod);
      && (ObjectLike(exported) && exported in w.cache ==>
            w' == w && r == Some(w.cache[exported]))
      && (!(ObjectLike(exported) && exported in w.cache) && mod in w.cache ==>
            w' == w && r == Some(w.cache[mod]))
      && (!(ObjectLike(exported) && exported in w.cache) && mod !in w.cache ==>
            && r == Some(w.nextEntry)
            && w'.entries == w.entries[w.nextEntry := NewEntryRec(w, mod, w.nextRef)]
            && w'.cache == (if ObjectLike(exported) then w.cache[mod := w.nextEntry][exported := w.nextEntry]
                            else w.cache[mod := w.nextEntry]))
  {
  }

  /** Looking the same module up twice finds the same entry and creates
      nothing the second time. */
  lemma GetEntryIdempotent(w: World, mod: Value)
    requires Falsy(mod) || IsModule(w, mod)
    ensures var (w1, r1) := GetEntry(w, mod);
      GetEntry(w1, mod) == (w1, r1)
  {
    if !Falsy(mod) {
      var (w1, r1) := GetEntry(w, mod);
      assert ModuleAt(w1, mod) == ModuleAt(w, mod);
      var exported := ExportedFor(w, mod);
      assert ExportedFor(w1, mod) == exported;
      GetEntryFinds(w, mod);
    }
  }
}

=== FILE: string_order.dfy ===
/** The order `Array.prototype.sort` uses when it is given no comparator:
    strings compared by their UTF-16 code units, element by element, a
    proper prefix first. A character outside the Basic Multilingual Plane is
    two code units, a surrogate pair, so it sorts before a character in
    U+E000..U+FFFF although its code point is larger. */
module StringOrder {

  /** The UTF-16 code units of one character. Dafny characters are Unicode
      scalar values, so a lone surrogate never occurs. */
  function CodeUnits(c: char): (r: seq<int>)
    ensures 1 <= |r| <= 2 && (|r| == 1 <==> c as int < 0x10000)
    ensures |r| == 1 ==> r[0] == c as int && (r[0] < 0xD800 || 0xE000 <= r[0])
    ensures |r| == 2 ==> 0xD800 <= r[0] < 0xDC00 && 0xDC00 <= r[1] < 0xE000
  {
    var n := c as int;
    if n < 0x10000 then [n] else [0xD800 + (n - 0x10000) / 0x400, 0xDC00 + (n - 0x10000) % 0x400]
  }

  /** A string as JavaScript holds it: its sequence of UTF-16 code units. */
  function Utf16(s: string): seq<int>
  {
    if s == [] then [] else CodeUnits(s[0]) + Utf16(s[1..])
  }

  /** Lexicographic order on code-unit sequences. */
  predicate UnitsLessEq(a: seq<int>, b: seq<int>)
    decreases |a|
  {
    if a == [] then true
    else if b == [] then false
    else if a[0] != b[0] then a[0] < b[0]
    else UnitsLessEq(a[1..], b[1..])
  }

  /** A character in U+E000..U+FFFF: one code unit, above every surrogate. */
  predicate HighBmp(c: char) {
    '\U{E000}' <= c <= '\U{FFFF}'
  }

  /** Two characters in UTF-16 order: characters below U+D800 first, then
      those outside the Basic Multilingual Plane (whose first code unit is a
      surrogate, 0xD800..0xDBFF), then U+E000..U+FFFF; by code point within
      each group. */
  predicate CharBefore(c: char, d: char) {
    if HighBmp(c) == HighBmp(d) then c < d else HighBmp(d)
  }

  /** The order of the default `Array.prototype.sort`: strings compared
      character by character in UTF-16 order, a proper prefix first. */
  predicate LessEq(a: string, b: string)
    decreases |a|
  {
    if a == [] then true
    else if b == [] then false
    else if a[0] != b[0] then CharBefore(a[0], b[0])
    else LessEq(a[1..], b[1..])
  }

  lemma UnitsCommonPrefix(u: seq<int>, x: seq<int>, y: seq<int>)
    ensures UnitsLessEq(u + x, u + y) == UnitsLessEq(x, y)
    decreases |u|
  {
    if u != [] {
      assert (u + x)[1..] == u[1..] + x && (u + y)[1..] == u[1..] + y;
      UnitsCommonPrefix(u[1..], x, y);
    } else {
      assert u + x == x && u + y == y;
    }
  }

  /** Two different characters: their code units first differ where their
      UTF-16 order says. */
  lemma CodeUnitsDiffer(c: char, d: char, x: seq<int>, y: seq<int>)
    requires c != d
    ensures UnitsLessEq(CodeUnits(c) + x, CodeUnits(d) + y) == CharBefore(c, d)
  {
    var u, v := CodeUnits(c) + x, CodeUnits(d) + y;
    var m, n := c as int - 0x10000, d as int - 0x10000;
    if c as int >= 0x10000 && d as int >= 0x10000 {
      assert m == (m / 0x400) * 0x400 + m % 0x400;
      assert n == (n / 0x400) * 0x400 + n % 0x400;
      if u[0] == v[0] {
        assert m % 0x400 != n % 0x400;
        assert u[1..][0] == u[1] && v[1..][0] == v[1];
      }
    }
  }

  /** `LessEq` is exactly lexicographic comparison of the UTF-16 encodings,
      which is what the default `Array.prototype.sort` compares. */
  lemma {:induction false} LessEqIsCodeUnitOrder(a: string, b: string)
    ensures LessEq(a, b) <==> UnitsLessEq(Utf16(a), Utf16(b))
    decreases |a|
  {
    if a != [] && b != [] {
      if a[0] == b[0] {
        LessEqIsCodeUnitOrder(a[1..], b[1..]);
        UnitsCommonPrefix(CodeUnits(a[0]), Utf16(a[1..]), Utf16(b[1..]));
      } else {
        CodeUnitsDiffer(a[0], b[0], Utf16(a[1..]), Utf16(b[1..]));
      }
    }
  }

  lemma LessEqTotal(a: string, b: string)
    ensures LessEq(a, b) || LessEq(b, a)
    decreases |a|
  {
    if a != [] && b != [] && a[0] == b[0] {
      LessEqTotal(a[1..], b[1..]);
    }
  }

  lemma LessEqAntisymmetric(a: string, b: string)
    requires LessEq(a, b) && LessEq(b, a)
    ensures a == b
    decreases |a|
  {
    if a != [] && b != [] {
      LessEqAntisymmetric(a[1..], b[1..]);
      assert a == [a[0]] + a[1..] && b == [b[0]] + b[1..];
    }
  }

  lemma LessEqTransitive(a: string, b: string, c: string)
    requires LessEq(a, b) && LessEq(b, c)
    ensures LessEq(a, c)
    decreases |a|
  {
    if a != [] && b != [] && c != [] && a[0] == b[0] && b[0] == c[0] {
      LessEqTransitive(a[1..], b[1..], c[1..]);
    }
  }

  /** Where code-unit order and code-point order part: U+1F600 is encoded
      as 0xD83D 0xDE00 and so sorts before U+FF01. */
  lemma SurrogatesSortFirst()
    ensures LessEq("\U{1F600}", "\U{FF01}") && !LessEq("\U{FF01}", "\U{1F600}")
    ensures Utf16("\U{1F600}") == [0xD83D, 0xDE00] && Utf16("\U{FF01}") == [0xFF01]
  {
  }

  ghost predicate Sorted(s: seq<string>) {
    forall i, j {:trigger LessEq(s[i], s[j])} :: 0 <= i < j < |s| ==> LessEq(s[i], s[j])
  }

  lemma SortedTail(s: seq<string>)
    requires Sorted(s) && s != []
    ensures Sorted(s[1..])
  {
    forall i, j | 0 <= i < j < |s| - 1 ensures LessEq(s[1..][i], s[1..][j]) {
      assert s[1..][i] == s[i + 1] && s[1..][j] == s[j + 1];
    }
  }

  lemma SortedCons(h: string, t: seq<string>)
    requires Sorted(t)
    requires forall j :: 0 <= j < |t| ==> LessEq(h, t[j])
    ensures Sorted([h] + t)
  {
    var r := [h] + t;
    forall i, j | 0 <= i < j < |r| ensures LessEq(r[i], r[j]) {
      if i == 0 { assert r[j] == t[j - 1]; }
      else { assert r[i] == t[i - 1] && r[j] == t[j - 1]; }
    }
  }

  /** Places `x` before the first element it sorts at or before. */
  function Insert(x: string, s: seq<string>): (r: seq<string>)
    ensures multiset(r) == multiset(s) + multiset{x}
  {
    if s == [] || LessEq(x, s[0]) then [x] + s
    else
      assert s == [s[0]] + s[1..];
      [s[0]] + Insert(x, s[1..])
  }

  lemma {:induction false} InsertSorted(x: string, s: seq<string>)
    requires Sorted(s)
    ensures Sorted(Insert(x, s))
  {
    if s == [] || LessEq(x, s[0]) {
      forall j | 0 <= j < |s| ensures LessEq(x, s[j]) {
        if j > 0 { LessEqTransitive(x, s[0], s[j]); }
      }
      SortedCons(x, s);
    } else {
      SortedTail(s);
      InsertSorted(x, s[1..]);
      var t := Insert(x, s[1..]);
      LessEqTotal(x, s[0]);
      forall j | 0 <= j < |t| ensures LessEq(s[0], t[j]) {
        assert t[j] in multiset(t);
        if t[j] != x {
          assert t[j] in multiset(s[1..]);
          var k :| 0 <= k < |s[1..]| && s[1..][k] == t[j];
          assert s[k + 1] == t[j];
        }
      }
      SortedCons(s[0], t);
    }
  }

  /** Insertion sort: the result holds the same strings, in order. */
  function Sort(s: seq<string>): (r: seq<string>)
    ensures Sorted(r)
    ensures multiset(r) == multiset(s)
  {
    if s == [] then []
    else
      assert s == [s[0]] + s[1..];
      var t := Sort(s[1..]);
      InsertSorted(s[0], t);
      Insert(s[0], t)
  }

  /** The first string of an ordered sequence sorts at or before every
      string in it. */
  lemma FirstIsLeast(s: seq<string>, x: string)
    requires Sorted(s) && x in multiset(s)
    ensures LessEq(s[0], x)
  {
    var i :| 0 <= i < |s| && s[i] == x;
    if i == 0 { LessEqTotal(x, x); }
  }

  /** Two ordered sequences holding the same strings are equal: the order of
      a sorted key list depends on nothing but the keys. */
  lemma {:induction false} SortedUnique(a: seq<string>, b: seq<string>)
    requires Sorted(a) && Sorted(b)
    requires multiset(a) == multiset(b)
    ensures a == b
    decreases |a|
  {
    if a != [] {
      assert |b| == |multiset(b)| == |a| > 0;
      assert a[0] == b[0] by {
        FirstIsLeast(a, b[0]);
        FirstIsLeast(b, a[0]);
        LessEqAntisymmetric(a[0], b[0]);
      }
      assert a == [a[0]] + a[1..] && b == [b[0]] + b[1..];
      assert multiset(a) == multiset{a[0]} + multiset(a[1..]);
      assert multiset(b) == multiset{b[0]} + multiset(b[1..]);
      assert multiset(a[1..]) == multiset(a) - multiset{a[0]};
      assert multiset(b[1..]) == multiset(b) - multiset{b[0]};
      SortedTail(a);
      SortedTail(b);
      SortedUnique(a[1..], b[1..]);
    }
  }

  /** Sorting a list of distinct keys yields a list of distinct keys with the
      same members. */
  lemma SortKeepsMembers(s: seq<string>)
    ensures forall x :: x in Sort(s) <==> x in s
  {
    var r := Sort(s);
    forall x ensures x in r <==> x in s {
      assert x in r <==> x in multiset(r);
      assert x in s <==> x in multiset(s);
    }
  }
}

=== FILE: values.dfy ===
/** JavaScript values as the binding engine sees them.

    Numbers are split so that the two equality relations the engine cares
    about can be told apart: `NaN`, `NegZero` (-0) and `Num(x)` for every other
    number, `Num(0.0)` being +0. Objects are identified by a reference; the
    objects the engine itself creates (namespace views, the exports proxy and
    the two sentinels) have their own variants. */
module Values {

  type Ref = nat
  type EntryId = nat

  datatype Option<+T> = None | Some(value: T)

  /** Which of an entry's two namespace views a view object is. */
  datatype ViewKind = CjsView | EsmView

  /** What a namespace view reads through to: an entry's namespace object
      (possibly behind the default-wrapping proxy that entry `proxiedBy`
      installed), or the object literal `{ default: container }`. */
  datatype ViewSource =
    | LiveNamespace(ns: Ref, proxiedBy: Option<EntryId>)
    | DefaultOnly(container: Value)

  datatype Value =
    | Undefined
    | Null
    | Bool(b: bool)
    | NaN
    | NegZero
    | Num(x: real)
    | Str(s: string)
    | Obj(ref: Ref)
    | NsView(owner: EntryId, kind: ViewKind, keys: seq<string>, source: ViewSource)
    | ExportsProxy(owner: EntryId)
    | Intrinsic(name: string)
    | StarError
    | GetterError

  predicate IsNumber(v: Value) {
    v.NaN? || v.NegZero? || v.Num?
  }

  /** `isObjectLike`: typeof is "object" (and not null) or "function". */
  predicate ObjectLike(v: Value) {
    v.Obj? || v.NsView? || v.ExportsProxy? || v.Intrinsic? || v.StarError? || v.GetterError?
  }

  /** ToBoolean(v) is false. */
  predicate Falsy(v: Value) {
    match v
    case Undefined => true
    case Null => true
    case Bool(b) => !b
    case NaN => true
    case NegZero => true
    case Num(x) => x == 0.0
    case Str(s) => s == ""
    case _ => false
  }

  /** SameValue (ECMA-262 section 7.2.10), which is what `Object.is` computes:
      NaN equals NaN, +0 and -0 differ. */
  predicate SameValue(a: Value, b: Value) {
    if IsNumber(a) && IsNumber(b) then
      if a.NaN? || b.NaN? then a.NaN? && b.NaN?
      else if a.NegZero? || b.NegZero? then a.NegZero? && b.NegZero?
      else a.x == b.x
    else a == b
  }

  /** SameValueZero (ECMA-262 section 7.2.11): like SameValue but +0 equals -0. */
  predicate SameValueZero(a: Value, b: Value) {
    if IsNumber(a) && IsNumber(b) then
      if a.NaN? || b.NaN? then a.NaN? && b.NaN?
      else NumValue(a) == NumValue(b)
    else a == b
  }

  /** Strict equality `===` (ECMA-262 section 7.2.15): NaN differs from
      itself, +0 equals -0. */
  predicate StrictEquals(a: Value, b: Value) {
    if IsNumber(a) && IsNumber(b) then
      if a.NaN? || b.NaN? then false
      else NumValue(a) == NumValue(b)
    else a == b
  }

  function NumValue(v: Value): real
    requires IsNumber(v) && !v.NaN?
  {
    if v.NegZero? then 0.0 else v.x
  }

  /** With this representation of numbers, SameValue is plain identity. */
  lemma SameValueIsIdentity(a: Value, b: Value)
    ensures SameValue(a, b) <==> a == b
  {
  }

  /** `Object.is` and SameValueZero disagree exactly on a pair of zeros of
      opposite sign. */
  lemma SameValueVersusSameValueZero(a: Value, b: Value)
    ensures SameValue(a, b) != SameValueZero(a, b)
        <==> (a == NegZero && b == Num(0.0)) || (a == Num(0.0) && b == NegZero)
  {
  }

  /** `Object.is` and `===` disagree exactly on NaN against itself and on a
      pair of zeros of opposite sign. */
  lemma SameValueVersusStrictEquals(a: Value, b: Value)
    ensures SameValue(a, b) != StrictEquals(a, b)
        <==> ((a == NaN && b == NaN)
              || (a == NegZero && b == Num(0.0)) || (a == Num(0.0) && b == NegZero))
  {
  }

  /** On every non-number `===` is identity, which is how the engine compares
      its sentinels. */
  lemma StrictEqualsOnSentinels(v: Value)
    ensures StrictEquals(v, StarError) <==> v == StarError
    ensures StrictEquals(v, GetterError) <==> v == GetterError
  {
  }
}
